=== FILE: README.md ===
# AI newsletter pipeline — a Dafny model of its deterministic core

The system gathers the last 24 hours of AI news and turns it into a searchable store.
It reads a list of RSS feeds and keeps the entries published within the window.
For each article it scrapes the page: first with a rendering browser, twice at most, then with a plain HTTP fetch.
It has a language model summarise the text and cleans the summary for text-to-speech.
It embeds the content and stores it, with sanitised and capped metadata, in a vector index that was emptied at the start of the run.

This project models the deterministic logic of that pipeline in Dafny and proves properties of it.
The remote services and libraries around the logic become inputs:
the feed library, the date parser, the HTML selector engine, `urljoin`, the MD5 digest, the embedding and summarisation services, and the vector index's failures and answers.

Modules, one per source file, plus two helpers:

- `Wrappers`: `Option`.
- `PyStr`: Python string semantics used throughout. This covers `str.isspace` (the exact code-point set), `strip`, `splitlines`, `split`, `join`, `re.sub(r'\s+', ' ', …)`, `str.replace`, and filtering.
- `TextUtils` (`text_utils.py`): the speech-safety cleaner, the URL cleaner and the metadata sanitiser.
- `SummaryText` (`text_utils.py`): the citation stripper and the sentence-completion pass.
- `DateUtils` (`date_utils.py`): date parsing and the 24-hour window. An instant is integer seconds; a reading is a wall-clock value with an optional UTC offset.
- `RssFetcher` (`rss_fetcher.py`): feed entry selection.
- `Scrape` (`scrape.py`): the scraper's text extraction, image choice and fetch-path decisions.
- `AiServices` (`ai_services.py`): the text-to-speech preprocessing rules and the two retry loops.
- `PineconeManager` (`pinecone_manager.py`): the vector-store writer. The index is a `map<Id, Record>`.
- `Pipeline` (`pipeline.py`): the orchestrator and the `main` gate.

Three behaviours of the code are easy to misread, and the model keeps them as the code has them:

- **Short first attempt.** A rendered attempt that succeeds but yields 100 characters or fewer is NOT retried with the second rendered configuration. The rendered path gives up, and the plain fetch takes over (`Scrape.ShortContentNotRetried`).
- **Blank last container.** When the last container selector matches but no selector yields visible text, the cleaned-HTML text is empty. It is not the body's text (`Scrape.ExtractTextFromHtml`).
- **Plain-fetch selectors.** The plain fetch uses its own, shorter selector list and takes the first container that matches, blank or not (`Scrape.ScrapeWithRequests`).

## Model

| member | source | states |
|---|---|---|
| `TextUtils.CleanTextForSpeech` | text_utils.py:6-38 | Empty text gives `""`. The result has no leading or trailing whitespace. Every character of it is in the kept class `[\w\s.,!?;:()\-'"&@#%]`, is not one of the listed unwanted symbols (typographic quotes included), and is a plain space if it is whitespace at all. Every comma of the input survives. |
| `TextUtils.CleanTextForSpeechAsWritten` | text_utils.py:6-38 | The cleaner with the replacement list as Python actually reads line 13. The result is empty for empty input, stripped, and free of every character the as-written list names. |
| `TextUtils.CleanFixpoint` | text_utils.py:6-38 | Text that is already speech-safe, single-spaced, stripped and free of underscores comes back unchanged. |
| `TextUtils.CommaSpaceDropped` | text_utils.py:13 | `"a, b"` is such clean text, and the intended cleaner leaves it alone. The as-written cleaner turns it into `"a b"`. |
| `TextUtils.StarCommaDropped` | text_utils.py:13-19 | `"a,*b"` holds no space and no straight quote. The intended cleaner gives `"a, b"`, keeping the comma. The as-written cleaner gives `"a b"`, because the `*` entry, applied first, spaces the comma and the `", "` entry then removes it. |
| `TextUtils.QuotesBlanked` | text_utils.py:11-22 | The typographic quotes ‘ ’ “ ” never survive either cleaner: the intended one lists them, and the as-written one removes them through the character-class rule. |
| `TextUtils.CleanUrl` | text_utils.py:72-78 | Empty input gives `""`. Every output character has code point 32 or more and is not a space. The visible characters of the output are the visible characters of the input that the filter keeps, in the same order. Each such character occurs exactly as often as in the input, and nothing is added. |
| `TextUtils.CleanUrlFixpoint` | text_utils.py:72-78 | A URL comes back unchanged if and only if it has no edge whitespace and contains only characters the filter keeps. |
| `TextUtils.CleanUrlIdempotent` | text_utils.py:72-78 | Cleaning twice equals cleaning once when all whitespace in the input is ASCII. |
| `TextUtils.CleanUrlTwice` | text_utils.py:72-78 | Without that proviso idempotence fails. `"a" + U+00A0 + U+0001` cleans to `"a" + U+00A0`, which cleans further to `"a"`: the strip sees Unicode whitespace that the filter keeps. |
| `TextUtils.CleanUrlNoSpace` | text_utils.py:72-78 | When the input's whitespace is ASCII, the output contains no whitespace at all. |
| `TextUtils.PyPrefix` | text_utils.py:90 | `s[:n]` with Python's bounds. The result is a prefix of `s`. For `n >= 0` its length is the smaller of `n` and the length of `s`; a negative `n` leaves off `-n` characters from the end, and nothing when `s` is shorter. |
| `TextUtils.CleanStringForMetadata` | text_utils.py:80-90 | Empty input gives `""`. The result is a prefix of the cleaned text. Its length is exactly what Python's `[:max_len]` leaves: the smaller of `max_len` and the cleaned length, or, for a negative limit, the cleaned length less `-max_len` and at least 0. With `preserve_url` every character is one the URL filter keeps. Without it, every character is printable ASCII (32..126) and speech-safe. |
| `TextUtils.MetadataMonotone` | text_utils.py:90 | Of two limits with the same sign, the larger lets through at least as much, and the shorter result is a prefix of the longer one. |
| `TextUtils.MetadataKeepsClean` | text_utils.py:80-90 | Clean printable text within the limit is stored verbatim. |
| `TextUtils.MetadataKeepsUrl` | text_utils.py:80-90 | A URL with no edge whitespace and only kept characters, within the limit, is stored verbatim. |
| `SummaryText.StripMarkersCount` | text_utils.py:47-50 | Removing `[digits]` or `(digits)` markers never changes how often a character other than the brackets and digits occurs. |
| `SummaryText.StripMarkersFirst` | text_utils.py:47-50 | When the text before a marker holds no opening bracket, that marker is removed whole and the text before it is untouched. |
| `SummaryText.CutReferences` | text_utils.py:53 | The result is a prefix of the text. Where it stops short, the text has a `Reference(s):`/`Source(s):` heading (any case, after any line breaks) at the cut. No such heading starts earlier. |
| `SummaryText.ReferenceExample` | text_utils.py:53 | `"Hi\nSources: x"` is cut to `"Hi"`. |
| `SummaryText.StripNumberedLinesGone` | text_utils.py:56 | After the numbered-line rule, no position starts a line break, digits, a full stop and whitespace. |
| `SummaryText.DropTrailingNumber` | text_utils.py:59 | The result is a prefix. Where it stops short, whitespace, digits, optional whitespace and the end follow. No earlier position starts such a tail. |
| `SummaryText.DropTrailingNumberAppended` | text_utils.py:59 | A body ending in a non-space, followed by a space and a number, loses exactly the space and the number. |
| `SummaryText.DropLeadingNumber` | text_utils.py:60 | The result is a suffix of the text. What is removed is a match of `^\s*\d+\s+`: whitespace, at least one digit, then whitespace up to a non-space or the end. Nothing is removed exactly when no such match exists. |
| `SummaryText.DropLeadingNumberPrefixed` | text_utils.py:60 | Digits, a space and a body that starts with a non-space give back exactly the body. |
| `SummaryText.DropLeadingNumberSolid` | text_utils.py:60 | Text that starts with a character that is neither whitespace nor a digit is left alone. |
| `SummaryText.NewlinePassIdle` | text_utils.py:63-64 | After whitespace collapsing, the line-break pass changes nothing. |
| `SummaryText.CleanPerplexitySummary` | text_utils.py:41-69 | Empty text gives `""`. The result is stripped, has no line break, and every character is speech-safe. |
| `SummaryText.PlainSummary` | text_utils.py:41-69 | Text with no digit and no colon gives no citation pass anything to do: the result is the speech cleaner applied to the whitespace-collapsed text. |
| `SummaryText.ReferenceSectionDropped` | text_utils.py:53-69 | A line break followed by a `Reference(s):`/`Source(s):` heading and anything at all after it is dropped: `body + "\n" + heading + x` cleans exactly as `body`, for a body with no colon or opening bracket that does not end in a line break. |
| `SummaryText.BracketCitationDropped` | text_utils.py:47-69 | Inserting a `[digits]` marker after text with no `[` does not change the cleaned result. |
| `SummaryText.ParenCitationDropped` | text_utils.py:47-69 | Inserting a `(digits)` marker after text with no `(`, in text with no `[`, does not change the cleaned result. |
| `SummaryText.SplitSentences` | text_utils.py:98 | Splitting on runs of `.!?` gives at least one piece, and no piece contains a terminator. Laid end to end, the pieces are the text with its terminators taken out. |
| `SummaryText.SplitWoven` | text_utils.py:98 | The pieces of the split, interleaved with the maximal runs of `.!?` of the text, give back the text. Every piece is free of terminators, every run is a non-empty run of terminators, and only the first and last pieces may be empty. |
| `SummaryText.WovenIsSplit` | text_utils.py:98 | Conversely, any pieces and runs laid out that way over a text are exactly the split and the runs: the split points are determined by the text. |
| `SummaryText.NonBlank` | text_utils.py:101 | Every kept piece is non-empty and stripped, and there are no more of them than pieces. A string is kept exactly when it is the non-empty strip of some piece. |
| `SummaryText.NonBlankSingle` | text_utils.py:101 | A single piece is kept as its strip, or dropped when the strip is empty. |
| `SummaryText.NonBlankAppend` | text_utils.py:101 | Filtering keeps order and multiplicity: the kept pieces of a concatenation are the kept pieces of each part, concatenated. |
| `SummaryText.DropShortLast` | text_utils.py:104-106 | The last piece is dropped exactly when it is shorter than 10 characters. At most one piece is dropped, and the rest is a prefix. |
| `SummaryText.EnsureCompleteSentences` | text_utils.py:92-115 | Empty text, and text where no piece survives, come back unchanged. Otherwise splitting the result gives exactly the surviving pieces, and the result ends in `.` and has no `!` or `?`. |
| `SummaryText.PiecesOfJoined` | text_utils.py:98-112 | Round trip: sentences joined with `". "` plus a final `"."` split back into the same sentences. |
| `SummaryText.ShortTailDropped` | text_utils.py:104-112 | A short unterminated last sentence is cut off and the rest is closed with a period. |
| `SummaryText.CompleteIdle` | text_utils.py:92-115 | A run of complete sentences whose last one has 10 or more characters is left unchanged. |
| `SummaryText.IdempotentIff` | text_utils.py:92-115 | A second pass changes nothing if and only if at most one piece survived the first pass or the last survivor has 10 or more characters. |
| `SummaryText.FragmentExample` | text_utils.py:92-115 | `"This is fine. Short"` becomes `"This is fine."`. |
| `DateUtils.ParseDateFlexible` | date_utils.py:7-21 | Gives a reading if and only if the string is non-empty and parses. A reading always carries an offset, UTC when the parse was naive, and denotes the same instant as the parse. |
| `DateUtils.IsFromLast24Hours` | date_utils.py:24-52 | A missing or empty date is not recent, and neither is an unparseable string. Otherwise the answer is true if and only if the instant lies in the closed interval from 24 hours before the reference up to the reference. |
| `DateUtils.WindowInclusive` | date_utils.py:47-48 | Exactly 24 hours old and exactly the reference instant are both recent. |
| `DateUtils.WindowExclusive` | date_utils.py:47-48 | One second older than 24 hours is not recent, and no future instant is. |
| `DateUtils.RecentIff` | date_utils.py:37-48 | For a parsed date, recency is membership of the closed 24-hour interval ending at the reference. |
| `DateUtils.NaiveIsUtc` | date_utils.py:37-40 | A naive reading is judged as the same wall clock at UTC. |
| `DateUtils.OffsetInvariant` | date_utils.py:37-48 | The same instant written in another time zone gets the same answer. |
| `DateUtils.TextAgreesWithStamp` | date_utils.py:32-35 | Passing a parseable string or the date it parses to makes no difference. |
| `RssFetcher.EntryDate` | rss_fetcher.py:30-35 | The date is parsed from `published` whenever that attribute exists, even if it fails to parse. It comes from `updated` only when `published` is absent, and is absent when both are. |
| `RssFetcher.MakeArticle` | rss_fetcher.py:39-46 | Title defaults to `No Title`, URL and summary to `""`, author to `Unknown`. The source is the feed's name, and `published` is the ISO rendering of the parsed reading, with the offset it was read with. |
| `RssFetcher.Admit` | rss_fetcher.py:29-52 | An entry yields an article if and only if its handling does not raise, it has a date, and the date is within the window. The article is the one built from the entry and that date. |
| `RssFetcher.EntryArticles` | rss_fetcher.py:27-52 | A source yields no more articles than it has entries, and each names that source. |
| `RssFetcher.EntryArticlesMembers` | rss_fetcher.py:28-48 | An article comes out of a source if and only if one of its entries admits it. |
| `RssFetcher.EntryArticlesAppend` | rss_fetcher.py:28-55 | Entries are handled independently and in order: the articles of a concatenation are the concatenation of the articles. |
| `RssFetcher.FailingEntrySkipped` | rss_fetcher.py:51-52 | An entry that raises is skipped, and the entries around it give what they give without it. |
| `RssFetcher.PublishedWins` | rss_fetcher.py:32-35 | With a `published` attribute, `updated` is never consulted. |
| `RssFetcher.UnparseablePublishedDropped` | rss_fetcher.py:32-38 | An unparseable `published` does not fall back to `updated`: the entry is dropped. |
| `RssFetcher.FetchRecentArticles` | rss_fetcher.py:9-61 | An article is fetched exactly when some configured source contributes it. |
| `RssFetcher.ArticleSources` | rss_fetcher.py:17-55 | Every fetched article names one of the configured sources. |
| `RssFetcher.FetchAppend` | rss_fetcher.py:17-58 | Sources are handled in configured order with no reordering or deduplication: the articles of a concatenation of sources are the concatenation of their articles. |
| `RssFetcher.FailingSourceSkipped` | rss_fetcher.py:57-58 | A source whose fetch raised contributes nothing and leaves the other sources' articles as they are. |
| `Scrape.NormaliseWhitespace` | scrape.py:138-140 | The result has no line break, no two adjacent spaces and no edge whitespace. Its visible characters are exactly those of the input, in order. |
| `Scrape.ExtractTextFromHtml` | scrape.py:114-146 | The result is normalised. It holds the visible text of the first container with visible text. When no container has visible text, it is empty if the last selector matched a blank container, and it holds the body's (or the document's) visible text if the last selector matched nothing or there are no selectors. |
| `Scrape.CleanMarkdown` | scrape.py:148-159 | The result is stripped and single-spaced and contains no `#`, `*`, `_` or backtick. Its visible characters are those of the link-free markdown minus the marks. |
| `Scrape.UnlinkLink` | scrape.py:153 | `[text](url)` becomes `text`. |
| `Scrape.ExtractImage` | scrape.py:161-195 | The result is `""` exactly when no candidate is accepted. Otherwise it is the first accepted candidate, and it starts with `http` and has an image extension somewhere in its lower-case form. |
| `Scrape.ProtocolRelative` | scrape.py:183-184 | A `//host/...` source is accepted as `https://host/...`. |
| `Scrape.RelativePathRejected` | scrape.py:183-190 | A relative path that does not start with `/` or `http` is rejected. |
| `Scrape.AcceptedAbsolute` | scrape.py:188-190 | An absolute image URL is accepted unchanged. |
| `Scrape.ExtensionAnywhere` | scrape.py:188-189 | The extension test is a substring test: `.gif` in the middle of the URL suffices. |
| `Scrape.Cap` | scrape.py:102-103 | The result is a prefix of the input. It equals the input when that is within 15000 characters, and is exactly 15000 characters long otherwise. |
| `Scrape.MarkdownFallback` | scrape.py:89-95 | Cleaned markdown replaces the HTML text exactly when that text is shorter than 100 characters and there is markdown. |
| `Scrape.ExtractContent` | scrape.py:83-112 | The content is a prefix of the chosen text: all of it within 15000 characters, exactly 15000 characters of it otherwise. The image is `""` when there is no raw HTML, and otherwise the image that the raw HTML yields. |
| `Scrape.Accept` | scrape.py:72-77 | An extraction is kept unchanged when its content is longer than 100 characters; otherwise the result is `("", "")`. The result has content exactly in the first case. |
| `Scrape.ScrapeWithCrawl` | scrape.py:31-81 | A raise on the first attempt, or two attempts that both fail to succeed, give `("", "")`. A successful first attempt gives its accepted extraction. A first attempt that returns with its success flag down is followed by the second, whose accepted extraction is the result when it succeeds. The result is `("", "")` or 101 to 15000 characters with an acceptable image or `""`. |
| `Scrape.SecondAttemptOnlyOnFailure` | scrape.py:49-67 | The second rendered attempt matters only when the first returned with its success flag down. |
| `Scrape.ShortContentNotRetried` | scrape.py:70-77 | A successful first attempt with 100 characters or fewer gives `("", "")`, whatever the second attempt would give. |
| `Scrape.ScrapeWithRequests` | scrape.py:197-251 | A failed fetch gives `("", "")`. A fetched page whose normalised container text is longer than 100 characters gives that text capped at 15000 characters, with the image its image elements yield. A page with 100 characters or fewer gives `("", "")`. Content that comes back has no line break or double space. |
| `Scrape.RequestsAsRendered` | scrape.py:197-251 | When the first selector that matches has visible text, or none matches, the plain fetch gives what the rendered extraction of the same page gives after acceptance: its text capped at 15000 characters, with the image, when longer than 100 characters, and `("", "")` otherwise. |
| `Scrape.RequestsBlankFirstMatch` | scrape.py:197-251 | When the first selector that matches is blank, the plain fetch gives `("", "")`, even if a later selector has visible text. |
| `Scrape.ScrapeArticle` | scrape.py:253-268 | Scraping never fails. It gives `("", "")` or content of 101 to 15000 characters, and an image that is `""` or acceptable. |
| `Scrape.FallbackIff` | scrape.py:257-264 | The plain fetch decides the result exactly when the rendered path gave 100 characters or fewer. Otherwise it is never consulted. |
| `Scrape.ScrapeMultiple` | scrape.py:270-289 | One result per URL, in URL order, each what scraping that URL alone gives. |
| `AiServices.DecimalAt` | ai_services.py:15 | A match of `(\d+)\.\s+(\d+)` at the start: a run of digits up to the full stop, a whitespace run, then a run of digits that is taken whole (a non-digit or the end follows). |
| `AiServices.DecimalsJoin` | ai_services.py:15 | Whole number, full stop, whitespace run, whole number: the whitespace is deleted, and the rest of the text goes on through the rule. |
| `AiServices.DecimalsNonSpace` | ai_services.py:15 | The decimal rule deletes whitespace and nothing else. |
| `AiServices.NumberLen` | ai_services.py:21 | The number group matched at a position starts with a digit and stays in bounds. |
| `AiServices.ModelNameAt` | ai_services.py:21 | A model-name match starts at a word boundary. It is the whole run of capitals, then a whitespace run, then a number that starts with a digit. |
| `AiServices.ModelNamesSolid` | ai_services.py:21 | The model-name rule only trades whitespace for a hyphen: all other characters stay, in order. |
| `AiServices.ModelNameExample` | ai_services.py:21 | `"GPT 4"` becomes `"GPT-4"`. |
| `AiServices.PreprocessForTts` | ai_services.py:12-45 | The result is stripped and single-spaced, and its visible characters are those the rules left. |
| `AiServices.PreprocessKeepsText` | ai_services.py:15-45 | With the modelled rules only, input and output differ in whitespace and hyphens alone. |
| `AiServices.Truncate` | ai_services.py:53-54 | `content[:n]` when longer than `n`: a prefix whose length is the smaller of `n` and the content's length. |
| `AiServices.TruncateIdempotent` | ai_services.py:53-54 | Cutting again to the same limit changes nothing, so every retry sends the same input. |
| `AiServices.Backoff` | ai_services.py:69-70 | A raising attempt `k` sleeps `2 ** k` seconds, except the last, which sleeps not at all. |
| `AiServices.FirstAnswer` | ai_services.py:51-65 | The first attempt within the budget of three that is answered. Every earlier attempt raised, and none is answered when every attempt raised. |
| `AiServices.GenerateEmbedding` | ai_services.py:48-73 | One to three calls, each with the content cut to 10000 characters. The first answer is returned, and `None` comes back after three raising attempts. Sleeps are 1 and 2 seconds after the first two raises and none after the last. |
| `AiServices.SummaryFrom` | ai_services.py:79-152 | A real summary is at least 50 characters and is the cleaned reply of one of the attempts. |
| `AiServices.RetrySummary` | ai_services.py:76-152 | One to three calls with the content cut to 12000 characters. Every attempt but the last was retried (it raised, or its reply cleaned to fewer than 50 characters). A too-short reply is retried with no sleep. `None` and "Summary not available" both come only after three calls. |
| `AiServices.CleanSummary` | ai_services.py:124-133 | The reply is stripped, cleaned of citations, completed to sentences and preprocessed, in that order. The result is stripped and single-spaced. |
| `AiServices.SummarizeContent` | ai_services.py:76-152 | As the retry loop, with the source's cleaning. A real summary is at least 50 characters, stripped and single-spaced. |
| `AiServices.UnavailableIff` | ai_services.py:140-152 | "Summary not available" comes back if and only if the first two attempts were retried and the last one raised. |
| `AiServices.NoSummaryIff` | ai_services.py:140-152 | `None` comes back if and only if the first two attempts were retried and the last one answered with a reply too short after cleaning. |
| `PineconeManager.BuildMetadata` | pinecone_manager.py:70-81 | Each field is its source value cleaned and cut at its cap: title from the title, URL from the URL (URL cleaner), original summary from the feed summary, AI summary from the AI summary when given and non-empty and from the feed summary otherwise, author, source and content from theirs, image from the image URL (URL cleaner). The caps are 500 for title, URL and image, 1000 for the original summary, 2000 for AI summary and content, and 100 for author and source. No image gives `""`. `published` is kept verbatim and `processed_at` is the clock's value. |
| `PineconeManager.Upsert` | pinecone_manager.py:86-90 | The id maps to the new record, the id is added to the keys, and every other record stays as it was. |
| `PineconeManager.SameUrlOneRecord` | pinecone_manager.py:68-90 | Two articles with the same URL leave one record, the later one, since the id depends on the URL alone. |
| `PineconeManager.EmbedAndStore` | pinecone_manager.py:57-108 | Every embedding call gets the content cut to 5000 characters. No embedding, or an upsert that raises, reports failure and leaves the index as it was. Otherwise the record is upserted under the URL's digest, and success is reported exactly when the read-back finds the id. |
| `PineconeManager.Embedded` | pinecone_manager.py:62-66 | There is an embedding exactly when some attempt within the budget is answered. |
| `PineconeManager.Matches` | pinecone_manager.py:31-38 | The query yields the first 10000 ids of the index's ranking: a prefix of it, of length 10000 or the whole ranking when that is shorter, and exactly `ranked[..10000]` when the ranking is longer. |
| `PineconeManager.ClearOldArticles` | pinecone_manager.py:25-54 | A failing query deletes nothing. The deleted batches each hold 1 to 100 ids, and concatenated they form a prefix of the matched ids. Falling short of all of them means the next delete raised. With no failure the batch count is the id count divided by 100, rounded up. The index loses exactly the deleted ids. |
| `PineconeManager.DeleteInBatches` | pinecone_manager.py:41-47 | The ids are deleted in consecutive batches of 1 to 100. The deleted batches concatenate to a prefix of the ids, and stopping short means the next delete raised. When all go through, the batch count is the id count divided by 100, rounded up. The index loses exactly the deleted ids. |
| `PineconeManager.BatchCount` | pinecone_manager.py:43-46 | Covering `n` ids with batches of 100, all but the last full, takes `n / 100` rounded up. |
| `Pipeline.HandleArticle` | pipeline.py:55-70 | An article ends with no content exactly when the scraper gave none, and then the index is unchanged. Otherwise its summary is what the summariser gives for the scraped content. The index after it is the index before with the article's record (its embedding and the metadata built from its content, image and summary) upserted under the URL's digest when an embedding came back and the upsert did not raise, and unchanged otherwise. The article counts as stored exactly when that write happened and the read-back of the resulting index finds it. |
| `Pipeline.HandleAll` | pipeline.py:43-77 | Articles are handled one at a time in feed order, each as the previous contract says, each starting from the index the one before left; the final index is the last of that trail. `processed` counts the stored articles, and `processed + failed` is the number of articles. |
| `Pipeline.TrailAt` | pipeline.py:46-70 | Every entry of the trail, not only the last, is the index its own article's write left, and that article counts as stored exactly when the read-back of that entry finds it. |
| `Pipeline.ProcessArticles` | pipeline.py:18-85 | With no index nothing happens. Otherwise the run clears once, then fetches, then handles each article in order. An empty fetch stops after the fetch. Every article is counted exactly once. Clearing only removes records; when no delete call raises, no matched id is left after clearing; handling only adds records. The index after the run is the end of the trail of per-article writes that starts at the cleared index. |
| `Pipeline.RunPipeline` | pipeline.py:88-104 | A failed connection test returns 1 without running anything. Otherwise the pipeline runs and the result is 0. |

## Left out

- Remote services and libraries are inputs, not code:
  - the feed library's parsing and entry attributes;
  - `dateutil`'s parser (a `Parser` function) and `isoformat`;
  - the HTML selector engine and `get_text` (each selector's match is given);
  - `urljoin`, the MD5 digest, and the embedding, summarisation and vector-index calls;
  - the clock (`datetime.now` becomes the `reference` and `now` parameters).
- `time.sleep` and `asyncio.sleep` are not performed. The retry loops return the delays they would sleep; the pauses between deletions and articles are dropped.
- Logging is dropped. So are `verify_stored_data` and the log-only parts of `create_index`, which the model reduces to whether an index is available.
- `AiServices.PreprocessForTts`: the abbreviation, acronym, company-suffix and technical-term rules (ai_services.py:24-40) are not modelled; an arbitrary function `acronyms` stands in for them. The contract therefore speaks of whitespace and visible characters, not of those rules' effect.
- Python's `\w` is approximated: exact on ASCII and Latin-1, coarse above U+00FF. `\s` and `str.isspace` are modelled exactly. Case-insensitive matching in the reference-heading rule is ASCII case folding.
- The speech cleaner used downstream is the corrected one from "## Findings" (`TextUtils.CleanTextForSpeech`), not the one the code runs (`TextUtils.CleanTextForSpeechAsWritten`). The list as written departs from the intended one on text that holds a straight `"`, or a comma that is followed by a space once the list's earlier entries have blanked their symbols: a comma followed by a space, or by one of `` * / \ ` ~ ^ | < > { } [ ] § ¶ † ‡ • ◦ ▪ ▫ – — ``, which come before `", "` in the list (`TextUtils.StarCommaDropped`). The typographic quotes ‘ ’ “ ” are blanked by both, by the character-class rule of text_utils.py:22 if not by the list. On such text the program's stored and spoken text differs from the model's: the program stores `"a, b"` and `"a,*b"` both as `"a b"`, where the model keeps the comma. The members below inherit this, each on its own line.
- `TextUtils.CleanStringForMetadata`: without `preserve_url`, cleans with the corrected speech cleaner, so it keeps straight `"` and every comma, where the program drops the quotes and each comma that is followed by a space or by a symbol listed before `", "`.
- `TextUtils.MetadataKeepsClean`: holds of the corrected cleaner; of the program it holds only for text without `", "` and `"`, because the program changes `"a, b"` to `"a b"`. Clean text holds none of the listed symbols, so within it only a literal comma-space sets the pattern off.
- `SummaryText.CleanPerplexitySummary`: speech safety is stated for the corrected cleaner's list, not for the list the program applies.
- `AiServices.CleanSummary`: inherits the corrected cleaner through `SummaryText.CleanPerplexitySummary`.
- `AiServices.SummarizeContent`: inherits the corrected cleaner through `AiServices.CleanSummary`, so a reply with a straight `"`, or with a comma followed by a space or by a symbol listed before `", "`, is modelled as the intended cleaner would leave it.
- `PineconeManager.BuildMetadata`: every field cleaned without `preserve_url` inherits the corrected cleaner through `TextUtils.CleanStringForMetadata`.
- `Pipeline.HandleArticle`: the summary it expects is the one `AiServices.CleanSummary` gives, so it inherits the corrected cleaner too.
- `AiServices.DecimalAt`, `AiServices.NumberLen`, `SummaryText.DropTrailingNumber`, `SummaryText.DropLeadingNumber`, `SummaryText.StripNumberedLinesGone` and `SummaryText.StripMarkersCount`: `\d` is modelled as the ASCII digits 0-9 (`PyStr.IsDigit`). Python 3's `\d` on `str` also matches every other Unicode decimal digit (category Nd), such as Arabic-Indic or full-width digits; text holding those is handled differently by the program.
- `DateUtils.IsFromLast24Hours`: the `except` branch (date_utils.py:50-52), which answers False when the time-zone conversion or the subtraction raises, is not modelled. Instants are unbounded integers here, so the out-of-range datetimes that make Python raise do not arise. A date at the very edge of Python's datetime range may raise in the program and be judged not recent, where the model compares it normally.
- `TextUtils.CleanUrlIdempotent`: states idempotence only for inputs whose whitespace is ASCII, because it does not hold in general (`TextUtils.CleanUrlTwice`).
- `TextUtils.MetadataMonotone`: compares only limits of the same sign, because a negative limit counts from the end (`-1` keeps more than `0`).
- `Scrape.ScrapeMultiple` and `Pipeline.HandleArticle`: the network's answers are a function of the URL, so two equal URLs are modelled as scraping identically. The program makes an independent call for each, and the two calls may be answered differently.
- The concurrency limit of `scrape_multiple_articles` (a semaphore of 3) is not modelled. Only the alignment of results with URLs is stated.
- Its `(None, None)` error result is left out: `scrape_article` catches every exception, so that branch cannot be reached.
- The per-article exception branch of `process_articles` (pipeline.py:75-77) is left out: every step it wraps catches its own exceptions. So is the exception branch of `main` (pipeline.py:102-104).
- `main.py`, `app.py`, `config.py` and `connection_test.py` are not part of this model. The connection test is a boolean input.

## Findings

| source | as written | input that shows it | evidently intended | confidence | as-written member | corrected member |
|---|---|---|---|---|---|---|
| text_utils.py:13 | `''', '''` is one triple-quoted string holding `", "`, so the cleaner replaces every comma-space with a space, and the two straight `"` entries that follow replace every straight double quote. The typographic quotes are not in the list, but the character-class rule at line 22 blanks them anyway. | `"a, b"` is cleaned to `"a b"`; so is `"a,*b"`, whose `*` is blanked before the comma-space entry runs | the four typographic quotes ‘ ’ “ ” listed one by one, so commas and straight double quotes are kept | not executed | `TextUtils.CommaSpaceDropped`, `TextUtils.StarCommaDropped` | `TextUtils.CleanTextForSpeech` |

=== FILE: ai_services.dfy ===
/**
 * The deterministic parts of the AI service wrappers: the text-to-speech preprocessing
 * rules and the retry loops around the embedding and summarisation calls.
 *
 * The remote calls are inputs: the answer each attempt would get, in attempt order.
 * Sleeping is not performed; the delays a loop would sleep are returned as values.
 */
module AiServices {
  import opened Wrappers
  import opened PyStr
  import SummaryText

  // ---------------------------------------------------------------------------------
  // preprocess_for_tts
  // ---------------------------------------------------------------------------------

  /** Where a match of `(\d+)\.\s+(\d+)` at the start of `s` has its full stop, spaces and second number. */
  datatype DecimalMatch = DecimalMatch(dot: nat, digitsAt: nat, end: nat)

  /** The match at the start of `s`, if any: both digit runs are taken whole. */
  function DecimalAt(s: string): (m: Option<DecimalMatch>)
    ensures m.Some? ==> 0 < m.value.dot < m.value.dot + 1 < m.value.digitsAt < m.value.end <= |s|
    ensures m.Some? ==> s[m.value.dot] == '.'
    ensures m.Some? ==> forall k :: 0 <= k < m.value.dot ==> IsDigit(s[k])
    ensures m.Some? ==> forall k :: m.value.dot < k < m.value.digitsAt ==> IsSpace(s[k])
    ensures m.Some? ==> forall k :: m.value.digitsAt <= k < m.value.end ==> IsDigit(s[k])
    ensures m.Some? ==> m.value.end == |s| || !IsDigit(s[m.value.end])
  {
    var a := DigitsFrom(s, 0);
    if 0 < a < |s| && s[a] == '.' then
      var w := SpacesFrom(s, a + 1);
      var d := if w > 0 then DigitsFrom(s, a + 1 + w) else 0;
      if d > 0 then Some(DecimalMatch(a, a + 1 + w, a + 1 + w + d)) else None
    else None
  }

  /**
   * `re.sub(r'(\d+)\.\s+(\d+)', r'\1.\2', s)`: a number, a full stop, whitespace and a
   * number lose the whitespace. A failed attempt moves on by one character.
   */
  function Decimals(s: string): (r: string)
    ensures |r| <= |s|
    decreases |s|
  {
    if s == [] then []
    else match DecimalAt(s)
      case Some(m) => s[..m.dot + 1] + s[m.digitsAt..m.end] + Decimals(s[m.end..])
      case None => [s[0]] + Decimals(s[1..])
  }

  /** The decimal rule deletes whitespace and nothing else. */
  lemma {:induction false} DecimalsNonSpace(s: string)
    ensures NonSpace(Decimals(s)) == NonSpace(s)
    decreases |s|
  {
    if s != [] {
      match DecimalAt(s)
      case Some(m) =>
        DecimalsNonSpace(s[m.end..]);
        DecimalsSplit(s, m);
        NonSpaceSkip(s[..m.dot + 1], s[m.dot + 1..m.digitsAt], s[m.digitsAt..m.end], s[m.end..],
                     Decimals(s[m.end..]));
      case None =>
        DecimalsNonSpace(s[1..]);
        NonSpaceCons(s, Decimals(s[1..]));
    }
  }

  /** A match splits `s` into the number and stop, the spaces, the second number and the rest. */
  lemma DecimalsSplit(s: string, m: DecimalMatch)
    requires DecimalAt(s) == Some(m)
    ensures s == s[..m.dot + 1] + s[m.dot + 1..m.digitsAt] + s[m.digitsAt..m.end] + s[m.end..]
    ensures forall k :: m.dot + 1 <= k < m.digitsAt ==> IsSpace(s[k])
  {
  }

  /** The decimal rule where no match starts. */
  lemma DecimalsSkip(s: string)
    requires s != [] && !IsDigit(s[0])
    ensures Decimals(s) == [s[0]] + Decimals(s[1..])
  {
    assert DecimalAt(s).None?;
  }

  /**
   * A whole number, a full stop, a whitespace run and a whole number, in that order at the
   * start of `s`, come out with the whitespace deleted.
   */
  lemma DecimalsJoin(s: string, a: nat, b: nat, e: nat)
    requires 0 < a && a + 1 < b < e <= |s| && s[a] == '.'
    requires forall k :: 0 <= k < a ==> IsDigit(s[k])
    requires forall k :: a + 1 <= k < b ==> IsSpace(s[k])
    requires forall k :: b <= k < e ==> IsDigit(s[k])
    requires e < |s| ==> !IsDigit(s[e])
    ensures Decimals(s) == s[..a] + "." + s[b..e] + Decimals(s[e..])
  {
    DecimalAtExact(s, a, b, e);
    DecimalsUnfold(s, DecimalMatch(a, b, e));
    StopAfter(s, a);
  }

  /** The prefix through a full stop at `a`. */
  lemma StopAfter(s: string, a: nat)
    requires a < |s| && s[a] == '.'
    ensures s[..a + 1] == s[..a] + "."
  {
  }

  /** The match at the start of `s` is the one its runs of digits and spaces delimit. */
  lemma DecimalAtExact(s: string, a: nat, b: nat, e: nat)
    requires 0 < a && a + 1 < b < e <= |s| && s[a] == '.'
    requires forall k :: 0 <= k < a ==> IsDigit(s[k])
    requires forall k :: a + 1 <= k < b ==> IsSpace(s[k])
    requires forall k :: b <= k < e ==> IsDigit(s[k])
    requires e < |s| ==> !IsDigit(s[e])
    ensures DecimalAt(s) == Some(DecimalMatch(a, b, e))
  {
    DigitsExact(s, 0, a);
    SpaceRun(s, a + 1, b);
    DigitsExact(s, b, e - b);
    DecimalAtRuns(s, a, b, e);
  }

  /** A run of whitespace that a digit ends. */
  lemma SpaceRun(s: string, i: nat, j: nat)
    requires i < j < |s| && IsDigit(s[j])
    requires forall k :: i <= k < j ==> IsSpace(s[k])
    ensures SpacesFrom(s, i) == j - i
  {
    DigitNotSpace(s[j]);
    SpacesExact(s, i, j - i);
  }

  /** The match read off the lengths of the runs it is made of. */
  lemma DecimalAtRuns(s: string, a: nat, b: nat, e: nat)
    requires 0 < a && a + 1 < b < e <= |s| && s[a] == '.' && DigitsFrom(s, 0) == a
    requires SpacesFrom(s, a + 1) == b - (a + 1)
    requires DigitsFrom(s, b) == e - b
    ensures DecimalAt(s) == Some(DecimalMatch(a, b, e))
  {
  }

  /** The decimal rule at a match. */
  lemma DecimalsUnfold(s: string, m: DecimalMatch)
    requires DecimalAt(s) == Some(m)
    ensures Decimals(s) == s[..m.dot + 1] + s[m.digitsAt..m.end] + Decimals(s[m.end..])
  {
  }

  /** Text without digits passes the decimal rule unchanged. */
  lemma {:induction false} DecimalsNoDigits(p: string, rest: string)
    requires forall k :: 0 <= k < |p| ==> !IsDigit(p[k])
    ensures Decimals(p + rest) == p + Decimals(rest)
    decreases |p|
  {
    if p != [] {
      var s := p + rest;
      assert s[0] == p[0] && s[1..] == p[1..] + rest;
      DecimalsSkip(s);
      DecimalsNoDigits(p[1..], rest);
      SummaryText.ConsAssoc(p[0], p[1..], Decimals(rest));
      assert [p[0]] + p[1..] == p;
    } else {
      assert p + rest == rest;
    }
  }

  /**
   * Length of the number group `\d+(?:\.\d+)?` at `p` that a word boundary closes, or 0
   * when there is none. The fractional part is taken only if a boundary follows it;
   * otherwise the integer part alone matches, since a full stop always ends a word.
   */
  function NumberLen(s: string, p: nat): (n: nat)
    requires p <= |s|
    ensures p + n <= |s|
    ensures n > 0 ==> IsDigit(s[p])
  {
    var d := DigitsFrom(s, p);
    if d == 0 then 0
    else
      var q := p + d;
      if q + 1 < |s| && s[q] == '.' && IsDigit(s[q + 1]) then
        var e := DigitsFrom(s, q + 1);
        if q + 1 + e == |s| || !IsWordChar(s[q + 1 + e]) then d + 1 + e else d
      else if q == |s| || !IsWordChar(s[q]) then d
      else 0
  }

  /**
   * `re.sub(r'\b([A-Z]+)\s+(\d+(?:\.\d+)?)\b', r'\1-\2', s)` from index `i` on: a
   * capitalised word that starts a word, whitespace, and a number that ends one are joined
   * by a hyphen instead of the whitespace.
   */
  function ModelNamesFrom(s: string, i: nat): (r: string)
    requires i <= |s|
    ensures |r| <= |s| - i
    decreases |s| - i
  {
    if i == |s| then []
    else match ModelNameAt(s, i)
      case Some(m) => s[i..m.capsEnd] + "-" + s[m.numberAt..m.end] + ModelNamesFrom(s, m.end)
      case None => [s[i]] + ModelNamesFrom(s, i + 1)
  }

  /** Where a model-name match starting at `i` ends its capitals, starts its number and ends. */
  datatype NameMatch = NameMatch(capsEnd: nat, numberAt: nat, end: nat)

  /** The model-name match starting at `i`, if any; the capital run is taken whole. */
  function ModelNameAt(s: string, i: nat): (m: Option<NameMatch>)
    requires i < |s|
    ensures m.Some? ==> i < m.value.capsEnd < m.value.numberAt < m.value.end <= |s|
    ensures m.Some? ==> i == 0 || !IsWordChar(s[i - 1])
    ensures m.Some? ==> forall k :: i <= k < m.value.capsEnd ==> IsUpper(s[k])
    ensures m.Some? ==> m.value.capsEnd < |s| && !IsUpper(s[m.value.capsEnd])
    ensures m.Some? ==> forall k :: m.value.capsEnd <= k < m.value.numberAt ==> IsSpace(s[k])
    ensures m.Some? ==> IsDigit(s[m.value.numberAt])
  {
    if IsUpper(s[i]) && (i == 0 || !IsWordChar(s[i - 1])) then
      var u := UppersFrom(s, i);
      var w := SpacesFrom(s, i + u);
      var n := if w > 0 then NumberLen(s, i + u + w) else 0;
      if n > 0 then Some(NameMatch(i + u, i + u + w, i + u + w + n)) else None
    else None
  }

  function ModelNames(s: string): (r: string)
    ensures |r| <= |s|
  {
    ModelNamesFrom(s, 0)
  }

  /** The characters other than whitespace and hyphens, in order. */
  function Solid(s: string): string {
    if s == [] then [] else (if IsSpace(s[0]) || s[0] == '-' then [] else [s[0]]) + Solid(s[1..])
  }

  lemma {:induction false} SolidConcat(a: string, b: string)
    ensures Solid(a + b) == Solid(a) + Solid(b)
  {
    if a == [] {
      assert a + b == b;
    } else {
      assert (a + b)[0] == a[0];
      assert (a + b)[1..] == a[1..] + b;
      SolidConcat(a[1..], b);
    }
  }

  lemma {:induction false} SolidOfSpaces(m: string)
    requires forall k :: 0 <= k < |m| ==> IsSpace(m[k])
    ensures Solid(m) == []
  {
    if m != [] {
      SolidOfSpaces(m[1..]);
    }
  }

  /** The model-name rule only trades whitespace for a hyphen: everything else stays, in order. */
  lemma {:induction false} ModelNamesSolid(s: string, i: nat)
    requires i <= |s|
    ensures Solid(ModelNamesFrom(s, i)) == Solid(s[i..])
    decreases |s| - i
  {
    if i < |s| {
      match ModelNameAt(s, i)
      case Some(m) =>
        ModelNamesSolid(s, m.end);
        SolidAtMatch(s, i, m);
      case None =>
        ModelNamesSolid(s, i + 1);
        SolidAtSkip(s, i);
    }
  }

  /** At a match, the rule keeps the solid text if it does so after the match. */
  lemma SolidAtMatch(s: string, i: nat, m: NameMatch)
    requires i < |s| && ModelNameAt(s, i) == Some(m)
    requires Solid(ModelNamesFrom(s, m.end)) == Solid(s[m.end..])
    ensures Solid(ModelNamesFrom(s, i)) == Solid(s[i..])
  {
    ModelNameStep(s, i, m.capsEnd, m.numberAt, m.end, ModelNamesFrom(s, m.end));
  }

  /** Where no match starts, the rule keeps the solid text if it does so one character on. */
  lemma SolidAtSkip(s: string, i: nat)
    requires i < |s| && ModelNameAt(s, i).None?
    requires Solid(ModelNamesFrom(s, i + 1)) == Solid(s[i + 1..])
    ensures Solid(ModelNamesFrom(s, i)) == Solid(s[i..])
  {
    SolidCons(s, i, ModelNamesFrom(s, i + 1));
  }

  lemma SolidCons(s: string, i: nat, rest: string)
    requires i < |s| && Solid(rest) == Solid(s[i + 1..])
    ensures Solid([s[i]] + rest) == Solid(s[i..])
  {
    assert s[i..] == [s[i]] + s[i + 1..];
    SolidConcat([s[i]], s[i + 1..]);
    SolidConcat([s[i]], rest);
  }

  lemma ModelNameStep(s: string, i: nat, c: nat, b: nat, e: nat, rest: string)
    requires i <= c <= b <= e <= |s|
    requires forall k :: c <= k < b ==> IsSpace(s[k])
    requires Solid(rest) == Solid(s[e..])
    ensures Solid(s[i..c] + "-" + s[b..e] + rest) == Solid(s[i..])
  {
    var caps := s[i..c];
    var m := s[c..b];
    var num := s[b..e];
    assert s[i..] == caps + m + num + s[e..];
    SolidConcat(caps + m + num, s[e..]);
    SolidConcat(caps + m, num);
    SolidConcat(caps, m);
    SolidOfSpaces(m);
    SolidConcat(caps + "-" + num, rest);
    SolidConcat(caps + "-", num);
    SolidConcat(caps, "-");
    assert Solid("-") == [];
  }

  /** The model-name example: `"GPT 4"` becomes `"GPT-4"`. */
  lemma ModelNameExample()
    ensures ModelNames("GPT 4") == "GPT-4"
  {
    var s := "GPT 4";
    UppersExact(s, 0, 3);
    SpacesExact(s, 3, 1);
    DigitsExact(s, 4, 1);
    assert NumberLen(s, 4) == 1;
    assert s[0..3] == "GPT" && s[4..5] == "4";
  }

  /**
   * The rules before the final clean-up: the decimal rule twice, then the model-name rule.
   * The abbreviation, acronym, company-suffix and technical-term rules that follow in the
   * source are not part of this model; `acronyms` stands for them.
   */
  function Rewrite(text: string): string {
    ModelNames(Decimals(Decimals(text)))
  }

  /**
   * `preprocess_for_tts`: the rewrite rules, then every whitespace run as one space and the
   * ends stripped. Whatever the rules do, the result is stripped and single-spaced and its
   * visible characters are those the rules left.
   */
  function PreprocessForTts(text: string, acronyms: string -> string): (r: string)
    ensures Stripped(r) && SingleSpaced(r)
    ensures NonSpace(r) == NonSpace(acronyms(Rewrite(text)))
  {
    var ruled := acronyms(Rewrite(text));
    CollapseSingleSpaced(ruled);
    StripSingleSpaced(Collapse(ruled));
    CollapseNonSpace(ruled);
    StripNonSpace(Collapse(ruled));
    Strip(Collapse(ruled))
  }

  /** Without the left-out rules, only whitespace and hyphens differ between input and output. */
  lemma PreprocessKeepsText(text: string)
    ensures Solid(PreprocessForTts(text, x => x)) == Solid(text)
  {
    var d := Decimals(Decimals(text));
    var r := PreprocessForTts(text, x => x);
    DecimalsNonSpace(text);
    DecimalsNonSpace(Decimals(text));
    ModelNamesSolid(d, 0);
    assert d[0..] == d;
    SolidNonSpace(r);
    SolidNonSpace(Rewrite(text));
    SolidNonSpace(d);
    SolidNonSpace(text);
  }

  /** `Solid` sees only the visible characters. */
  lemma {:induction false} SolidNonSpace(s: string)
    ensures Solid(s) == Solid(NonSpace(s))
  {
    if s != [] {
      SolidNonSpace(s[1..]);
      SolidConcat(if IsSpace(s[0]) then [] else [s[0]], NonSpace(s[1..]));
      if !IsSpace(s[0]) {
        assert Solid([s[0]]) == (if s[0] == '-' then [] else [s[0]]) + Solid([]);
      }
    }
  }

  // ---------------------------------------------------------------------------------
  // generate_embedding and summarize_content
  // ---------------------------------------------------------------------------------

  /** Both services are tried at most this many times. */
  const MaxRetries: nat := 3

  /** Characters of content the embedding service is sent. */
  const EmbedLimit: nat := 10000

  /** Characters of content the summarisation service is sent. */
  const SummaryLimit: nat := 12000

  /** A cleaned summary shorter than this is retried. */
  const MinSummary: nat := 50

  /** What the summariser returns when its last attempt raises. */
  const Unavailable: string := "Summary not available"

  /** What one remote call gives: an exception, or an answer. */
  datatype Outcome<T> = Raise | Answer(value: T)

  /** A remote service: the outcome of the call made on attempt `k` with input `s`. */
  type Service<T> = (nat, string) -> Outcome<T>

  /** `2 ** k`. */
  function Pow2(k: nat): (p: nat)
    ensures p >= 1
  {
    if k == 0 then 1 else 2 * Pow2(k - 1)
  }

  /** `content[:n]` when the content is longer than `n`, else the content itself. */
  function Truncate(s: string, n: nat): (r: string)
    ensures |r| == if |s| > n then n else |s|
    ensures r == s[..|r|]
  {
    if |s| > n then s[..n] else s
  }

  /** Truncating twice to the same limit is truncating once. */
  lemma TruncateIdempotent(s: string, n: nat)
    ensures Truncate(Truncate(s, n), n) == Truncate(s, n)
  {
  }

  /**
   * The sleep that follows attempt `k` when it raises: `2 ** k` seconds, except after the
   * last attempt, which gives up instead.
   */
  function Backoff(k: nat): (d: nat)
    ensures k + 1 < MaxRetries ==> d == Pow2(k)
    ensures k + 1 >= MaxRetries ==> d == 0
  {
    if k < MaxRetries - 1 then Pow2(k) else 0
  }

  /** The first attempt from `k` on, within the retry budget, whose call is answered. */
  function FirstAnswer<T>(service: Service<T>, input: string, k: nat): (j: Option<nat>)
    ensures j.Some? ==> k <= j.value < MaxRetries && service(j.value, input).Answer?
    ensures j.Some? ==> forall i :: k <= i < j.value ==> service(i, input).Raise?
    ensures j.None? ==> forall i :: k <= i < MaxRetries ==> service(i, input).Raise?
    decreases MaxRetries - k
  {
    if k >= MaxRetries then None
    else if service(k, input).Answer? then Some(k)
    else FirstAnswer(service, input, k + 1)
  }

  /**
   * `generate_embedding`: up to three calls, each with the content cut to 10000 characters;
   * the first answer is returned, a raising attempt is followed by a `2 ** attempt` second
   * sleep unless it was the last, and three raising attempts give `None`. `sent` lists the
   * inputs of the calls made and `sleeps` the sleep after each of them (0 for none).
   */
  method GenerateEmbedding<E>(content: string, service: Service<E>)
    returns (r: Option<E>, sent: seq<string>, sleeps: seq<nat>)
    ensures 1 <= |sent| <= MaxRetries && |sleeps| == |sent|
    ensures forall k :: 0 <= k < |sent| ==> sent[k] == Truncate(content, EmbedLimit)
    ensures r.Some? <==> FirstAnswer(service, Truncate(content, EmbedLimit), 0).Some?
    ensures r.Some? ==> |sent| == FirstAnswer(service, Truncate(content, EmbedLimit), 0).value + 1
                        && service(|sent| - 1, sent[|sent| - 1]) == Answer(r.value)
    ensures r.None? ==> |sent| == MaxRetries
    ensures forall k :: 0 <= k < |sleeps| ==>
      sleeps[k] == (if service(k, sent[k]).Raise? then Backoff(k) else 0)
  {
    var input := content;
    sent, sleeps := [], [];
    var attempt: nat := 0;
    while attempt < MaxRetries
      invariant attempt <= MaxRetries && |sent| == attempt && |sleeps| == attempt
      invariant input == if attempt == 0 then content else Truncate(content, EmbedLimit)
      invariant forall k :: 0 <= k < attempt ==> sent[k] == Truncate(content, EmbedLimit)
      invariant forall k :: 0 <= k < attempt ==> service(k, sent[k]).Raise? && sleeps[k] == Backoff(k)
      invariant FirstAnswer(service, Truncate(content, EmbedLimit), 0)
             == FirstAnswer(service, Truncate(content, EmbedLimit), attempt)
    {
      TruncateIdempotent(content, EmbedLimit);
      input := Truncate(input, EmbedLimit);
      sent := sent + [input];
      match service(attempt, input)
      case Answer(e) =>
        sleeps := sleeps + [0];
        return Some(e), sent, sleeps;
      case Raise =>
        sleeps := sleeps + [Backoff(attempt)];
        attempt := attempt + 1;
    }
    r := None;
  }

  /** `strip`, citation clean-up, sentence completion and speech preprocessing of a reply. */
  function CleanSummary(reply: string, acronyms: string -> string): (r: string)
    ensures Stripped(r) && SingleSpaced(r)
  {
    PreprocessForTts(SummaryText.EnsureCompleteSentences(SummaryText.CleanPerplexitySummary(Strip(reply))),
                     acronyms)
  }

  /** A reply cleaner: what becomes of a reply before the length check. */
  type Cleaner = string -> string

  /** Attempt `k` does not end the loop: its call raised, or its cleaned reply was too short. */
  predicate Retried(service: Service<string>, input: string, clean: Cleaner, k: nat) {
    service(k, input).Raise? || |clean(service(k, input).value)| < MinSummary
  }

  /**
   * What the summariser returns when attempts `k` onwards are still to come: the first
   * cleaned reply of at least 50 characters; "Summary not available" when the last attempt
   * raises; `None` when the last attempt's reply is too short.
   */
  function SummaryFrom(service: Service<string>, input: string, clean: Cleaner, k: nat): (r: Option<string>)
    ensures r.Some? && r.value != Unavailable ==>
      |r.value| >= MinSummary
      && exists j :: k <= j < MaxRetries && service(j, input).Answer? && r.value == clean(service(j, input).value)
    decreases MaxRetries - k
  {
    if k >= MaxRetries then None
    else match service(k, input)
      case Raise => if k < MaxRetries - 1 then SummaryFrom(service, input, clean, k + 1) else Some(Unavailable)
      case Answer(t) =>
        var c := clean(t);
        if |c| < MinSummary then SummaryFrom(service, input, clean, k + 1) else Some(c)
  }

  /**
   * The retry loop of `summarize_content` around any reply cleaner: up to three calls,
   * each with the content cut to 12000 characters. A raising attempt sleeps
   * `2 ** attempt` seconds unless it was the last, which gives "Summary not available"; a
   * reply that cleans to fewer than 50 characters is retried at once; if even the last
   * reply is too short the result is `None`.
   */
  method RetrySummary(content: string, service: Service<string>, clean: Cleaner)
    returns (r: Option<string>, sent: seq<string>, sleeps: seq<nat>)
    ensures r == SummaryFrom(service, Truncate(content, SummaryLimit), clean, 0)
    ensures 1 <= |sent| <= MaxRetries && |sleeps| == |sent|
    ensures forall k :: 0 <= k < |sent| ==> sent[k] == Truncate(content, SummaryLimit)
    ensures forall k :: 0 <= k < |sent| - 1 ==> Retried(service, sent[k], clean, k)
    ensures r.None? || r == Some(Unavailable) ==> |sent| == MaxRetries
    ensures forall k :: 0 <= k < |sleeps| ==>
      sleeps[k] == (if service(k, sent[k]).Raise? then Backoff(k) else 0)
  {
    var full := Truncate(content, SummaryLimit);
    var input := content;
    sent, sleeps := [], [];
    var attempt: nat := 0;
    while attempt < MaxRetries
      invariant attempt <= MaxRetries && |sent| == attempt && |sleeps| == attempt
      invariant input == if attempt == 0 then content else full
      invariant forall k :: 0 <= k < attempt ==> sent[k] == full
      invariant forall k :: 0 <= k < attempt ==> Retried(service, full, clean, k)
      invariant forall k :: 0 <= k < attempt ==> sleeps[k] == (if service(k, full).Raise? then Backoff(k) else 0)
      invariant SummaryFrom(service, full, clean, 0) == SummaryFrom(service, full, clean, attempt)
    {
      TruncateIdempotent(content, SummaryLimit);
      input := Truncate(input, SummaryLimit);
      sent := sent + [input];
      var reply := service(attempt, input);
      sleeps := sleeps + [if reply.Raise? then Backoff(attempt) else 0];
      if reply.Raise? && attempt == MaxRetries - 1 {
        return Some(Unavailable), sent, sleeps;
      }
      if reply.Answer? && |clean(reply.value)| >= MinSummary {
        return Some(clean(reply.value)), sent, sleeps;
      }
      attempt := attempt + 1;
    }
    r := None;
  }

  /**
   * `summarize_content`: the retry loop with the source's cleaning of each reply. A real
   * summary is at least 50 characters, stripped and single-spaced, and is the cleaned
   * reply of one of the calls.
   */
  method SummarizeContent(content: string, service: Service<string>, acronyms: string -> string)
    returns (r: Option<string>, sent: seq<string>, sleeps: seq<nat>)
    ensures r == SummaryFrom(service, Truncate(content, SummaryLimit), t => CleanSummary(t, acronyms), 0)
    ensures 1 <= |sent| <= MaxRetries && |sleeps| == |sent|
    ensures forall k :: 0 <= k < |sent| ==> sent[k] == Truncate(content, SummaryLimit)
    ensures r.Some? && r.value != Unavailable ==>
      |r.value| >= MinSummary && Stripped(r.value) && SingleSpaced(r.value)
    ensures r.None? || r == Some(Unavailable) ==> |sent| == MaxRetries
    ensures forall k :: 0 <= k < |sleeps| ==>
      sleeps[k] == (if service(k, sent[k]).Raise? then Backoff(k) else 0)
  {
    r, sent, sleeps := RetrySummary(content, service, t => CleanSummary(t, acronyms));
  }

  /**
   * "Summary not available" comes back exactly when the last attempt raises after the
   * earlier two were retried; a real summary can never be mistaken for it.
   */
  lemma UnavailableIff(service: Service<string>, input: string, clean: Cleaner)
    ensures SummaryFrom(service, input, clean, 0) == Some(Unavailable)
      <==> Retried(service, input, clean, 0) && Retried(service, input, clean, 1) && service(2, input).Raise?
  {
  }

  /** `None` comes back exactly when all three attempts are retried and the last one answered. */
  lemma NoSummaryIff(service: Service<string>, input: string, clean: Cleaner)
    ensures SummaryFrom(service, input, clean, 0).None?
      <==> Retried(service, input, clean, 0) && Retried(service, input, clean, 1)
           && service(2, input).Answer? && Retried(service, input, clean, 2)
  {
  }
}

=== FILE: date_utils.dfy ===
/**
 * The freshness window: loosely formatted dates become UTC instants, and an article is
 * recent when it was published no more than 24 hours before a reference instant.
 *
 * Times are whole seconds. A `DateTime` is a wall-clock reading plus an optional UTC
 * offset (Python's aware versus naive `datetime`); the date-string parser itself is
 * a parameter, returning `None` where the library would raise.
 */
module DateUtils {
  import opened Wrappers

  /** A wall-clock reading in seconds and its offset east of UTC, absent when naive. */
  datatype DateTime = DateTime(wall: int, offset: Option<int>)

  /** The instant a reading denotes; a naive reading is taken to be UTC already. */
  function ToUtc(d: DateTime): int {
    d.wall - d.offset.GetOr(0)
  }

  /** `timedelta(hours=24)` in seconds. */
  const Window: int := 24 * 60 * 60

  /** What the window check may be handed: nothing, a date string, or a parsed date. */
  datatype DateInput = Missing | Text(raw: string) | Stamp(date: DateTime)

  /** A parser for date strings: `None` stands for the parser raising. */
  type Parser = string -> Option<DateTime>

  /**
   * `parse_date_flexible`: empty strings and unparseable strings give `None`; a parsed
   * naive reading is labelled UTC, an aware one is kept as it is.
   */
  function ParseDateFlexible(raw: string, parse: Parser): (r: Option<DateTime>)
    ensures r.Some? <==> raw != [] && parse(raw).Some?
    ensures r.Some? ==> r.value.offset.Some?
    ensures r.Some? ==> (r.value.wall == parse(raw).value.wall
                         && ToUtc(r.value) == ToUtc(parse(raw).value))
  {
    if raw == [] then None
    else match parse(raw)
      case None => None
      case Some(d) => if d.offset.None? then Some(DateTime(d.wall, Some(0))) else Some(d)
  }

  /** The closed interval test on instants. */
  predicate WithinWindow(published: int, reference: int) {
    0 <= reference - published <= Window
  }

  /**
   * `is_from_last_24_hours(published_date, reference_time)`: a missing or empty date is
   * not recent, a string is parsed first and an unparseable one is not recent, and
   * otherwise both readings are compared as UTC instants. The reference is a parameter
   * (the source's default is the current clock).
   */
  function IsFromLast24Hours(published: DateInput, reference: DateTime, parse: Parser): (r: bool)
    ensures published.Missing? || published == Text([]) ==> !r
    ensures published.Text? && ParseDateFlexible(published.raw, parse).None? ==> !r
    ensures r <==> (Resolve(published, parse).Some?
                    && ToUtc(reference) - Window <= ToUtc(Resolve(published, parse).value)
                    && ToUtc(Resolve(published, parse).value) <= ToUtc(reference))
  {
    match Resolve(published, parse)
    case None => false
    case Some(d) => WithinWindow(ToUtc(d), ToUtc(reference))
  }

  /** The reading a window-check argument stands for, if any. */
  function Resolve(published: DateInput, parse: Parser): Option<DateTime> {
    match published
    case Missing => None
    case Text(raw) => ParseDateFlexible(raw, parse)
    case Stamp(d) => Some(d)
  }

  /** The window is closed at both ends: exactly 24 hours old and exactly now are both recent. */
  lemma WindowInclusive(reference: DateTime, parse: Parser)
    ensures IsFromLast24Hours(Stamp(DateTime(ToUtc(reference) - Window, None)), reference, parse)
    ensures IsFromLast24Hours(Stamp(DateTime(ToUtc(reference), None)), reference, parse)
  {
  }

  /** One second outside the window on either side is not recent; a future date never is. */
  lemma WindowExclusive(reference: DateTime, parse: Parser, later: nat)
    ensures !IsFromLast24Hours(Stamp(DateTime(ToUtc(reference) - Window - 1, None)), reference, parse)
    ensures !IsFromLast24Hours(Stamp(DateTime(ToUtc(reference) + 1 + later, None)), reference, parse)
  {
  }

  /** For a parsed date, recency is exactly membership of the closed interval ending at the reference. */
  lemma RecentIff(d: DateTime, reference: DateTime, parse: Parser)
    ensures IsFromLast24Hours(Stamp(d), reference, parse)
      <==> ToUtc(reference) - Window <= ToUtc(d) <= ToUtc(reference)
  {
  }

  /** A naive date is read as UTC: it agrees with the same reading labelled `+00:00`. */
  lemma NaiveIsUtc(wall: int, reference: DateTime, parse: Parser)
    ensures IsFromLast24Hours(Stamp(DateTime(wall, None)), reference, parse)
      == IsFromLast24Hours(Stamp(DateTime(wall, Some(0))), reference, parse)
  {
  }

  /** Only the instant matters: the same moment written in another time zone gives the same answer. */
  lemma OffsetInvariant(d: DateTime, shift: int, reference: DateTime, parse: Parser)
    ensures var e := DateTime(d.wall + shift, Some(d.offset.GetOr(0) + shift));
      IsFromLast24Hours(Stamp(e), reference, parse) == IsFromLast24Hours(Stamp(d), reference, parse)
  {
  }

  /** Handing over the string or the date it parses to makes no difference. */
  lemma TextAgreesWithStamp(raw: string, reference: DateTime, parse: Parser)
    requires raw != [] && parse(raw).Some?
    ensures IsFromLast24Hours(Text(raw), reference, parse)
      == IsFromLast24Hours(Stamp(parse(raw).value), reference, parse)
  {
  }
}

=== FILE: pinecone_manager.dfy ===
/**
 * The vector-store writer: clearing the index in batches, and storing one article as an
 * embedding with capped, sanitised metadata, checked by reading it back.
 *
 * The index is a map from record id to record. The id digest (MD5 of the URL), the
 * embedding service, the clock and the index's failures and read-back answers are inputs.
 */
module PineconeManager {
  import opened Wrappers
  import opened TextUtils
  import AiServices
  import RssFetcher

  /** A record id: the hex digest of an article's URL. */
  type Id = string

  /** An embedding vector. */
  type Embedding = seq<real>

  /** The metadata stored with a vector. */
  datatype Metadata = Metadata(
    title: string,
    url: string,
    originalSummary: string,
    aiSummary: string,
    author: string,
    source: string,
    published: string,
    content: string,
    image: string,
    processedAt: string)

  datatype Record = Record(values: Embedding, metadata: Metadata)

  /** The index: at most one record per id. */
  type Store = map<Id, Record>

  /** Caps on the metadata fields. */
  const TitleCap: nat := 500
  const UrlCap: nat := 500
  const OriginalSummaryCap: nat := 1000
  const AiSummaryCap: nat := 2000
  const NameCap: nat := 100
  const ContentCap: nat := 2000
  const ImageCap: nat := 500

  /** Characters of content handed to the embedding service. */
  const EmbedInput: nat := 5000

  /** How many ids the clearing query asks for, and how many are deleted per call. */
  const TopK: nat := 10000
  const BatchSize: nat := 100

  // ---------------------------------------------------------------------------------
  // embed_and_store
  // ---------------------------------------------------------------------------------

  /** Python truthiness of the optional AI summary: `None` and `""` are both false. */
  predicate Given(s: Option<string>) {
    s.Some? && s.value != []
  }

  /**
   * The metadata for an article: every text field sanitised and capped, URL and image by
   * the URL-preserving cleaner; the AI summary falls back to the feed summary when absent
   * or empty; no image gives `""`; the publication string is kept verbatim.
   */
  function BuildMetadata(a: RssFetcher.Article, content: string, imageUrl: string, aiSummary: Option<string>,
                         now: string): (m: Metadata)
    ensures |m.title| <= TitleCap && |m.url| <= UrlCap && |m.image| <= ImageCap
    ensures |m.originalSummary| <= OriginalSummaryCap && |m.aiSummary| <= AiSummaryCap
    ensures |m.content| <= ContentCap && |m.author| <= NameCap && |m.source| <= NameCap
    ensures m.published == a.published && m.processedAt == now
    ensures forall i :: 0 <= i < |m.url| ==> UrlKeeps(m.url[i])
    ensures imageUrl == [] ==> m.image == []
    ensures forall i :: 0 <= i < |m.image| ==> UrlKeeps(m.image[i])
    ensures m.title == PyPrefix(MetadataText(a.title, false), TitleCap)
    ensures m.url == PyPrefix(MetadataText(a.url, true), UrlCap)
    ensures m.originalSummary == PyPrefix(MetadataText(a.summary, false), OriginalSummaryCap)
    ensures Given(aiSummary) ==> m.aiSummary == PyPrefix(MetadataText(aiSummary.value, false), AiSummaryCap)
    ensures !Given(aiSummary) ==> m.aiSummary == PyPrefix(MetadataText(a.summary, false), AiSummaryCap)
    ensures m.author == PyPrefix(MetadataText(a.author, false), NameCap)
    ensures m.source == PyPrefix(MetadataText(a.source, false), NameCap)
    ensures m.content == PyPrefix(MetadataText(content, false), ContentCap)
    ensures m.image == PyPrefix(MetadataText(imageUrl, true), ImageCap)
  {
    Metadata(
      CleanStringForMetadata(a.title, TitleCap, false),
      CleanStringForMetadata(a.url, UrlCap, true),
      CleanStringForMetadata(a.summary, OriginalSummaryCap, false),
      CleanStringForMetadata(if Given(aiSummary) then aiSummary.value else a.summary, AiSummaryCap, false),
      CleanStringForMetadata(a.author, NameCap, false),
      CleanStringForMetadata(a.source, NameCap, false),
      a.published,
      CleanStringForMetadata(content, ContentCap, false),
      if imageUrl != [] then CleanStringForMetadata(imageUrl, ImageCap, true) else "",
      now)
  }

  /** `index.upsert`: the record for `id` is replaced or added; every other record stays. */
  function Upsert(store: Store, id: Id, rec: Record): (s: Store)
    ensures id in s && s[id] == rec
    ensures s.Keys == store.Keys + {id}
    ensures forall k :: k in store && k != id ==> s[k] == store[k]
  {
    store[id := rec]
  }

  /** Of two upserts with the same id, the later one wins and no second record appears. */
  lemma LaterUpsertWins(store: Store, id: Id, first: Record, second: Record)
    ensures Upsert(Upsert(store, id, first), id, second) == Upsert(store, id, second)
  {
  }

  /** Two articles with the same URL share one record: the id depends on the URL alone. */
  lemma SameUrlOneRecord(store: Store, a: RssFetcher.Article, b: RssFetcher.Article, digest: string -> Id,
                         first: Record, second: Record)
    requires a.url == b.url
    ensures var s := Upsert(Upsert(store, digest(a.url), first), digest(b.url), second);
      s == Upsert(store, digest(a.url), second) && |s.Keys| <= |store.Keys| + 1
  {
    var s := Upsert(store, digest(a.url), second);
    assert s.Keys == store.Keys + {digest(a.url)};
  }

  /**
   * `fetch([id])` after the upsert, as the index answers it: `None` when the call raises,
   * otherwise whether the id is among the vectors returned.
   */
  type ReadBack = (Store, Id) -> Option<bool>

  /**
   * `embed_and_store`: embed the first 5000 characters of the content; with no embedding
   * report failure and write nothing. Otherwise upsert the record under the URL's digest
   * (an upsert that raises writes nothing and reports failure) and report success exactly
   * when the read-back finds the id. `sent` lists the embedding calls' inputs.
   */
  method EmbedAndStore(store: Store, a: RssFetcher.Article, content: string, imageUrl: string,
                       aiSummary: Option<string>, embedder: AiServices.Service<Embedding>,
                       digest: string -> Id, now: string, upsertRaises: bool, readBack: ReadBack)
    returns (ok: bool, after: Store, sent: seq<string>)
    ensures forall k :: 0 <= k < |sent| ==> sent[k] == AiServices.Truncate(content, EmbedInput)
    ensures AiServices.FirstAnswer(embedder, AiServices.Truncate(content, EmbedInput), 0).None?
            ==> !ok && after == store
    ensures upsertRaises ==> !ok && after == store
    ensures ok ==> digest(a.url) in after
    ensures store.Keys <= after.Keys
    ensures ok ==> !upsertRaises && Embedded(embedder, content).Some?
    ensures !upsertRaises && Embedded(embedder, content).Some? ==>
      after == Upsert(store, digest(a.url),
                      Record(Embedded(embedder, content).value, BuildMetadata(a, content, imageUrl, aiSummary, now)))
      && (ok <==> readBack(after, digest(a.url)) == Some(true))
  {
    var input := AiServices.Truncate(content, EmbedInput);
    var embedding: Option<Embedding>, sleeps;
    embedding, sent, sleeps := AiServices.GenerateEmbedding(input, embedder);
    AiServices.TruncateIdempotent(content, EmbedInput);
    assert AiServices.Truncate(input, AiServices.EmbedLimit) == input;
    if embedding.None? {
      return false, store, sent;
    }
    if upsertRaises {
      return false, store, sent;
    }
    assert embedding == Embedded(embedder, content);
    var id := digest(a.url);
    after := Upsert(store, id, Record(embedding.value, BuildMetadata(a, content, imageUrl, aiSummary, now)));
    ok := readBack(after, id) == Some(true);
  }

  /**
   * The embedding the service gives for the stored input, if any: the answer to the
   * first call that is answered.
   */
  function Embedded(embedder: AiServices.Service<Embedding>, content: string): (e: Option<Embedding>)
    ensures e.Some? <==> AiServices.FirstAnswer(embedder, AiServices.Truncate(content, EmbedInput), 0).Some?
  {
    var input := AiServices.Truncate(content, EmbedInput);
    match AiServices.FirstAnswer(embedder, input, 0)
    case None => None
    case Some(j) => Some(embedder(j, input).value)
  }

  // ---------------------------------------------------------------------------------
  // clear_old_articles
  // ---------------------------------------------------------------------------------

  /** The batches one after another. */
  function Flatten(bs: seq<seq<Id>>): seq<Id> {
    if bs == [] then [] else Flatten(bs[..|bs| - 1]) + bs[|bs| - 1]
  }

  /** The ids the batches hold. */
  function Gone(bs: seq<seq<Id>>): set<Id> {
    set x | x in Flatten(bs)
  }

  /** The clearing query's matches: the first `TopK` ids in the index's ranking. */
  function Matches(ranked: seq<Id>): (ids: seq<Id>)
    ensures ids <= ranked
    ensures |ids| == if |ranked| <= TopK then |ranked| else TopK
    ensures |ranked| > TopK ==> ids == ranked[..TopK]
  {
    if |ranked| <= TopK then ranked else ranked[..TopK]
  }

  /**
   * `clear_old_articles`: query the ids (`ranked` is the index's ranking, `None` when the
   * query raises), then delete them in consecutive batches of at most 100. A delete that
   * raises ends the clearing, as the surrounding handler does; `deleteRaises(j)` says
   * whether batch `j` raises. The batches deleted are returned.
   */
  method ClearOldArticles(store: Store, ranked: Option<seq<Id>>, deleteRaises: nat -> bool)
    returns (after: Store, batches: seq<seq<Id>>)
    ensures ranked.None? ==> after == store && batches == []
    ensures forall j :: 0 <= j < |batches| ==> 0 < |batches[j]| <= BatchSize && !deleteRaises(j)
    ensures ranked.Some? ==> Flatten(batches) <= Matches(ranked.value)
    ensures ranked.Some? && Flatten(batches) != Matches(ranked.value) ==> deleteRaises(|batches|)
    ensures ranked.Some? && Flatten(batches) == Matches(ranked.value) ==>
      |batches| == (|Matches(ranked.value)| + BatchSize - 1) / BatchSize
    ensures after == store - Gone(batches)
  {
    if ranked.None? {
      return store, [];
    }
    after, batches := DeleteInBatches(store, Matches(ranked.value), deleteRaises);
  }

  /** The deletion loop of `clear_old_articles` over the matched ids, 100 at a time. */
  method DeleteInBatches(store: Store, ids: seq<Id>, deleteRaises: nat -> bool)
    returns (after: Store, batches: seq<seq<Id>>)
    ensures forall j :: 0 <= j < |batches| ==> 0 < |batches[j]| <= BatchSize && !deleteRaises(j)
    ensures Flatten(batches) <= ids
    ensures Flatten(batches) != ids ==> deleteRaises(|batches|)
    ensures Flatten(batches) == ids ==> |batches| == (|ids| + BatchSize - 1) / BatchSize
    ensures after == store - Gone(batches)
  {
    after, batches := store, [];
    var i := 0;
    while i < |ids|
      invariant i <= |ids| && Flatten(batches) == ids[..i]
      invariant i < |ids| ==> i == BatchSize * |batches|
      invariant i <= BatchSize * |batches| < i + BatchSize
      invariant forall j :: 0 <= j < |batches| ==> 0 < |batches[j]| <= BatchSize && !deleteRaises(j)
      invariant after == store - Gone(batches)
    {
      var end := if i + BatchSize <= |ids| then i + BatchSize else |ids|;
      var batch := ids[i..end];
      if deleteRaises(|batches|) {
        return;
      }
      DeleteStep(store, after, batches, batch);
      assert ids[..end] == ids[..i] + batch;
      after := after - set x | x in batch;
      batches := batches + [batch];
      i := end;
    }
    BatchCount(|ids|, |batches|);
  }

  /** `k` batches of at most 100 cover `n` ids, all but the last full, exactly when `k` is `n / 100` rounded up. */
  lemma BatchCount(n: nat, k: nat)
    requires n <= BatchSize * k < n + BatchSize
    ensures k == (n + BatchSize - 1) / BatchSize
  {
  }

  /** Deleting one more batch from what is left leaves the store minus every batch so far. */
  lemma DeleteStep(store: Store, after: Store, bs: seq<seq<Id>>, b: seq<Id>)
    requires after == store - Gone(bs)
    ensures after - (set x | x in b) == store - Gone(bs + [b])
    ensures Flatten(bs + [b]) == Flatten(bs) + b
  {
    GoneAppend(bs, b);
  }

  /** Deleting one more batch removes exactly its ids. */
  lemma GoneAppend(bs: seq<seq<Id>>, b: seq<Id>)
    ensures Flatten(bs + [b]) == Flatten(bs) + b
    ensures Gone(bs + [b]) == Gone(bs) + set x | x in b
  {
    assert (bs + [b])[..|bs|] == bs;
  }

  /** Once every batch goes through, the index holds nothing that the query matched. */
  lemma ClearedMatches(store: Store, ids: seq<Id>, batches: seq<seq<Id>>)
    requires Flatten(batches) == ids
    ensures forall k :: k in store - Gone(batches) ==> k !in ids
  {
  }
}

=== FILE: pipeline.dfy ===
/**
 * The orchestrator: open the index, clear it, fetch the recent articles, and handle them
 * one at a time in feed order (scrape, summarise, store), counting each article as
 * processed or failed.
 *
 * Everything the run meets from outside is gathered in a `World`: whether the index and
 * the service connections are up, the feeds, the pages, and the remote services each
 * article's calls meet. Sleeps and logging are not modelled.
 */
module Pipeline {
  import opened Wrappers
  import DateUtils
  import RssFetcher
  import Scrape
  import AiServices
  import PineconeManager

  /** The run's outside world. Per-article services are indexed by the article's position. */
  datatype World = World(
    indexUp: bool,
    ranked: Option<seq<PineconeManager.Id>>,
    deleteRaises: nat -> bool,
    sources: seq<RssFetcher.Source>,
    reference: DateUtils.DateTime,
    parse: DateUtils.Parser,
    iso: DateUtils.DateTime -> string,
    net: string -> Scrape.Fetches,
    join: (string, string) -> string,
    summariser: nat -> AiServices.Service<string>,
    acronyms: string -> string,
    embedder: nat -> AiServices.Service<PineconeManager.Embedding>,
    digest: string -> PineconeManager.Id,
    now: string,
    upsertRaises: nat -> bool,
    readBack: PineconeManager.ReadBack)

  /** What the run does, in order: clear the index, fetch the feeds, handle article `index`. */
  datatype Step = Clear | Fetch | Handle(index: nat)

  /** How one article ended: nothing was scraped, or it was summarised and a store was tried. */
  datatype Handled = NoContent | Attempted(summary: Option<string>, stored: bool)

  /** The articles of the run: those the feeds give for the world's reference instant. */
  function Articles(w: World): seq<RssFetcher.Article> {
    RssFetcher.FetchRecentArticles(w.sources, w.reference, w.parse, w.iso)
  }

  /** The scraper's `(content, image)` for an article. */
  function Scraped(w: World, a: RssFetcher.Article): (string, string) {
    Scrape.ScrapeArticle(w.net(a.url).first, w.net(a.url).second, w.net(a.url).plain, a.url, w.join)
  }

  /** An article that was stored and read back. */
  predicate Stored(h: Handled) {
    h.Attempted? && h.stored
  }

  /** How many articles were stored and read back. */
  function Successes(hs: seq<Handled>): (n: nat)
    ensures n <= |hs|
  {
    if hs == [] then 0
    else Successes(hs[..|hs| - 1]) + (if Stored(hs[|hs| - 1]) then 1 else 0)
  }

  /** The steps of a run that handled `n` articles: clear, fetch, then each article in order. */
  predicate RunOrder(steps: seq<Step>, n: nat) {
    |steps| == 2 + n && steps[0] == Clear && steps[1] == Fetch
    && forall k :: 2 <= k < |steps| ==> steps[k] == Handle(k - 2)
  }

  /**
   * How article `i` of the run, `a`, may end: with no content when the scraper gave none,
   * and otherwise with the summary the summariser gives for that content.
   */
  predicate Faithful(w: World, i: nat, a: RssFetcher.Article, h: Handled) {
    (h.NoContent? <==> Scraped(w, a).0 == [])
    && (h.Attempted? ==>
          h.summary == AiServices.SummaryFrom(
            w.summariser(i), AiServices.Truncate(Scraped(w, a).0, AiServices.SummaryLimit),
            t => AiServices.CleanSummary(t, w.acronyms), 0))
  }

  /**
   * Article `i` reached the index write: it had content, the embedding service answered and
   * the upsert did not raise.
   */
  predicate Wrote(w: World, i: nat, a: RssFetcher.Article, h: Handled) {
    h.Attempted? && !w.upsertRaises(i)
    && PineconeManager.Embedded(w.embedder(i), Scraped(w, a).0).Some?
  }

  /** The record written for article `i`: its embedding and the metadata built with its summary. */
  function RecordFor(w: World, i: nat, a: RssFetcher.Article, h: Handled): PineconeManager.Record
    requires Wrote(w, i, a, h)
  {
    var page := Scraped(w, a);
    PineconeManager.Record(
      PineconeManager.Embedded(w.embedder(i), page.0).value,
      PineconeManager.BuildMetadata(a, page.0, page.1, h.summary, w.now))
  }

  /** The index after article `i`: its record under its URL's digest when written, else as it was. */
  function Apply(w: World, i: nat, a: RssFetcher.Article, h: Handled, prev: PineconeManager.Store)
    : PineconeManager.Store
  {
    if Wrote(w, i, a, h) then PineconeManager.Upsert(prev, w.digest(a.url), RecordFor(w, i, a, h)) else prev
  }

  /** Article `i` counts as stored exactly when it was written and the read-back of `s` finds it. */
  predicate Confirmed(w: World, i: nat, a: RssFetcher.Article, h: Handled, s: PineconeManager.Store) {
    Stored(h) <==> Wrote(w, i, a, h) && w.readBack(s, w.digest(a.url)) == Some(true)
  }

  /** The index once the articles of `trail` were handled: its last entry, or `store` itself. */
  function Latest(store: PineconeManager.Store, trail: seq<PineconeManager.Store>): PineconeManager.Store {
    if trail == [] then store else trail[|trail| - 1]
  }

  /**
   * `trail[i]` is the index once article `i` was handled, starting from `store`: each article
   * writes its own record or nothing, and counts as stored exactly when that write was read back.
   */
  predicate Trail(w: World, articles: seq<RssFetcher.Article>, handled: seq<Handled>,
                  store: PineconeManager.Store, trail: seq<PineconeManager.Store>)
    decreases |trail|
  {
    |trail| == |handled| <= |articles|
    && (trail != [] ==>
          var n := |trail| - 1;
          Trail(w, articles, handled[..n], store, trail[..n])
          && trail[n] == Apply(w, n, articles[n], handled[n], Latest(store, trail[..n]))
          && Confirmed(w, n, articles[n], handled[n], trail[n]))
  }

  /** Any entry of a trail, not only the last, is the step of its own article. */
  lemma {:induction false} TrailAt(w: World, articles: seq<RssFetcher.Article>, handled: seq<Handled>,
                                   store: PineconeManager.Store, trail: seq<PineconeManager.Store>, i: nat)
    requires Trail(w, articles, handled, store, trail) && i < |trail|
    ensures trail[i] == Apply(w, i, articles[i], handled[i], Latest(store, trail[..i]))
    ensures Confirmed(w, i, articles[i], handled[i], trail[i])
    decreases |trail|
  {
    var n := |trail| - 1;
    if i < n {
      TrailAt(w, articles, handled[..n], store, trail[..n], i);
      assert trail[..n][..i] == trail[..i];
      assert trail[..n][i] == trail[i] && handled[..n][i] == handled[i];
    }
  }

  /**
   * One article: scrape it; with content, summarise it and try to store it with the summary.
   * Without content the index is left as it was; otherwise the article's record is upserted
   * when an embedding came back and the upsert did not raise, and the article counts as
   * stored exactly when the read-back then finds it.
   */
  method HandleArticle(w: World, i: nat, a: RssFetcher.Article, store: PineconeManager.Store)
    returns (h: Handled, after: PineconeManager.Store)
    ensures Faithful(w, i, a, h)
    ensures after == Apply(w, i, a, h, store)
    ensures h.NoContent? ==> after == store
    ensures Confirmed(w, i, a, h, after)
    ensures store.Keys <= after.Keys
    ensures Stored(h) ==> w.digest(a.url) in after
  {
    var page := Scraped(w, a);
    if page.0 == [] {
      return NoContent, store;
    }
    var summary, sent, sleeps := AiServices.SummarizeContent(page.0, w.summariser(i), w.acronyms);
    var ok, calls;
    ok, after, calls := PineconeManager.EmbedAndStore(
      store, a, page.0, page.1, summary, w.embedder(i), w.digest, w.now, w.upsertRaises(i), w.readBack);
    h := Attempted(summary, ok);
  }

  /**
   * `process_articles`: with no index nothing happens; otherwise the index is cleared once,
   * then the feeds are fetched, and each article in feed order is scraped; only an article
   * with content is summarised and stored. Every article is counted exactly once, as
   * processed when its store was read back and as failed otherwise. `cleared` is the index
   * between clearing and fetching: clearing only removes records, and when no delete call
   * raises, every id the clearing query matched is gone; handling only adds records.
   */
  method ProcessArticles(w: World, store: PineconeManager.Store)
    returns (after: PineconeManager.Store, processed: nat, failed: nat, steps: seq<Step>, handled: seq<Handled>,
             cleared: PineconeManager.Store, trail: seq<PineconeManager.Store>)
    ensures !w.indexUp ==> after == store && steps == [] && handled == [] && processed == 0 && failed == 0
    ensures Trail(w, Articles(w), handled, cleared, trail) && after == Latest(cleared, trail)
    ensures !w.indexUp || w.ranked.None? ==> cleared == store
    ensures cleared.Keys <= store.Keys && cleared.Keys <= after.Keys
    ensures w.indexUp && w.ranked.Some? && (forall j :: !w.deleteRaises(j)) ==>
      forall k :: k in cleared ==> k !in PineconeManager.Matches(w.ranked.value)
    ensures w.indexUp ==> RunOrder(steps, |handled|) && |handled| == |Articles(w)|
    ensures w.indexUp && Articles(w) == [] ==> steps == [Clear, Fetch]
    ensures w.indexUp ==> AllFaithful(w, Articles(w), handled) && Kept(w, Articles(w), handled, after)
    ensures processed == Successes(handled) && processed + failed == |handled|
  {
    after, processed, failed, steps, handled, cleared, trail := store, 0, 0, [], [], store, [];
    if !w.indexUp {
      return;
    }
    var batches;
    cleared, batches := PineconeManager.ClearOldArticles(store, w.ranked, w.deleteRaises);
    if w.ranked.Some? && PineconeManager.Flatten(batches) == PineconeManager.Matches(w.ranked.value) {
      PineconeManager.ClearedMatches(store, PineconeManager.Matches(w.ranked.value), batches);
    }
    after := cleared;
    steps := [Clear];
    var articles := Articles(w);
    steps := steps + [Fetch];
    if articles == [] {
      return;
    }
    processed, failed, handled, after, trail := HandleAll(w, articles, after);
    RunOrderOf(|articles|);
    steps := steps + Handles(|articles|);
  }

  /** Every handled article ended as its content and the summariser allow: the last one, and those before it. */
  predicate AllFaithful(w: World, articles: seq<RssFetcher.Article>, handled: seq<Handled>)
    decreases |handled|
  {
    |handled| <= |articles|
    && (handled != [] ==>
          var n := |handled| - 1;
          AllFaithful(w, articles, handled[..n]) && Faithful(w, n, articles[n], handled[n]))
  }

  /** Every article reported stored has a record under its URL's digest. */
  predicate Kept(w: World, articles: seq<RssFetcher.Article>, handled: seq<Handled>, after: PineconeManager.Store) {
    |handled| <= |articles|
    && forall i :: 0 <= i < |handled| && Stored(handled[i]) ==> w.digest(articles[i].url) in after
  }

  /** Clearing, fetching and handling `n` articles in order is a run of `n` articles. */
  lemma RunOrderOf(n: nat)
    ensures RunOrder([Clear] + [Fetch] + Handles(n), n)
  {
    var steps := [Clear] + [Fetch] + Handles(n);
    forall k | 2 <= k < |steps| ensures steps[k] == Handle(k - 2) {
      assert steps[k] == Handles(n)[k - 2];
    }
  }

  /** `[Handle(0), ..., Handle(n - 1)]`. */
  function Handles(n: nat): (r: seq<Step>)
    ensures |r| == n && forall k :: 0 <= k < n ==> r[k] == Handle(k)
  {
    if n == 0 then [] else Handles(n - 1) + [Handle(n - 1)]
  }

  /** The loop of `process_articles` over the fetched articles, in order. */
  method HandleAll(w: World, articles: seq<RssFetcher.Article>, store: PineconeManager.Store)
    returns (processed: nat, failed: nat, handled: seq<Handled>, after: PineconeManager.Store,
             trail: seq<PineconeManager.Store>)
    ensures |handled| == |articles|
    ensures Trail(w, articles, handled, store, trail) && after == Latest(store, trail)
    ensures store.Keys <= after.Keys
    ensures AllFaithful(w, articles, handled) && Kept(w, articles, handled, after)
    ensures processed == Successes(handled) && processed + failed == |handled|
  {
    processed, failed, handled, after, trail := 0, 0, [], store, [];
    var i := 0;
    while i < |articles|
      invariant i <= |articles| && |handled| == i
      invariant Trail(w, articles, handled, store, trail) && after == Latest(store, trail)
      invariant store.Keys <= after.Keys
      invariant AllFaithful(w, articles, handled) && Kept(w, articles, handled, after)
      invariant processed == Successes(handled) && processed + failed == i
    {
      var outcome, stored := HandleArticle(w, i, articles[i], after);
      Advance(w, articles, handled, outcome, store, trail, after, stored);
      trail := trail + [stored];
      after := stored;
      SuccessesAppend(handled, outcome);
      handled := handled + [outcome];
      if Stored(outcome) {
        processed := processed + 1;
      } else {
        failed := failed + 1;
      }
      i := i + 1;
    }
  }

  /** The articles handled so far stay faithful when one more is handled faithfully. */
  lemma FaithfulAppend(w: World, articles: seq<RssFetcher.Article>, hs: seq<Handled>, h: Handled)
    requires |hs| < |articles|
    requires AllFaithful(w, articles, hs) && Faithful(w, |hs|, articles[|hs|], h)
    ensures AllFaithful(w, articles, hs + [h])
  {
    assert (hs + [h])[..|hs|] == hs;
  }

  /** Records found so far stay found: handling one more article only adds records. */
  lemma KeptAppend(w: World, articles: seq<RssFetcher.Article>, hs: seq<Handled>, h: Handled,
                   before: PineconeManager.Store, after: PineconeManager.Store)
    requires |hs| < |articles|
    requires Kept(w, articles, hs, before)
    requires before.Keys <= after.Keys && (Stored(h) ==> w.digest(articles[|hs|].url) in after)
    ensures Kept(w, articles, hs + [h], after)
  {
    var hs' := hs + [h];
    assert forall j :: 0 <= j < |hs| ==> hs'[j] == hs[j];
    assert hs'[|hs|] == h;
  }

  /** Every loop invariant about the articles survives handling one more article. */
  lemma Advance(w: World, articles: seq<RssFetcher.Article>, hs: seq<Handled>, h: Handled,
                store: PineconeManager.Store, trail: seq<PineconeManager.Store>,
                before: PineconeManager.Store, next: PineconeManager.Store)
    requires |hs| < |articles| && before == Latest(store, trail)
    requires AllFaithful(w, articles, hs) && Kept(w, articles, hs, before) && Trail(w, articles, hs, store, trail)
    requires Faithful(w, |hs|, articles[|hs|], h)
    requires next == Apply(w, |hs|, articles[|hs|], h, before) && Confirmed(w, |hs|, articles[|hs|], h, next)
    requires before.Keys <= next.Keys && (Stored(h) ==> w.digest(articles[|hs|].url) in next)
    ensures AllFaithful(w, articles, hs + [h]) && Kept(w, articles, hs + [h], next)
    ensures Trail(w, articles, hs + [h], store, trail + [next])
  {
    FaithfulAppend(w, articles, hs, h);
    KeptAppend(w, articles, hs, h, before, next);
    TrailAppend(w, articles, hs, h, store, trail, next);
  }

  /** The trail grows by the index the next article leaves. */
  lemma TrailAppend(w: World, articles: seq<RssFetcher.Article>, hs: seq<Handled>, h: Handled,
                    store: PineconeManager.Store, trail: seq<PineconeManager.Store>, next: PineconeManager.Store)
    requires |hs| < |articles| && Trail(w, articles, hs, store, trail)
    requires next == Apply(w, |hs|, articles[|hs|], h, Latest(store, trail))
    requires Confirmed(w, |hs|, articles[|hs|], h, next)
    ensures Trail(w, articles, hs + [h], store, trail + [next])
  {
    assert (hs + [h])[..|hs|] == hs && (trail + [next])[..|trail|] == trail;
  }

  /** Counting one more article adds one exactly when it was stored. */
  lemma SuccessesAppend(hs: seq<Handled>, h: Handled)
    ensures Successes(hs + [h]) == Successes(hs) + (if Stored(h) then 1 else 0)
  {
    assert (hs + [h])[..|hs|] == hs;
  }

  /**
   * `main`: when the connection test fails the pipeline does not run and the exit code is
   * 1; otherwise the pipeline runs and the exit code is 0.
   */
  method RunPipeline(connected: bool, w: World, store: PineconeManager.Store)
    returns (code: int, after: PineconeManager.Store, steps: seq<Step>)
    ensures !connected ==> code == 1 && after == store && steps == []
    ensures connected ==> code == 0
    ensures connected && w.indexUp ==> RunOrder(steps, |Articles(w)|)
  {
    if !connected {
      return 1, store, [];
    }
    var processed, failed, handled;
    var cleared, trail;
    after, processed, failed, steps, handled, cleared, trail := ProcessArticles(w, store);
    code := 0;
  }
}

=== FILE: pystr.dfy ===
/**
 * The parts of Python's `str` and `re` behaviour that the pipeline's text rules rely on:
 * character classes, `strip`, `splitlines`, `split(sep)`, `sep.join`, `replace` and the
 * ubiquitous `re.sub(r'\s+', ' ', s)`.
 */
module PyStr {

  /** `str.isspace()`, which is also what the regular-expression class `\s` matches on text. */
  predicate IsSpace(c: char) {
    var n := c as int;
    (9 <= n <= 13) || (28 <= n <= 32) || n == 0x85 || n == 0xA0 || n == 0x1680
    || (0x2000 <= n <= 0x200A) || n == 0x2028 || n == 0x2029 || n == 0x202F
    || n == 0x205F || n == 0x3000
  }

  /** The line boundaries `str.splitlines()` splits on. */
  predicate IsLineBreak(c: char) {
    var n := c as int;
    (10 <= n <= 13) || (28 <= n <= 30) || n == 0x85 || n == 0x2028 || n == 0x2029
  }

  predicate NotLineBreak(c: char) { !IsLineBreak(c) }

  /** `\d`, restricted to the ASCII digits. */
  predicate IsDigit(c: char) { '0' <= c <= '9' }

  /** `[A-Z]` (the pattern is case-sensitive, so this one is exact). */
  predicate IsUpper(c: char) { 'A' <= c <= 'Z' }

  predicate IsAsciiLetter(c: char) { 'a' <= c <= 'z' || 'A' <= c <= 'Z' }

  /**
   * `\w` on text: exact on ASCII and Latin-1, and above U+00FF every character except
   * whitespace and the punctuation, symbol, private-use and emoji blocks.
   */
  predicate IsWordChar(c: char) {
    var n := c as int;
    IsAsciiLetter(c) || IsDigit(c) || c == '_'
    || n == 0xAA || n == 0xB2 || n == 0xB3 || n == 0xB5 || n == 0xB9 || n == 0xBA
    || (0xBC <= n <= 0xBE)
    || (0xC0 <= n <= 0xFF && n != 0xD7 && n != 0xF7)
    || (0x100 <= n && !IsSpace(c)
        && !(0x2000 <= n <= 0x2BFF) && !(0x3000 <= n <= 0x303F) && !(0xE000 <= n <= 0xF8FF)
        && !(0xFE00 <= n <= 0xFE6F) && !(0xFF00 <= n <= 0xFF0F) && !(0x1F000 <= n <= 0x1FAFF))
  }

  /** ASCII case folding, as used by case-insensitive comparisons. */
  function Lower(c: char): char {
    if 'A' <= c <= 'Z' then (c as int + 32) as char else c
  }

  function LowerStr(s: string): (r: string)
    ensures |r| == |s|
    ensures forall i :: 0 <= i < |s| ==> r[i] == Lower(s[i])
  {
    if s == [] then [] else [Lower(s[0])] + LowerStr(s[1..])
  }

  /** Length of the longest prefix of `s` whose characters all satisfy `p`. */
  function Run(s: string, p: char -> bool): (n: nat)
    ensures n <= |s|
    ensures forall i :: 0 <= i < n ==> p(s[i])
    ensures n < |s| ==> !p(s[n])
  {
    if s != [] && p(s[0]) then 1 + Run(s[1..], p) else 0
  }

  /** Number of whitespace characters at the start of `s`. */
  function Lead(s: string): (n: nat)
    ensures n <= |s|
    ensures forall i :: 0 <= i < n ==> IsSpace(s[i])
    ensures n < |s| ==> !IsSpace(s[n])
  {
    if s != [] && IsSpace(s[0]) then 1 + Lead(s[1..]) else 0
  }

  /** Number of whitespace characters from index `i` on (a greedy `\s*` starting at `i`). */
  function SpacesFrom(s: string, i: nat): (n: nat)
    requires i <= |s|
    ensures i + n <= |s|
    ensures forall k :: i <= k < i + n ==> IsSpace(s[k])
    ensures i + n < |s| ==> !IsSpace(s[i + n])
    decreases |s| - i
  {
    if i < |s| && IsSpace(s[i]) then 1 + SpacesFrom(s, i + 1) else 0
  }

  /** Number of digits from index `i` on (a greedy `\d*` starting at `i`). */
  function DigitsFrom(s: string, i: nat): (n: nat)
    requires i <= |s|
    ensures i + n <= |s|
    ensures forall k :: i <= k < i + n ==> IsDigit(s[k])
    ensures i + n < |s| ==> !IsDigit(s[i + n])
    decreases |s| - i
  {
    if i < |s| && IsDigit(s[i]) then 1 + DigitsFrom(s, i + 1) else 0
  }

  /** Number of `c` characters from index `i` on. */
  function CharsFrom(s: string, i: nat, c: char): (n: nat)
    requires i <= |s|
    ensures i + n <= |s|
    ensures forall k :: i <= k < i + n ==> s[k] == c
    ensures i + n < |s| ==> s[i + n] != c
    decreases |s| - i
  {
    if i < |s| && s[i] == c then 1 + CharsFrom(s, i + 1, c) else 0
  }

  /** Index of the first newline at or after `i`, or `|s|`: where `.*$` stops in multi-line mode. */
  function LineEnd(s: string, i: nat): (e: nat)
    requires i <= |s|
    ensures i <= e <= |s|
    ensures forall k :: i <= k < e ==> s[k] != '\n'
    ensures e < |s| ==> s[e] == '\n'
    decreases |s| - i
  {
    if i == |s| || s[i] == '\n' then i else LineEnd(s, i + 1)
  }

  lemma RunOfPrefix(s: string, t: string, p: char -> bool)
    requires Run(s, p) < |s|
    ensures Run(s + t, p) == Run(s, p)
  {
    if s != [] && p(s[0]) {
      assert (s + t)[1..] == s[1..] + t;
      RunOfPrefix(s[1..], t, p);
    }
  }

  /** Every character of `r` is a space or occurs in `s`: `r` introduces nothing but spaces. */
  ghost predicate Drawn(r: string, s: string) {
    forall i :: 0 <= i < |r| ==> r[i] == ' ' || r[i] in s
  }

  lemma DrawnTrans(r: string, m: string, s: string)
    requires Drawn(r, m) && Drawn(m, s)
    ensures Drawn(r, s)
  {
    forall i | 0 <= i < |r| ensures r[i] == ' ' || r[i] in s {
      if r[i] != ' ' {
        var j :| 0 <= j < |m| && m[j] == r[i];
        assert m[j] == ' ' || m[j] in s;
      }
    }
  }

  lemma DrawnSlice(s: string, i: nat, j: nat)
    requires i <= j <= |s|
    ensures Drawn(s[i..j], s)
  {
    forall k | 0 <= k < j - i ensures s[i..j][k] in s {
      assert s[i..j][k] == s[i + k];
    }
  }

  lemma DrawnSuffix(s: string, i: nat)
    requires i <= |s|
    ensures Drawn(s[i..], s)
  {
    forall k | 0 <= k < |s| - i ensures s[i..][k] in s {
      assert s[i..][k] == s[i + k];
    }
  }

  /** A slice of `s` followed by text drawn from a suffix of `s` is drawn from `s`. */
  lemma DrawnStep(s: string, i: nat, j: nat, k: nat, r: string, rest: string)
    requires i <= j <= |s| && k <= |s|
    requires r == s[i..j] + rest && Drawn(rest, s[k..])
    ensures Drawn(r, s)
  {
    DrawnSlice(s, i, j);
    DrawnSuffix(s, k);
    DrawnTrans(rest, s[k..], s);
    DrawnConcat(s[i..j], rest, s);
  }

  lemma DrawnConcat(a: string, b: string, s: string)
    requires Drawn(a, s) && Drawn(b, s)
    ensures Drawn(a + b, s)
  {
    forall k | 0 <= k < |a + b| ensures (a + b)[k] == ' ' || (a + b)[k] in s {
      if k < |a| {
        assert (a + b)[k] == a[k];
      } else {
        assert (a + b)[k] == b[k - |a|];
      }
    }
  }

  /** `s` with all whitespace removed: what no whitespace rule may change. */
  function NonSpace(s: string): string {
    if s == [] then [] else (if IsSpace(s[0]) then [] else [s[0]]) + NonSpace(s[1..])
  }

  lemma {:induction false} NonSpaceConcat(a: string, b: string)
    ensures NonSpace(a + b) == NonSpace(a) + NonSpace(b)
  {
    if a == [] {
      assert a + b == b;
    } else {
      var h := if IsSpace(a[0]) then [] else [a[0]];
      NonSpaceConcat(a[1..], b);
      calc {
        NonSpace(a + b);
        { assert (a + b)[0] == a[0] && (a + b)[1..] == a[1..] + b; }
        h + NonSpace(a[1..] + b);
        h + (NonSpace(a[1..]) + NonSpace(b));
        (h + NonSpace(a[1..])) + NonSpace(b);
        NonSpace(a) + NonSpace(b);
      }
    }
  }

  lemma {:induction false} NonSpaceOfSpaces(s: string)
    requires forall i :: 0 <= i < |s| ==> IsSpace(s[i])
    ensures NonSpace(s) == []
  {
    if s != [] {
      NonSpaceOfSpaces(s[1..]);
    }
  }

  lemma {:induction false} NonSpaceOfSolid(s: string)
    requires forall i :: 0 <= i < |s| ==> !IsSpace(s[i])
    ensures NonSpace(s) == s
  {
    if s != [] {
      NonSpaceOfSolid(s[1..]);
    }
  }

  /** Number of whitespace characters at the end of `s`. */
  function Trail(s: string): (n: nat)
    ensures n <= |s|
    ensures forall i :: |s| - n <= i < |s| ==> IsSpace(s[i])
    ensures n < |s| ==> !IsSpace(s[|s| - 1 - n])
  {
    if s != [] && IsSpace(s[|s| - 1]) then 1 + Trail(s[..|s| - 1]) else 0
  }

  /** No whitespace at either end: what `str.strip()` establishes. */
  predicate Stripped(s: string) {
    s == [] || (!IsSpace(s[0]) && !IsSpace(s[|s| - 1]))
  }

  /** `str.strip()`: the slice of `s` between its leading and its trailing whitespace. */
  function Strip(s: string): (r: string)
    ensures Stripped(r)
    ensures |r| <= |s|
  {
    var a := Lead(s);
    if a == |s| then []
    else
      var b := |s| - Trail(s);
      assert a < b by {
        assert !IsSpace(s[a]);
      }
      s[a..b]
  }

  lemma StripParts(s: string)
    ensures Lead(s) + |Strip(s)| <= |s|
    ensures s == s[..Lead(s)] + Strip(s) + s[Lead(s) + |Strip(s)|..]
    ensures forall i :: Lead(s) + |Strip(s)| <= i < |s| ==> IsSpace(s[i])
  {
    var a := Lead(s);
    var r := Strip(s);
    if a == |s| {
      assert r == [];
      assert s[..a] == s && s[a..] == [];
    } else {
      var b := |s| - Trail(s);
      assert r == s[a..b] && a + |r| == b;
      ThreeParts(s, a, b);
    }
  }

  lemma ThreeParts(s: string, a: nat, b: nat)
    requires a <= b <= |s|
    ensures s == s[..a] + s[a..b] + s[b..]
  {
    assert s[..b] == s[..a] + s[a..b];
    assert s == s[..b] + s[b..];
  }

  lemma StripDrawn(s: string)
    ensures Drawn(Strip(s), s)
    ensures multiset(Strip(s)) <= multiset(s)
  {
    StripMultiset(s);
    var r := Strip(s);
    forall i | 0 <= i < |r| ensures r[i] in s {
      assert r[i] in multiset(r);
    }
  }

  lemma StripMultiset(s: string)
    ensures multiset(Strip(s)) <= multiset(s)
  {
    var a := Lead(s);
    var r := Strip(s);
    StripParts(s);
    var x := s[..a];
    var z := s[a + |r|..];
    assert s == x + r + z;
    assert multiset(s) == multiset(x + r) + multiset(z);
    assert multiset(x + r) == multiset(x) + multiset(r);
  }

  lemma StripNonSpace(s: string)
    ensures NonSpace(Strip(s)) == NonSpace(s)
  {
    var a := Lead(s);
    var r := Strip(s);
    StripParts(s);
    var p, q := s[..a], s[a + |r|..];
    NonSpaceOfSpaces(p);
    NonSpaceOfSpaces(q);
    NonSpaceFrame(p, r, q);
  }

  /** Invisible edges can be dropped. */
  lemma NonSpaceFrame(p: string, r: string, q: string)
    requires NonSpace(p) == [] && NonSpace(q) == []
    ensures NonSpace(p + r + q) == NonSpace(r)
  {
    NonSpaceConcat(p + r, q);
    NonSpaceConcat(p, r);
    assert [] + NonSpace(r) + [] == NonSpace(r);
  }

  /** A string without edge whitespace is its own `strip()`. */
  lemma StripOfStripped(s: string)
    requires Stripped(s)
    ensures Strip(s) == s
  {
  }

  /** `re.sub(r'\s+', ' ', s)`: every maximal whitespace run becomes one space. */
  function Collapse(s: string): (r: string)
    ensures r == [] <==> s == []
    ensures r != [] ==> (IsSpace(r[0]) <==> IsSpace(s[0]))
    decreases |s|
  {
    if s == [] then []
    else if IsSpace(s[0]) then " " + Collapse(s[Lead(s)..])
    else [s[0]] + Collapse(s[1..])
  }

  /** Whitespace in the output of `Collapse` is single spaces, never two in a row. */
  predicate SingleSpaced(r: string) {
    && (forall i :: 0 <= i < |r| && IsSpace(r[i]) ==> r[i] == ' ')
    && (forall i :: 0 <= i < |r| - 1 ==> !(IsSpace(r[i]) && IsSpace(r[i + 1])))
  }

  lemma {:induction false} CollapseSingleSpaced(s: string)
    ensures SingleSpaced(Collapse(s))
    decreases |s|
  {
    if s != [] {
      var n := if IsSpace(s[0]) then Lead(s) else 1;
      var head := if IsSpace(s[0]) then ' ' else s[0];
      var rest := Collapse(s[n..]);
      CollapseSingleSpaced(s[n..]);
      var r := [head] + rest;
      assert Collapse(s) == r;
      assert forall i :: 0 <= i < |rest| ==> r[i + 1] == rest[i];
      assert IsSpace(head) ==> rest == [] || !IsSpace(rest[0]);
    }
  }

  /** A single-spaced string is its own collapse; with `CollapseSingleSpaced`, collapsing is idempotent. */
  lemma {:induction false} CollapseOfSingleSpaced(s: string)
    requires SingleSpaced(s)
    ensures Collapse(s) == s
    decreases |s|
  {
    if s != [] {
      assert SingleSpaced(s[1..]) by {
        assert forall i :: 0 <= i < |s| - 1 ==> s[1..][i] == s[i + 1];
      }
      CollapseOfSingleSpaced(s[1..]);
      if IsSpace(s[0]) {
        assert Lead(s) == 1 by {
          assert |s| > 1 ==> !IsSpace(s[1]);
        }
      }
      assert s == [s[0]] + s[1..];
    }
  }

  lemma {:induction false} CollapseNonSpace(s: string)
    ensures NonSpace(Collapse(s)) == NonSpace(s)
    decreases |s|
  {
    if s != [] {
      var n := if IsSpace(s[0]) then Lead(s) else 1;
      var head := if IsSpace(s[0]) then ' ' else s[0];
      CollapseNonSpace(s[n..]);
      assert s == s[..n] + s[n..];
      NonSpaceConcat(s[..n], s[n..]);
      NonSpaceConcat([head], Collapse(s[n..]));
      if IsSpace(s[0]) {
        NonSpaceOfSpaces(s[..n]);
      } else {
        assert s[..n] == [head];
      }
    }
  }

  lemma {:induction false} CollapseDrawn(s: string)
    ensures Drawn(Collapse(s), s)
    decreases |s|
  {
    if s != [] {
      var n := if IsSpace(s[0]) then Lead(s) else 1;
      var head := if IsSpace(s[0]) then ' ' else s[0];
      var rest := Collapse(s[n..]);
      CollapseDrawn(s[n..]);
      var r := [head] + rest;
      forall i | 0 <= i < |r| ensures r[i] == ' ' || r[i] in s {
        if i > 0 && r[i] != ' ' {
          assert r[i] == rest[i - 1];
          var j :| 0 <= j < |s[n..]| && s[n..][j] == rest[i - 1];
          assert s[n + j] == r[i];
        }
      }
    }
  }

  /** `sep.join(parts)` */
  function Join(sep: string, parts: seq<string>): string {
    if parts == [] then []
    else if |parts| == 1 then parts[0]
    else parts[0] + sep + Join(sep, parts[1..])
  }

  /** `sep` occurs in `s` at index `i`. */
  predicate StartsAt(s: string, i: int, sep: string) {
    0 <= i && i + |sep| <= |s| && s[i..i + |sep|] == sep
  }

  lemma StartsAtShift(s: string, j: int, sep: string)
    requires s != [] && 1 <= j
    ensures StartsAt(s, j, sep) <==> StartsAt(s[1..], j - 1, sep)
  {
    if j + |sep| <= |s| {
      var x := s[j..j + |sep|];
      var y := s[1..][j - 1..j - 1 + |sep|];
      assert |x| == |y|;
      forall t | 0 <= t < |x| ensures x[t] == y[t] {
        assert x[t] == s[j + t];
        assert y[t] == s[1..][j - 1 + t];
      }
      assert x == y;
    }
  }

  /** Index of the first occurrence of `sep` in `s`, or `|s|` when there is none. */
  function Find(s: string, sep: string): (i: nat)
    requires |sep| > 0
    ensures i <= |s|
    ensures i < |s| ==> StartsAt(s, i, sep)
    ensures forall j :: 0 <= j < i ==> !StartsAt(s, j, sep)
  {
    if |s| < |sep| then |s|
    else if s[..|sep|] == sep then 0
    else
      var k := Find(s[1..], sep);
      assert forall j :: 1 <= j <= k ==> !StartsAt(s, j, sep) by {
        forall j | 1 <= j <= k ensures !StartsAt(s, j, sep) {
          StartsAtShift(s, j, sep);
        }
      }
      assert k < |s| - 1 ==> StartsAt(s, k + 1, sep) by {
        if k < |s| - 1 {
          assert k < |s[1..]|;
          assert StartsAt(s[1..], k, sep);
          StartsAtShift(s, k + 1, sep);
        }
      }
      1 + k
  }

  /** `s.split(sep)` for a non-empty literal separator. */
  function SplitOn(s: string, sep: string): (parts: seq<string>)
    requires |sep| > 0
    ensures |parts| >= 1
    decreases |s|
  {
    var i := Find(s, sep);
    if i == |s| then [s] else [s[..i]] + SplitOn(s[i + |sep|..], sep)
  }

  /** `s.splitlines()`: the lines of `s` without their terminators (`\r\n` counts as one). */
  function SplitLines(s: string): (lines: seq<string>)
    decreases |s|
  {
    if s == [] then []
    else
      var i := Run(s, NotLineBreak);
      if i == |s| then [s]
      else
        var skip := if s[i] == '\r' && i + 1 < |s| && s[i + 1] == '\n' then 2 else 1;
        [s[..i]] + SplitLines(s[i + skip..])
  }

  /** `s.replace(pat, rep)`: non-overlapping occurrences, left to right. */
  function ReplaceAll(s: string, pat: string, rep: string): string
    requires |pat| > 0
    decreases |s|
  {
    if |s| < |pat| then s
    else if s[..|pat|] == pat then rep + ReplaceAll(s[|pat|..], pat, rep)
    else [s[0]] + ReplaceAll(s[1..], pat, rep)
  }

  /** Counting `x` in a string whose head agrees with `s`'s head about being `x`. */
  lemma CountCons(s: string, r: string, rest: string, x: char)
    requires s != [] && r != [] && r[1..] == rest
    requires r[0] == x <==> s[0] == x
    requires multiset(rest)[x] == multiset(s[1..])[x]
    ensures multiset(r)[x] == multiset(s)[x]
  {
    assert s == [s[0]] + s[1..];
    assert r == [r[0]] + rest;
  }

  /** Counting `x` after dropping a prefix that holds no `x`. */
  lemma CountSkip(s: string, n: nat, x: char)
    requires n <= |s|
    requires forall k :: 0 <= k < n ==> s[k] != x
    ensures multiset(s)[x] == multiset(s[n..])[x]
  {
    assert s == s[..n] + s[n..];
    assert x !in s[..n];
  }

  /** Keeps the characters satisfying `p`, in order (`''.join(c for c in s if p(c))`). */
  function Filter(s: string, p: char -> bool): (r: string)
    ensures forall i :: 0 <= i < |r| ==> p(r[i])
    ensures |r| <= |s|
    ensures multiset(r) <= multiset(s)
  {
    if s == [] then []
    else
      assert s == [s[0]] + s[1..];
      (if p(s[0]) then [s[0]] else []) + Filter(s[1..], p)
  }

  lemma {:induction false} FilterCount(s: string, p: char -> bool, x: char)
    requires p(x)
    ensures multiset(Filter(s, p))[x] == multiset(s)[x]
  {
    if s != [] {
      FilterCount(s[1..], p, x);
      if p(s[0]) {
        assert Filter(s, p) == [s[0]] + Filter(s[1..], p);
        CountCons(s, Filter(s, p), Filter(s[1..], p), x);
      } else {
        assert Filter(s, p) == Filter(s[1..], p);
        CountSkip(s, 1, x);
      }
    }
  }

  lemma {:induction false} FilterAll(s: string, p: char -> bool)
    requires forall i :: 0 <= i < |s| ==> p(s[i])
    ensures Filter(s, p) == s
  {
    if s != [] {
      FilterAll(s[1..], p);
      assert [s[0]] + s[1..] == s;
    }
  }

  /** Stripping only shortens: a strip that keeps the length keeps everything. */
  lemma StripFull(s: string)
    requires |Strip(s)| == |s|
    ensures Strip(s) == s
  {
    StripParts(s);
    assert Lead(s) == 0;
    assert s[..0] + Strip(s) == Strip(s);
  }

  /** `strip()` returns the slice starting after the leading whitespace. */
  lemma StripSlice(s: string)
    ensures |Strip(s)| <= |s| - Lead(s)
    ensures forall k :: 0 <= k < |Strip(s)| ==> Strip(s)[k] == s[Lead(s) + k]
  {
  }

  /** Stripping single-spaced text keeps it single-spaced. */
  lemma StripSingleSpaced(s: string)
    requires SingleSpaced(s)
    ensures SingleSpaced(Strip(s))
  {
    StripSlice(s);
    var r := Strip(s);
    forall i | 0 <= i < |r| - 1 ensures !(IsSpace(r[i]) && IsSpace(r[i + 1])) {
      assert r[i] == s[Lead(s) + i] && r[i + 1] == s[Lead(s) + i + 1];
    }
  }

  lemma {:induction false} FilterNone(s: string, p: char -> bool)
    requires forall i :: 0 <= i < |s| ==> !p(s[i])
    ensures Filter(s, p) == []
  {
    if s != [] {
      FilterNone(s[1..], p);
    }
  }

  lemma {:induction false} FilterConcat(a: string, b: string, p: char -> bool)
    ensures Filter(a + b, p) == Filter(a, p) + Filter(b, p)
  {
    if a == [] {
      assert a + b == b;
    } else {
      assert (a + b)[0] == a[0];
      assert (a + b)[1..] == a[1..] + b;
      FilterConcat(a[1..], b, p);
    }
  }

  /** Dropping whitespace from between two strings leaves their visible characters as they were. */
  lemma NonSpaceAround(a: string, m: string, c: string)
    requires forall k :: 0 <= k < |m| ==> IsSpace(m[k])
    ensures NonSpace(a + m + c) == NonSpace(a) + NonSpace(c)
  {
    NonSpaceOfSpaces(m);
    NonSpaceDrop(a, m, c);
  }

  /** A middle part with no visible characters can be dropped. */
  lemma NonSpaceDrop(a: string, m: string, c: string)
    requires NonSpace(m) == []
    ensures NonSpace(a + m + c) == NonSpace(a) + NonSpace(c)
  {
    NonSpaceConcat(a + m, c);
    NonSpaceConcat(a, m);
    assert NonSpace(a) + [] == NonSpace(a);
  }

  /** Rewriting `p + m + q + rest` to `p + q + rest'`, with `m` blank and `rest'` as visible as `rest`. */
  lemma NonSpaceSkip(p: string, m: string, q: string, rest: string, rest': string)
    requires forall k :: 0 <= k < |m| ==> IsSpace(m[k])
    requires NonSpace(rest') == NonSpace(rest)
    ensures NonSpace(p + q + rest') == NonSpace(p + m + q + rest)
  {
    NonSpaceConcat(p + m + q, rest);
    NonSpaceConcat(p + m, q);
    NonSpaceConcat(p, m);
    NonSpaceOfSpaces(m);
    NonSpaceConcat(p + q, rest');
    NonSpaceConcat(p, q);
    calc {
      NonSpace(p + m + q + rest);
      NonSpace(p + m) + NonSpace(q) + NonSpace(rest);
      { assert NonSpace(p + m) == NonSpace(p); }
      NonSpace(p) + NonSpace(q) + NonSpace(rest');
      NonSpace(p + q + rest');
    }
  }

  /** Copying one character and rewriting the rest invisibly keeps the visible characters. */
  lemma NonSpaceCons(s: string, rest': string)
    requires s != [] && NonSpace(rest') == NonSpace(s[1..])
    ensures NonSpace([s[0]] + rest') == NonSpace(s)
  {
    assert s == [s[0]] + s[1..];
    NonSpaceConcat([s[0]], s[1..]);
    NonSpaceConcat([s[0]], rest');
  }

  /** `DigitsFrom` finds exactly a digit run that a non-digit (or the end) closes. */
  /** A digit is not whitespace. */
  lemma DigitNotSpace(c: char)
    requires IsDigit(c)
    ensures !IsSpace(c)
  {
  }

  lemma {:induction false} DigitsExact(s: string, i: nat, n: nat)
    requires i + n <= |s|
    requires forall k :: i <= k < i + n ==> IsDigit(s[k])
    requires i + n < |s| ==> !IsDigit(s[i + n])
    ensures DigitsFrom(s, i) == n
    decreases n
  {
    if n > 0 {
      DigitsExact(s, i + 1, n - 1);
    }
  }

  /** `SpacesFrom` finds exactly a whitespace run that a non-space (or the end) closes. */
  lemma {:induction false} SpacesExact(s: string, i: nat, n: nat)
    requires i + n <= |s|
    requires forall k :: i <= k < i + n ==> IsSpace(s[k])
    requires i + n < |s| ==> !IsSpace(s[i + n])
    ensures SpacesFrom(s, i) == n
    decreases n
  {
    if n > 0 {
      SpacesExact(s, i + 1, n - 1);
    }
  }

  /** Number of `[A-Z]` characters from index `i` on. */
  function UppersFrom(s: string, i: nat): (n: nat)
    requires i <= |s|
    ensures i + n <= |s|
    ensures forall k :: i <= k < i + n ==> IsUpper(s[k])
    ensures i + n < |s| ==> !IsUpper(s[i + n])
    decreases |s| - i
  {
    if i < |s| && IsUpper(s[i]) then 1 + UppersFrom(s, i + 1) else 0
  }

  lemma {:induction false} UppersExact(s: string, i: nat, n: nat)
    requires i + n <= |s|
    requires forall k :: i <= k < i + n ==> IsUpper(s[k])
    requires i + n < |s| ==> !IsUpper(s[i + n])
    ensures UppersFrom(s, i) == n
    decreases n
  {
    if n > 0 {
      UppersExact(s, i + 1, n - 1);
    }
  }
}

=== FILE: rss_fetcher.dfy ===
/**
 * Feed ingestion: every configured source's entries are filtered to the freshness window
 * and turned into article records, source after source, entry after entry.
 *
 * A feed entry is the set of attributes the feed library exposed for it; a source whose
 * download or parsing raised has no entries at all, and an entry whose processing raised
 * is marked as such. Parsing date strings and rendering ISO-8601 are parameters.
 */
module RssFetcher {
  import opened Wrappers
  import opened DateUtils

  /** One feed entry: each attribute may be absent; `raises` marks an entry whose handling throws. */
  datatype Entry = Entry(
    published: Option<string>,
    updated: Option<string>,
    title: Option<string>,
    link: Option<string>,
    summary: Option<string>,
    author: Option<string>,
    raises: bool)

  /** A configured feed: its name and, unless fetching it raised, its entries in feed order. */
  datatype Source = Source(name: string, entries: Option<seq<Entry>>)

  /** The article record handed to the rest of the pipeline. */
  datatype Article = Article(
    title: string,
    url: string,
    summary: string,
    author: string,
    published: string,
    source: string)

  /**
   * The publication date of an entry: `published` when the attribute exists, even if it
   * does not parse, and `updated` only when there is no `published` attribute at all.
   */
  function EntryDate(e: Entry, parse: Parser): (r: Option<DateTime>)
    ensures e.published.Some? ==> r == ParseDateFlexible(e.published.value, parse)
    ensures e.published.None? && e.updated.Some? ==> r == ParseDateFlexible(e.updated.value, parse)
    ensures e.published.None? && e.updated.None? ==> r.None?
  {
    if e.published.Some? then ParseDateFlexible(e.published.value, parse)
    else if e.updated.Some? then ParseDateFlexible(e.updated.value, parse)
    else None
  }

  /** The record for an entry dated `d`, with the source's defaults for missing attributes. */
  function MakeArticle(e: Entry, d: DateTime, sourceName: string, iso: DateTime -> string): (a: Article)
    ensures a.source == sourceName && a.published == iso(d)
    ensures a.title == (if e.title.Some? then e.title.value else "No Title")
    ensures a.url == (if e.link.Some? then e.link.value else "")
    ensures a.summary == (if e.summary.Some? then e.summary.value else "")
    ensures a.author == (if e.author.Some? then e.author.value else "Unknown")
  {
    Article(e.title.GetOr("No Title"), e.link.GetOr(""), e.summary.GetOr(""),
            e.author.GetOr("Unknown"), iso(d), sourceName)
  }

  /** The article an entry yields, if it is dated within the window and its handling does not raise. */
  function Admit(e: Entry, sourceName: string, reference: DateTime, parse: Parser,
                 iso: DateTime -> string): (r: Option<Article>)
    ensures r.Some? <==> !e.raises && EntryDate(e, parse).Some?
                         && IsFromLast24Hours(Stamp(EntryDate(e, parse).value), reference, parse)
    ensures r.Some? ==> r.value == MakeArticle(e, EntryDate(e, parse).value, sourceName, iso)
  {
    if e.raises then None
    else match EntryDate(e, parse)
      case None => None
      case Some(d) =>
        if IsFromLast24Hours(Stamp(d), reference, parse) then Some(MakeArticle(e, d, sourceName, iso))
        else None
  }

  /** The articles of one source's entries, in feed order. */
  function EntryArticles(es: seq<Entry>, sourceName: string, reference: DateTime, parse: Parser,
                         iso: DateTime -> string): (r: seq<Article>)
    ensures |r| <= |es|
    ensures forall i :: 0 <= i < |r| ==> r[i].source == sourceName
    decreases |es|
  {
    if es == [] then []
    else
      var head := match Admit(es[0], sourceName, reference, parse, iso)
        case Some(a) => [a]
        case None => [];
      head + EntryArticles(es[1..], sourceName, reference, parse, iso)
  }

  /** The articles a source contributes: none when fetching it raised. */
  function SourceArticles(src: Source, reference: DateTime, parse: Parser,
                          iso: DateTime -> string): seq<Article> {
    match src.entries
    case None => []
    case Some(es) => EntryArticles(es, src.name, reference, parse, iso)
  }

  /**
   * `fetch_recent_articles`: the concatenation, in configured order, of every source's
   * recent articles, all measured against the one reference instant.
   */
  function FetchRecentArticles(sources: seq<Source>, reference: DateTime, parse: Parser,
                               iso: DateTime -> string): (r: seq<Article>)
    ensures forall a :: a in r <==>
      exists j :: 0 <= j < |sources| && a in SourceArticles(sources[j], reference, parse, iso)
    decreases |sources|
  {
    if sources == [] then []
    else
      var rest := FetchRecentArticles(sources[1..], reference, parse, iso);
      FetchStep(sources, reference, parse, iso, rest);
      SourceArticles(sources[0], reference, parse, iso) + rest
  }

  /** Putting the first source's articles in front of the rest's gives the articles of all sources. */
  lemma FetchStep(sources: seq<Source>, reference: DateTime, parse: Parser, iso: DateTime -> string,
                  rest: seq<Article>)
    requires sources != []
    requires forall a :: a in rest <==>
      exists j :: 0 <= j < |sources[1..]| && a in SourceArticles(sources[1..][j], reference, parse, iso)
    ensures forall a :: a in SourceArticles(sources[0], reference, parse, iso) + rest <==>
      exists j :: 0 <= j < |sources| && a in SourceArticles(sources[j], reference, parse, iso)
  {
    forall a
      ensures a in SourceArticles(sources[0], reference, parse, iso) + rest <==>
        exists j :: 0 <= j < |sources| && a in SourceArticles(sources[j], reference, parse, iso)
    {
      if exists j :: 0 <= j < |sources| && a in SourceArticles(sources[j], reference, parse, iso) {
        var j :| 0 <= j < |sources| && a in SourceArticles(sources[j], reference, parse, iso);
        if j > 0 {
          assert sources[1..][j - 1] == sources[j];
        }
      }
      if a in rest {
        var j :| 0 <= j < |sources[1..]| && a in SourceArticles(sources[1..][j], reference, parse, iso);
        assert sources[1..][j] == sources[j + 1];
      }
    }
  }

  /** Every article names one of the sources as its source. */
  predicate FromSources(r: seq<Article>, sources: seq<Source>) {
    forall i :: 0 <= i < |r| ==> exists j :: 0 <= j < |sources| && r[i].source == sources[j].name
  }

  /** Every article names one of the configured sources as its source. */
  lemma {:induction false} ArticleSources(sources: seq<Source>, reference: DateTime, parse: Parser,
                                          iso: DateTime -> string)
    ensures FromSources(FetchRecentArticles(sources, reference, parse, iso), sources)
    decreases |sources|
  {
    if sources != [] {
      var here: seq<Article> := SourceArticles(sources[0], reference, parse, iso);
      var rest: seq<Article> := FetchRecentArticles(sources[1..], reference, parse, iso);
      ArticleSources(sources[1..], reference, parse, iso);
      assert FromSources(rest, sources[1..]);
      forall i | 0 <= i < |here + rest|
        ensures exists j :: 0 <= j < |sources| && (here + rest)[i].source == sources[j].name
      {
        if i < |here| {
          assert (here + rest)[i].source == sources[0].name;
        } else {
          assert (here + rest)[i] == rest[i - |here|];
          var j :| 0 <= j < |sources[1..]| && rest[i - |here|].source == sources[1..][j].name;
          assert sources[1..][j] == sources[j + 1];
        }
      }
    }
  }

  /** An entry with a `published` attribute is dated by it alone, whatever `updated` says. */
  lemma PublishedWins(e: Entry, u: Option<string>, parse: Parser)
    requires e.published.Some?
    ensures EntryDate(e.(updated := u), parse) == EntryDate(e, parse)
  {
  }

  /** An unparseable `published` does not fall back to `updated`: the entry is dropped. */
  lemma UnparseablePublishedDropped(e: Entry, sourceName: string, reference: DateTime,
                                    parse: Parser, iso: DateTime -> string)
    requires e.published.Some? && parse(e.published.value).None?
    ensures Admit(e, sourceName, reference, parse, iso).None?
  {
  }

  /** An article comes out exactly when some entry admits it. */
  lemma {:induction false} EntryArticlesMembers(es: seq<Entry>, sourceName: string, reference: DateTime,
                                                parse: Parser, iso: DateTime -> string, a: Article)
    ensures a in EntryArticles(es, sourceName, reference, parse, iso)
      <==> exists i :: 0 <= i < |es| && Admit(es[i], sourceName, reference, parse, iso) == Some(a)
    decreases |es|
  {
    if es != [] {
      EntryArticlesMembers(es[1..], sourceName, reference, parse, iso, a);
      if exists i :: 0 <= i < |es| && Admit(es[i], sourceName, reference, parse, iso) == Some(a) {
        var i :| 0 <= i < |es| && Admit(es[i], sourceName, reference, parse, iso) == Some(a);
        if i > 0 {
          assert Admit(es[1..][i - 1], sourceName, reference, parse, iso) == Some(a);
        }
      }
      if exists i :: 0 <= i < |es[1..]| && Admit(es[1..][i], sourceName, reference, parse, iso) == Some(a) {
        var i :| 0 <= i < |es[1..]| && Admit(es[1..][i], sourceName, reference, parse, iso) == Some(a);
        assert Admit(es[i + 1], sourceName, reference, parse, iso) == Some(a);
      }
    }
  }

  /** Entries are handled one at a time: the articles of a concatenation are the concatenation. */
  lemma {:induction false} EntryArticlesAppend(xs: seq<Entry>, ys: seq<Entry>, sourceName: string,
                                               reference: DateTime, parse: Parser, iso: DateTime -> string)
    ensures EntryArticles(xs + ys, sourceName, reference, parse, iso)
      == EntryArticles(xs, sourceName, reference, parse, iso) + EntryArticles(ys, sourceName, reference, parse, iso)
    decreases |xs|
  {
    if xs == [] {
      assert xs + ys == ys;
    } else {
      assert (xs + ys)[0] == xs[0];
      assert (xs + ys)[1..] == xs[1..] + ys;
      EntryArticlesAppend(xs[1..], ys, sourceName, reference, parse, iso);
    }
  }

  /** An entry whose handling raises is skipped without disturbing the entries around it. */
  lemma FailingEntrySkipped(xs: seq<Entry>, e: Entry, ys: seq<Entry>, sourceName: string,
                            reference: DateTime, parse: Parser, iso: DateTime -> string)
    requires e.raises
    ensures EntryArticles(xs + [e] + ys, sourceName, reference, parse, iso)
      == EntryArticles(xs + ys, sourceName, reference, parse, iso)
  {
    var f := EntryArticles([e], sourceName, reference, parse, iso);
    assert f == [] by {
      assert [e][1..] == [];
    }
    EntryArticlesAppend(xs + [e], ys, sourceName, reference, parse, iso);
    EntryArticlesAppend(xs, [e], sourceName, reference, parse, iso);
    EntryArticlesAppend(xs, ys, sourceName, reference, parse, iso);
  }

  /** Sources are handled one at a time, in configured order, with no reordering or deduplication. */
  lemma {:induction false} FetchAppend(xs: seq<Source>, ys: seq<Source>, reference: DateTime,
                                       parse: Parser, iso: DateTime -> string)
    ensures FetchRecentArticles(xs + ys, reference, parse, iso)
      == FetchRecentArticles(xs, reference, parse, iso) + FetchRecentArticles(ys, reference, parse, iso)
    decreases |xs|
  {
    if xs == [] {
      assert xs + ys == ys;
    } else {
      var here := SourceArticles(xs[0], reference, parse, iso);
      assert (xs + ys)[0] == xs[0];
      assert (xs + ys)[1..] == xs[1..] + ys;
      assert FetchRecentArticles(xs + ys, reference, parse, iso)
        == here + FetchRecentArticles(xs[1..] + ys, reference, parse, iso);
      FetchAppend(xs[1..], ys, reference, parse, iso);
    }
  }

  /** A source whose fetch raised contributes nothing and does not affect the other sources. */
  lemma FailingSourceSkipped(xs: seq<Source>, src: Source, ys: seq<Source>, reference: DateTime,
                             parse: Parser, iso: DateTime -> string)
    requires src.entries.None?
    ensures FetchRecentArticles(xs + [src] + ys, reference, parse, iso)
      == FetchRecentArticles(xs + ys, reference, parse, iso)
  {
    var f := FetchRecentArticles([src], reference, parse, iso);
    assert f == [] by {
      assert [src][0] == src && [src][1..] == [];
      assert f == SourceArticles(src, reference, parse, iso) + FetchRecentArticles([], reference, parse, iso);
    }
    FetchAppend(xs + [src], ys, reference, parse, iso);
    FetchAppend(xs, [src], reference, parse, iso);
    FetchAppend(xs, ys, reference, parse, iso);
  }
}

=== FILE: scrape.dfy ===
/**
 * The article scraper's decision logic: a rendered fetch tried twice, a plain HTTP
 * fallback, container selection, the whitespace normaliser, the markdown cleaner and
 * the first-match-wins image rule.
 *
 * Fetches are inputs: a rendered attempt either raises or returns a result whose cleaned
 * HTML, markdown and raw HTML are given as what the CSS selectors find in them; a plain
 * fetch either fails or returns what its selectors find. `urljoin` is a parameter.
 */
module Scrape {
  import opened Wrappers
  import opened PyStr

  /** Content must be longer than this to be accepted. */
  const MinContent: nat := 100

  /** Accepted content is cut to this many characters. */
  const MaxContent: nat := 15000

  // ---------------------------------------------------------------------------------
  // The whitespace normaliser shared by both fetch paths
  // ---------------------------------------------------------------------------------

  predicate NoBreaks(s: string) {
    forall i :: 0 <= i < |s| ==> !IsLineBreak(s[i])
  }

  predicate NoDoubleSpace(s: string) {
    forall i :: 0 <= i < |s| - 1 ==> !(s[i] == ' ' && s[i + 1] == ' ')
  }

  /** What the normaliser promises of its output. */
  predicate Normalised(s: string) {
    Stripped(s) && NoBreaks(s) && NoDoubleSpace(s)
  }

  /** Every piece is free of line breaks and of double spaces. */
  predicate Clean(ps: seq<string>) {
    ps == [] || (NoBreaks(ps[0]) && NoDoubleSpace(ps[0]) && Clean(ps[1..]))
  }

  /** No string in `ls` holds a line break. */
  predicate Unbroken(ls: seq<string>) {
    ls == [] || (NoBreaks(ls[0]) && Unbroken(ls[1..]))
  }

  /** Every chunk is non-empty and normalised. */
  predicate Chunked(cs: seq<string>) {
    cs == [] || (cs[0] != [] && Normalised(cs[0]) && Chunked(cs[1..]))
  }

  /** The stripped pieces that are not empty: `(p.strip() for p in ps)` filtered by truth. */
  function Kept(ps: seq<string>): seq<string> {
    if ps == [] then []
    else (if Strip(ps[0]) != [] then [Strip(ps[0])] else []) + Kept(ps[1..])
  }

  /** The chunks of one line: its stripped text split on double spaces, each piece stripped. */
  function LineChunks(line: string): seq<string> {
    Kept(SplitOn(Strip(line), "  "))
  }

  function Chunks(lines: seq<string>): seq<string> {
    if lines == [] then [] else LineChunks(lines[0]) + Chunks(lines[1..])
  }

  /**
   * The clean-up both fetch paths apply to extracted text: lines stripped, each split on
   * double spaces, pieces stripped, and the non-empty pieces joined by single spaces.
   */
  function NormaliseWhitespace(text: string): (r: string)
    ensures Normalised(r)
    ensures NonSpace(r) == NonSpace(text)
  {
    var lines := SplitLines(text);
    var cs := Chunks(lines);
    SplitLinesClean(text);
    ChunksChunked(lines);
    JoinNormalised(cs);
    SplitLinesNonSpace(text);
    ChunksNonSpace(lines);
    JoinNonSpace(cs);
    Join(" ", cs)
  }

  /** The non-whitespace characters of every string in `ps`, in order. */
  function NonSpaceAll(ps: seq<string>): string {
    if ps == [] then [] else NonSpace(ps[0]) + NonSpaceAll(ps[1..])
  }

  lemma {:induction false} NonSpaceAllAppend(xs: seq<string>, ys: seq<string>)
    ensures NonSpaceAll(xs + ys) == NonSpaceAll(xs) + NonSpaceAll(ys)
    decreases |xs|
  {
    if xs == [] {
      assert xs + ys == ys;
    } else {
      assert (xs + ys)[0] == xs[0];
      assert (xs + ys)[1..] == xs[1..] + ys;
      NonSpaceAllAppend(xs[1..], ys);
    }
  }

  lemma {:induction false} ChunkedAppend(xs: seq<string>, ys: seq<string>)
    requires Chunked(xs) && Chunked(ys)
    ensures Chunked(xs + ys)
    decreases |xs|
  {
    if xs == [] {
      assert xs + ys == ys;
    } else {
      assert (xs + ys)[0] == xs[0];
      assert (xs + ys)[1..] == xs[1..] + ys;
      ChunkedAppend(xs[1..], ys);
    }
  }

  /** `strip()` takes a slice, so it keeps the absence of line breaks and double spaces. */
  lemma StripClean(s: string)
    ensures NoBreaks(s) ==> NoBreaks(Strip(s))
    ensures NoDoubleSpace(s) ==> NoDoubleSpace(Strip(s))
  {
    StripSlice(s);
  }

  /** No line of `splitlines()` contains a line boundary. */
  lemma {:induction false} SplitLinesClean(s: string)
    ensures Unbroken(SplitLines(s))
    decreases |s|
  {
    if s != [] {
      var i := Run(s, NotLineBreak);
      if i < |s| {
        var skip := if s[i] == '\r' && i + 1 < |s| && s[i + 1] == '\n' then 2 else 1;
        SplitLinesClean(s[i + skip..]);
        var lines := SplitLines(s);
        assert lines == [s[..i]] + SplitLines(s[i + skip..]);
        assert lines[0] == s[..i] && lines[1..] == SplitLines(s[i + skip..]);
      } else {
        assert SplitLines(s) == [s] && [s][1..] == [];
      }
    }
  }

  /** The line boundaries are whitespace, so splitting into lines loses no other character. */
  lemma {:induction false} SplitLinesNonSpace(s: string)
    ensures NonSpaceAll(SplitLines(s)) == NonSpace(s)
    decreases |s|
  {
    if s != [] {
      var i := Run(s, NotLineBreak);
      if i == |s| {
        assert NonSpaceAll(SplitLines(s)) == NonSpace(s) + NonSpaceAll([]);
      } else {
        var skip := if s[i] == '\r' && i + 1 < |s| && s[i + 1] == '\n' then 2 else 1;
        var rest := s[i + skip..];
        SplitLinesNonSpace(rest);
        assert SplitLines(s) == [s[..i]] + SplitLines(rest);
        assert NonSpaceAll(SplitLines(s)) == NonSpace(s[..i]) + NonSpaceAll(SplitLines(rest));
        ThreeParts(s, i, i + skip);
        var m := s[i..i + skip];
        assert m[0] == s[i] && (skip == 2 ==> m[1] == s[i + 1]);
        NonSpaceAround(s[..i], m, rest);
      }
    }
  }

  /** Pieces of a split on `"  "` hold no double space; of a line, no line boundary either. */
  lemma {:induction false} SplitOnClean(t: string)
    requires NoBreaks(t)
    ensures Clean(SplitOn(t, "  "))
    decreases |t|
  {
    var i := Find(t, "  ");
    assert NoDoubleSpace(t[..i]) by {
      forall j | 0 <= j < i - 1 ensures !(t[j] == ' ' && t[j + 1] == ' ') {
        assert !StartsAt(t, j, "  ");
      }
    }
    if i < |t| {
      SplitOnClean(t[i + 2..]);
      assert SplitOn(t, "  ") == [t[..i]] + SplitOn(t[i + 2..], "  ");
    } else {
      assert t[..i] == t;
    }
  }

  /** The double spaces a split removes are whitespace, so nothing else is lost. */
  lemma {:induction false} SplitOnNonSpace(t: string)
    ensures NonSpaceAll(SplitOn(t, "  ")) == NonSpace(t)
    decreases |t|
  {
    var i := Find(t, "  ");
    if i < |t| {
      var rest := t[i + 2..];
      SplitOnNonSpace(rest);
      assert SplitOn(t, "  ") == [t[..i]] + SplitOn(rest, "  ");
      assert NonSpaceAll(SplitOn(t, "  ")) == NonSpace(t[..i]) + NonSpaceAll(SplitOn(rest, "  "));
      ThreeParts(t, i, i + 2);
      assert t[i..i + 2] == "  ";
      NonSpaceAround(t[..i], t[i..i + 2], rest);
    } else {
      assert t[..i] == t;
      assert NonSpaceAll(SplitOn(t, "  ")) == NonSpace(t) + NonSpaceAll([]);
    }
  }

  lemma {:induction false} KeptChunked(ps: seq<string>)
    requires Clean(ps)
    ensures Chunked(Kept(ps))
    decreases |ps|
  {
    if ps != [] {
      KeptChunked(ps[1..]);
      var c := Strip(ps[0]);
      var head := if c != [] then [c] else [];
      assert Chunked(head) by {
        if c != [] {
          StripClean(ps[0]);
          assert [c][1..] == [];
        }
      }
      assert Kept(ps) == head + Kept(ps[1..]);
      ChunkedAppend(head, Kept(ps[1..]));
    }
  }

  lemma {:induction false} KeptNonSpace(ps: seq<string>)
    ensures NonSpaceAll(Kept(ps)) == NonSpaceAll(ps)
    decreases |ps|
  {
    if ps != [] {
      KeptNonSpace(ps[1..]);
      StripNonSpace(ps[0]);
      var head := if Strip(ps[0]) != [] then [Strip(ps[0])] else [];
      NonSpaceAllAppend(head, Kept(ps[1..]));
      if Strip(ps[0]) != [] {
        assert NonSpaceAll(head) == NonSpace(Strip(ps[0])) + NonSpaceAll([]);
      }
    }
  }

  lemma {:induction false} ChunksChunked(lines: seq<string>)
    requires Unbroken(lines)
    ensures Chunked(Chunks(lines))
    decreases |lines|
  {
    if lines != [] {
      ChunksChunked(lines[1..]);
      StripClean(lines[0]);
      SplitOnClean(Strip(lines[0]));
      KeptChunked(SplitOn(Strip(lines[0]), "  "));
      ChunkedAppend(LineChunks(lines[0]), Chunks(lines[1..]));
    }
  }

  lemma {:induction false} ChunksNonSpace(lines: seq<string>)
    ensures NonSpaceAll(Chunks(lines)) == NonSpaceAll(lines)
    decreases |lines|
  {
    if lines != [] {
      ChunksNonSpace(lines[1..]);
      KeptNonSpace(SplitOn(Strip(lines[0]), "  "));
      SplitOnNonSpace(Strip(lines[0]));
      StripNonSpace(lines[0]);
      NonSpaceAllAppend(LineChunks(lines[0]), Chunks(lines[1..]));
    }
  }

  /** Joining normalised chunks by single spaces gives normalised text. */
  lemma {:induction false} JoinNormalised(cs: seq<string>)
    requires Chunked(cs)
    ensures Normalised(Join(" ", cs))
    ensures cs != [] ==> Join(" ", cs) != []
    decreases |cs|
  {
    if |cs| > 1 {
      var a := cs[0];
      var b := Join(" ", cs[1..]);
      JoinNormalised(cs[1..]);
      var r := a + " " + b;
      assert Join(" ", cs) == r;
      assert r[0] == a[0] && r[|r| - 1] == b[|b| - 1];
      forall i | 0 <= i < |r| ensures !IsLineBreak(r[i]) {
        if i < |a| {
          assert r[i] == a[i];
        } else if i > |a| {
          assert r[i] == b[i - |a| - 1];
        }
      }
      forall i | 0 <= i < |r| - 1 ensures !(r[i] == ' ' && r[i + 1] == ' ') {
        if i + 1 < |a| {
          assert r[i] == a[i] && r[i + 1] == a[i + 1];
        } else if i + 1 == |a| {
          assert r[i] == a[|a| - 1];
        } else if i == |a| {
          assert r[i + 1] == b[0];
        } else {
          assert r[i] == b[i - |a| - 1] && r[i + 1] == b[i - |a|];
        }
      }
    }
  }

  /** Joining by spaces adds only whitespace. */
  lemma {:induction false} JoinNonSpace(cs: seq<string>)
    ensures NonSpace(Join(" ", cs)) == NonSpaceAll(cs)
    decreases |cs|
  {
    if |cs| == 1 {
      assert NonSpaceAll(cs) == NonSpace(cs[0]) + NonSpaceAll([]);
    } else if |cs| > 1 {
      JoinNonSpace(cs[1..]);
      var b := Join(" ", cs[1..]);
      assert Join(" ", cs) == cs[0] + " " + b;
      NonSpaceOfSpaces(" ");
      NonSpaceDrop(cs[0], " ", b);
    }
  }

  /** Normalised text without any visible character is empty. */
  lemma BlankNormalisesEmpty(text: string)
    requires NonSpace(text) == []
    ensures NormaliseWhitespace(text) == []
  {
  }

  // ---------------------------------------------------------------------------------
  // Choosing the container whose text is extracted
  // ---------------------------------------------------------------------------------

  /**
   * What the selectors find in a page: `matches[i]` is the text of the first element the
   * i-th content selector picks (`None` when it picks nothing), `body` the text of the
   * `<body>` element if there is one, and `whole` the text of the entire document.
   */
  datatype Page = Page(matches: seq<Option<string>>, body: Option<string>, whole: string)

  /** A selector match whose text is not blank. */
  predicate Visible(m: Option<string>) {
    m.Some? && Strip(m.value) != []
  }

  /** Index of the first selector whose match has visible text, or `|ms|`. */
  function FirstVisible(ms: seq<Option<string>>): (i: nat)
    ensures i <= |ms|
    ensures forall j :: 0 <= j < i ==> !Visible(ms[j])
    ensures i < |ms| ==> Visible(ms[i])
  {
    if ms == [] then 0 else if Visible(ms[0]) then 0 else 1 + FirstVisible(ms[1..])
  }

  /**
   * The container text of the rendered path: the first match with visible text; failing
   * that, whatever the last selector matched, even blank; failing that, the body or the
   * whole document.
   */
  function HtmlContainerText(p: Page): string {
    var i := FirstVisible(p.matches);
    if i < |p.matches| then p.matches[i].value
    else if p.matches != [] && p.matches[|p.matches| - 1].Some? then p.matches[|p.matches| - 1].value
    else p.body.GetOr(p.whole)
  }

  /** `_extract_text_from_html`: the chosen container's text, normalised. */
  function ExtractTextFromHtml(p: Page): (r: string)
    ensures Normalised(r)
    ensures FirstVisible(p.matches) < |p.matches|
      ==> NonSpace(r) == NonSpace(p.matches[FirstVisible(p.matches)].value)
    ensures FirstVisible(p.matches) == |p.matches| && p.matches != [] && p.matches[|p.matches| - 1].Some?
      ==> r == []
    ensures FirstVisible(p.matches) == |p.matches| && (p.matches == [] || p.matches[|p.matches| - 1].None?)
      ==> NonSpace(r) == NonSpace(p.body.GetOr(p.whole))
  {
    HtmlContainerFacts(p);
    NormaliseWhitespace(HtmlContainerText(p))
  }

  lemma HtmlContainerFacts(p: Page)
    ensures FirstVisible(p.matches) == |p.matches| && p.matches != [] && p.matches[|p.matches| - 1].Some?
      ==> NonSpace(HtmlContainerText(p)) == []
    ensures FirstVisible(p.matches) == |p.matches| && (p.matches == [] || p.matches[|p.matches| - 1].None?)
      ==> HtmlContainerText(p) == p.body.GetOr(p.whole)
  {
    var t := HtmlContainerText(p);
    var i := FirstVisible(p.matches);
    if i == |p.matches| && p.matches != [] && p.matches[|p.matches| - 1].Some? {
      assert !Visible(p.matches[|p.matches| - 1]);
      StripNonSpace(t);
    }
  }

  /** Index of the first selector that matched at all, or `|ms|`. */
  function FirstMatch(ms: seq<Option<string>>): (i: nat)
    ensures i <= |ms|
    ensures forall j :: 0 <= j < i ==> ms[j].None?
    ensures i < |ms| ==> ms[i].Some?
  {
    if ms == [] then 0 else if ms[0].Some? then 0 else 1 + FirstMatch(ms[1..])
  }

  /** The container text of the plain path: the first match, even blank; else body; else the document. */
  function PlainContainerText(p: Page): string {
    var i := FirstMatch(p.matches);
    if i < |p.matches| then p.matches[i].value else p.body.GetOr(p.whole)
  }

  // ---------------------------------------------------------------------------------
  // The markdown cleaner
  // ---------------------------------------------------------------------------------

  /** Index of the first `c` at or after `i`, or `|s|`. */
  function Until(s: string, i: nat, c: char): (k: nat)
    requires i <= |s|
    ensures i <= k <= |s|
    ensures forall j :: i <= j < k ==> s[j] != c
    ensures k < |s| ==> s[k] == c
    decreases |s| - i
  {
    if i == |s| || s[i] == c then i else Until(s, i + 1, c)
  }

  /**
   * `re.sub(r'\[([^\]]+)\]\([^)]+\)', r'\1', s)`: every markdown link `[text](target)`
   * becomes its text. The text runs to the first `]` and the target to the first `)`, and
   * neither may be empty.
   */
  function Unlink(s: string): string
    decreases |s|
  {
    if s == [] then []
    else if s[0] == '[' then
      var j := Until(s, 1, ']');
      if 1 < j && j + 1 < |s| && s[j + 1] == '(' then
        var k := Until(s, j + 2, ')');
        if j + 2 < k < |s| then s[1..j] + Unlink(s[k + 1..])
        else [s[0]] + Unlink(s[1..])
      else [s[0]] + Unlink(s[1..])
    else [s[0]] + Unlink(s[1..])
  }

  /** The markdown symbols `[#*_`]` the cleaner deletes. */
  predicate IsMark(c: char) {
    c == '#' || c == '*' || c == '_' || c == '`'
  }

  predicate Unmarked(c: char) { !IsMark(c) }

  /**
   * `_clean_markdown_content`: links unwrapped, markdown symbols deleted, whitespace runs
   * collapsed to one space and the ends stripped.
   */
  function CleanMarkdown(md: string): (r: string)
    ensures Stripped(r) && SingleSpaced(r)
    ensures forall i :: 0 <= i < |r| ==> Unmarked(r[i])
    ensures NonSpace(r) == NonSpace(Filter(Unlink(md), Unmarked))
  {
    var f := Filter(Unlink(md), Unmarked);
    var c := Collapse(f);
    CollapseSingleSpaced(f);
    CollapseNonSpace(f);
    StripNonSpace(c);
    StripCollapseUnmarked(f);
    Strip(c)
  }

  /** Collapsing and stripping introduce no character but the space, and keep single spacing. */
  lemma StripCollapseUnmarked(f: string)
    requires forall i :: 0 <= i < |f| ==> Unmarked(f[i])
    ensures SingleSpaced(Strip(Collapse(f)))
    ensures forall i :: 0 <= i < |Strip(Collapse(f))| ==> Unmarked(Strip(Collapse(f))[i])
  {
    var c := Collapse(f);
    CollapseSingleSpaced(f);
    StripSingleSpaced(c);
    CollapseDrawn(f);
    StripSlice(c);
    var r := Strip(c);
    forall i | 0 <= i < |r| ensures Unmarked(r[i]) {
      var x := c[Lead(c) + i];
      if x != ' ' {
        var j :| 0 <= j < |f| && f[j] == x;
      }
    }
  }

  /** A well-formed link is replaced by its text. */
  lemma UnlinkLink(text: string, target: string, rest: string)
    requires text != [] && ']' !in text
    requires target != [] && ')' !in target
    ensures Unlink("[" + text + "](" + target + ")" + rest) == text + Unlink(rest)
  {
    var s := "[" + text + "](" + target + ")" + rest;
    var j := |text| + 1;
    var k := j + 2 + |target|;
    assert s[j] == ']' && s[j + 1] == '(' && s[k] == ')';
    assert forall i :: 1 <= i < j ==> s[i] == text[i - 1];
    assert forall i :: j + 2 <= i < k ==> s[i] == target[i - j - 2];
    assert Until(s, 1, ']') == j by {
      UntilAt(s, 1, j, ']');
    }
    assert Until(s, j + 2, ')') == k by {
      UntilAt(s, j + 2, k, ')');
    }
    assert s[1..j] == text;
    assert s[k + 1..] == rest;
  }

  lemma UntilAt(s: string, i: nat, k: nat, c: char)
    requires i <= k < |s| && s[k] == c
    requires forall j :: i <= j < k ==> s[j] != c
    ensures Until(s, i, c) == k
  {
  }

  // ---------------------------------------------------------------------------------
  // The image rule
  // ---------------------------------------------------------------------------------

  /** An element an image selector picked: its `content` and `src` attributes, if present. */
  datatype Element = Element(content: Option<string>, src: Option<string>)

  predicate StartsWith(s: string, p: string) {
    |p| <= |s| && s[..|p|] == p
  }

  predicate Contains(s: string, t: string) {
    exists i :: 0 <= i <= |s| && StartsAt(s, i, t)
  }

  /** The lower-cased URL mentions a known image extension anywhere, not only at the end. */
  predicate HasImageExtension(u: string) {
    var l := LowerStr(u);
    Contains(l, ".jpg") || Contains(l, ".jpeg") || Contains(l, ".png")
    || Contains(l, ".webp") || Contains(l, ".gif")
  }

  /** The acceptance test for an image URL. */
  predicate AcceptableImage(u: string) {
    StartsWith(u, "http") && HasImageExtension(u)
  }

  /** `el.get('content') or el.get('src', '')` */
  function Candidate(e: Element): string {
    if e.content.Some? && e.content.value != [] then e.content.value else e.src.GetOr("")
  }

  /** `//host/...` gets the `https:` scheme, `/path` is joined to the page URL, anything else is kept. */
  function Absolute(src: string, base: string, join: (string, string) -> string): string {
    if StartsWith(src, "//") then "https:" + src
    else if StartsWith(src, "/") then join(base, src)
    else src
  }

  /** The URL a selector's element yields, if it passes the acceptance test. */
  function Accepted(found: Option<Element>, base: string, join: (string, string) -> string): (r: Option<string>)
    ensures r.Some? ==> AcceptableImage(r.value)
  {
    match found
    case None => None
    case Some(e) =>
      var c := Candidate(e);
      if c == [] then None
      else
        var u := Absolute(c, base, join);
        if AcceptableImage(u) then Some(u) else None
  }

  /**
   * `_extract_image_from_html`: the URL of the first selector, in priority order, whose
   * element yields an acceptable URL, or `""`.
   */
  function ExtractImage(found: seq<Option<Element>>, base: string,
                        join: (string, string) -> string): (r: string)
    ensures r == [] || AcceptableImage(r)
    ensures r == [] <==> forall i :: 0 <= i < |found| ==> Accepted(found[i], base, join).None?
    ensures r != [] ==> exists i :: (0 <= i < |found| && Accepted(found[i], base, join) == Some(r)
                                     && forall j :: 0 <= j < i ==> Accepted(found[j], base, join).None?)
    decreases |found|
  {
    if found == [] then []
    else match Accepted(found[0], base, join)
      case Some(u) => u
      case None =>
        var r := ExtractImage(found[1..], base, join);
        assert forall i :: 1 <= i < |found| ==> found[i] == found[1..][i - 1];
        if r != [] then
          var i :| 0 <= i < |found[1..]| && Accepted(found[1..][i], base, join) == Some(r)
            && forall j :: 0 <= j < i ==> Accepted(found[1..][j], base, join).None?;
          assert Accepted(found[i + 1], base, join) == Some(r);
          r
        else r
  }

  /** A protocol-relative source is given the `https:` scheme. */
  lemma ProtocolRelative(rest: string, base: string, join: (string, string) -> string)
    requires AcceptableImage("https://" + rest)
    ensures Accepted(Some(Element(None, Some("//" + rest))), base, join) == Some("https://" + rest)
  {
    assert ("//" + rest)[..2] == "//";
    assert "https:" + ("//" + rest) == "https://" + rest;
  }

  /** A relative path that does not start with `/` is not joined to the page URL, so it is rejected. */
  lemma RelativePathRejected(e: Element, base: string, join: (string, string) -> string)
    requires Candidate(e) != [] && Candidate(e)[0] != '/' && !StartsWith(Candidate(e), "http")
    ensures Accepted(Some(e), base, join).None?
  {
  }

  /** An absolute source that passes the test is taken as it is. */
  lemma AcceptedAbsolute(u: string, base: string, join: (string, string) -> string)
    requires AcceptableImage(u)
    ensures Accepted(Some(Element(Some(u), None)), base, join) == Some(u)
  {
    assert u[..4] == "http";
  }

  /** Lower-casing keeps an occurrence of text that is lower case already. */
  lemma LowerKeeps(u: string, i: int, ext: string)
    requires StartsAt(u, i, ext)
    requires forall k :: 0 <= k < |ext| ==> Lower(ext[k]) == ext[k]
    ensures StartsAt(LowerStr(u), i, ext)
  {
    var l := LowerStr(u);
    forall k | 0 <= k < |ext| ensures l[i..i + |ext|][k] == ext[k] {
      assert u[i..i + |ext|][k] == u[i + k];
    }
  }

  /** The extension test looks anywhere in the URL: a `.gif` in the middle is enough. */
  lemma ExtensionAnywhere(rest: string, tail: string, base: string, join: (string, string) -> string)
    ensures var u := "http" + rest + ".gif" + tail;
      Accepted(Some(Element(Some(u), None)), base, join) == Some(u)
  {
    var u := "http" + rest + ".gif" + tail;
    var i := 4 + |rest|;
    assert u[i..i + 4] == ".gif";
    LowerKeeps(u, i, ".gif");
    assert u[..4] == "http";
    AcceptedAbsolute(u, base, join);
  }

  // ---------------------------------------------------------------------------------
  // Fetch paths
  // ---------------------------------------------------------------------------------

  /** What a rendered fetch returned: its flag, its cleaned HTML, markdown and raw HTML. */
  datatype CrawlResult = CrawlResult(
    success: bool,
    cleaned: Option<Page>,
    markdown: string,
    html: Option<seq<Option<Element>>>)

  /** One rendered attempt: it raised, or it returned a result. */
  datatype Attempt = Raised | Returned(result: CrawlResult)

  /** The plain HTTP fetch: it failed (any exception, including an error status), or gave a page. */
  datatype Response = Failed | Fetched(page: Page, images: seq<Option<Element>>)

  /** `content[:15000]` when longer. */
  function Cap(c: string): (r: string)
    ensures |r| <= MaxContent && |r| <= |c| && r == c[..|r|]
    ensures |c| <= MaxContent ==> r == c
    ensures |c| > MaxContent ==> |r| == MaxContent
  {
    if |c| > MaxContent then c[..MaxContent] else c
  }

  /** The text the cleaned HTML gives, `""` when there is none. */
  function HtmlText(res: CrawlResult): string {
    if res.cleaned.Some? then ExtractTextFromHtml(res.cleaned.value) else ""
  }

  /**
   * The text `_extract_content_from_result` settles on: the cleaned-HTML text, replaced by
   * the cleaned markdown when it is shorter than 100 characters and there is markdown.
   */
  function ContentSource(res: CrawlResult): string {
    var text := HtmlText(res);
    if |text| < MinContent && res.markdown != [] then CleanMarkdown(res.markdown) else text
  }

  /** Cleaned-HTML text of 100 characters or more is kept; shorter text gives way to markdown if any. */
  lemma MarkdownFallback(res: CrawlResult)
    ensures |HtmlText(res)| >= MinContent || res.markdown == [] ==> ContentSource(res) == HtmlText(res)
    ensures |HtmlText(res)| < MinContent && res.markdown != [] ==>
      ContentSource(res) == CleanMarkdown(res.markdown)
  {
  }

  /** `_extract_content_from_result`: the settled text capped at 15000 characters, and the page's image. */
  function ExtractContent(res: CrawlResult, url: string, join: (string, string) -> string): (r: (string, string))
    ensures |r.0| <= MaxContent
    ensures |r.0| <= |ContentSource(res)| && r.0 == ContentSource(res)[..|r.0|]
    ensures |ContentSource(res)| <= MaxContent ==> r.0 == ContentSource(res)
    ensures r.1 == [] || AcceptableImage(r.1)
    ensures |ContentSource(res)| > MaxContent ==> |r.0| == MaxContent
    ensures res.html.None? ==> r.1 == []
    ensures res.html.Some? ==> r.1 == ExtractImage(res.html.value, url, join)
  {
    var image := if res.html.Some? then ExtractImage(res.html.value, url, join) else "";
    (Cap(ContentSource(res)), image)
  }

  /** What each path returns: nothing at all, or content of 101 to 15000 characters and an image or `""`. */
  predicate Scraped(r: (string, string)) {
    (r.0 == [] && r.1 == [])
    || (MinContent < |r.0| <= MaxContent && (r.1 == [] || AcceptableImage(r.1)))
  }

  /** Accept an extraction only when its content is longer than 100 characters. */
  function Accept(r: (string, string)): (a: (string, string))
    requires |r.0| <= MaxContent && (r.1 == [] || AcceptableImage(r.1))
    ensures Scraped(a)
    ensures a == r || a == ("", "")
    ensures a.0 != [] <==> |r.0| > MinContent
  {
    if |r.0| > MinContent then r else ("", "")
  }

  /** An attempt that returned with its success flag up. */
  predicate Succeeded(a: Attempt) {
    a.Returned? && a.result.success
  }

  /**
   * `scrape_with_crawl4ai`: a second rendered attempt is made only when the first one
   * returns with its success flag down; two failures, or a raise, give `("", "")`.
   */
  function ScrapeWithCrawl(first: Attempt, second: Attempt, url: string,
                           join: (string, string) -> string): (r: (string, string))
    ensures Scraped(r)
    ensures first.Raised? ==> r == ("", "")
    ensures Succeeded(first) ==> r == Accept(ExtractContent(first.result, url, join))
    ensures first.Returned? && !Succeeded(first) && Succeeded(second)
      ==> r == Accept(ExtractContent(second.result, url, join))
    ensures !Succeeded(first) && !Succeeded(second) ==> r == ("", "")
  {
    match first
    case Raised => ("", "")
    case Returned(r1) =>
      if r1.success then Accept(ExtractContent(r1, url, join))
      else match second
        case Raised => ("", "")
        case Returned(r2) =>
          if r2.success then Accept(ExtractContent(r2, url, join)) else ("", "")
  }

  /** `scrape_with_requests`: the first matching container's text, normalised, accepted and capped. */
  function ScrapeWithRequests(resp: Response, url: string, join: (string, string) -> string): (r: (string, string))
    ensures Scraped(r)
    ensures resp.Failed? ==> r == ("", "")
    ensures r.0 != [] ==> resp.Fetched? && NoBreaks(r.0) && NoDoubleSpace(r.0)
    ensures resp.Fetched? && |NormaliseWhitespace(PlainContainerText(resp.page))| > MinContent
      ==> r == (Cap(NormaliseWhitespace(PlainContainerText(resp.page))), ExtractImage(resp.images, url, join))
    ensures resp.Fetched? && |NormaliseWhitespace(PlainContainerText(resp.page))| <= MinContent
      ==> r == ("", "")
  {
    match resp
    case Failed => ("", "")
    case Fetched(page, images) =>
      var content := NormaliseWhitespace(PlainContainerText(page));
      if |content| > MinContent then
        var c := Cap(content);
        CapNormalised(content);
        (c, ExtractImage(images, url, join))
      else ("", "")
  }

  /** Cutting normalised text keeps it free of line breaks and double spaces. */
  lemma CapNormalised(c: string)
    requires Normalised(c)
    ensures NoBreaks(Cap(c)) && NoDoubleSpace(Cap(c))
    ensures Cap(c) != [] && |c| <= MaxContent ==> Stripped(Cap(c))
  {
  }

  /**
   * The plain path extracts what the rendered path would from the same page when the first
   * selector that matches at all has visible text, or none matches: the container text is
   * the same, and only the 100-character acceptance and the cap are applied to it.
   */
  lemma RequestsAsRendered(page: Page, images: seq<Option<Element>>, url: string,
                           join: (string, string) -> string)
    requires FirstMatch(page.matches) == FirstVisible(page.matches)
    ensures ScrapeWithRequests(Fetched(page, images), url, join)
      == Accept((Cap(ExtractTextFromHtml(page)), ExtractImage(images, url, join)))
  {
    assert PlainContainerText(page) == HtmlContainerText(page);
  }

  /**
   * Where the paths part: when the first selector that matches has only blank text, the
   * plain path gives nothing, even if a later selector, which the rendered path would use,
   * has visible text.
   */
  lemma RequestsBlankFirstMatch(page: Page, images: seq<Option<Element>>, url: string,
                                join: (string, string) -> string)
    requires FirstMatch(page.matches) < FirstVisible(page.matches)
    ensures ScrapeWithRequests(Fetched(page, images), url, join) == ("", "")
  {
    var m := page.matches[FirstMatch(page.matches)];
    assert !Visible(m);
    StripNonSpace(m.value);
    BlankNormalisesEmpty(PlainContainerText(page));
  }

  /** `scrape_article`: the rendered path, and the plain path when that gave 100 characters or fewer. */
  function ScrapeArticle(first: Attempt, second: Attempt, plain: Response, url: string,
                         join: (string, string) -> string): (r: (string, string))
    ensures Scraped(r)
  {
    var rendered := ScrapeWithCrawl(first, second, url, join);
    if |rendered.0| > MinContent then rendered else ScrapeWithRequests(plain, url, join)
  }

  /** The plain fetch is consulted exactly when the rendered path gave 100 characters or fewer. */
  lemma FallbackIff(first: Attempt, second: Attempt, plain: Response, plain2: Response, url: string,
                    join: (string, string) -> string)
    ensures var rendered := ScrapeWithCrawl(first, second, url, join);
      |rendered.0| <= MinContent ==>
        ScrapeArticle(first, second, plain, url, join) == ScrapeWithRequests(plain, url, join)
    ensures var rendered := ScrapeWithCrawl(first, second, url, join);
      |rendered.0| > MinContent ==>
        ScrapeArticle(first, second, plain, url, join) == rendered
        == ScrapeArticle(first, second, plain2, url, join)
  {
  }

  /** The second rendered attempt matters only when the first returned unsuccessfully. */
  lemma SecondAttemptOnlyOnFailure(first: Attempt, second: Attempt, second2: Attempt, url: string,
                                   join: (string, string) -> string)
    requires first.Raised? || first.result.success
    ensures ScrapeWithCrawl(first, second, url, join) == ScrapeWithCrawl(first, second2, url, join)
  {
  }

  /** Too little content from a successful first attempt is not retried: the rendered path gives up. */
  lemma ShortContentNotRetried(r1: CrawlResult, second: Attempt, url: string,
                               join: (string, string) -> string)
    requires r1.success && |ExtractContent(r1, url, join).0| <= MinContent
    ensures ScrapeWithCrawl(Returned(r1), second, url, join) == ("", "")
  {
  }

  /** The network's answers for one URL: two rendered attempts and a plain fetch. */
  datatype Fetches = Fetches(first: Attempt, second: Attempt, plain: Response)

  /**
   * `scrape_multiple_articles`: the URLs are scraped concurrently, and the results come
   * back as one per URL, in the order of the URLs, each what scraping that URL alone gives.
   */
  function ScrapeMultiple(urls: seq<string>, net: string -> Fetches,
                          join: (string, string) -> string): (rs: seq<(string, string)>)
    ensures |rs| == |urls|
    ensures forall i :: 0 <= i < |urls| ==> Scraped(rs[i])
    ensures forall i :: 0 <= i < |urls| ==>
      rs[i] == ScrapeArticle(net(urls[i]).first, net(urls[i]).second, net(urls[i]).plain, urls[i], join)
  {
    seq(|urls|, i requires 0 <= i < |urls| =>
      ScrapeArticle(net(urls[i]).first, net(urls[i]).second, net(urls[i]).plain, urls[i], join))
  }
}

=== FILE: summary_text.dfy ===
/**
 * The passes of `text_utils.py` that turn a generated summary into narration-ready prose:
 * `clean_perplexity_summary` (citation markers, a trailing reference section, numbered
 * reference lines and stray numbers) and `ensure_complete_sentences`.
 */
module SummaryText {
  import opened PyStr
  import TextUtils

  // ---------------------------------------------------------------------------------------
  // Citation markers: re.sub(r'\[\d+\]', '', s) and re.sub(r'\(\d+\)', '', s)
  // ---------------------------------------------------------------------------------------

  /** Length of the citation marker `open`, digits, `close` that starts `s`, or 0. */
  function MarkerLen(s: string, open: char, close: char): (n: nat)
    ensures n <= |s|
    ensures n > 0 ==> n >= 3 && s[0] == open && s[n - 1] == close
    ensures n > 0 ==> forall k :: 1 <= k < n - 1 ==> IsDigit(s[k])
  {
    if s == [] || s[0] != open then 0
    else
      var d := DigitsFrom(s, 1);
      if d >= 1 && 1 + d < |s| && s[1 + d] == close then d + 2 else 0
  }

  /** Removes every citation marker, scanning left to right as `re.sub` does. */
  function StripMarkers(s: string, open: char, close: char): string
    decreases |s|
  {
    if s == [] then []
    else if MarkerLen(s, open, close) > 0 then StripMarkers(s[MarkerLen(s, open, close)..], open, close)
    else [s[0]] + StripMarkers(s[1..], open, close)
  }

  /** Removing markers never touches a character that cannot belong to one. */
  lemma {:induction false} StripMarkersCount(s: string, open: char, close: char, x: char)
    requires x != open && x != close && !IsDigit(x)
    ensures multiset(StripMarkers(s, open, close))[x] == multiset(s)[x]
    decreases |s|
  {
    if s != [] {
      var n := MarkerLen(s, open, close);
      if n > 0 {
        StripMarkersCount(s[n..], open, close, x);
        CountSkip(s, n, x);
      } else {
        StripMarkersCount(s[1..], open, close, x);
        CountCons(s, StripMarkers(s, open, close), StripMarkers(s[1..], open, close), x);
      }
    }
  }

  lemma {:induction false} StripMarkersAbsent(s: string, open: char, close: char)
    requires open !in s
    ensures StripMarkers(s, open, close) == s
    decreases |s|
  {
    if s != [] {
      StripMarkersAbsent(s[1..], open, close);
    }
  }

  /**
   * The first marker in the text is removed and nothing before it changes:
   * `a + open + digits + close + b` becomes `a` followed by the cleaned `b`.
   */
  lemma StripMarkersFirst(a: string, ds: string, b: string, open: char, close: char)
    requires open !in a && !IsDigit(close)
    requires |ds| >= 1 && forall k :: 0 <= k < |ds| ==> IsDigit(ds[k])
    ensures StripMarkers(a + ([open] + ds + [close] + b), open, close) == a + StripMarkers(b, open, close)
  {
    var m := [open] + ds + [close] + b;
    StripMarkersPrefix(a, m, open, close);
    MarkerAtHead(ds, b, open, close);
  }

  /** Text without an opening bracket passes through untouched. */
  lemma {:induction false} StripMarkersPrefix(a: string, m: string, open: char, close: char)
    requires open !in a
    ensures StripMarkers(a + m, open, close) == a + StripMarkers(m, open, close)
    decreases |a|
  {
    if a == [] {
      assert a + m == m;
    } else {
      var s := a + m;
      assert s[0] == a[0] && a[0] != open;
      assert StripMarkers(s, open, close) == [a[0]] + StripMarkers(s[1..], open, close);
      assert s[1..] == a[1..] + m;
      StripMarkersPrefix(a[1..], m, open, close);
      ConsAssoc(a[0], a[1..], StripMarkers(m, open, close));
      HeadTail(a);
    }
  }

  /** A marker at the very start is removed whole. */
  lemma MarkerAtHead(ds: string, b: string, open: char, close: char)
    requires !IsDigit(close)
    requires |ds| >= 1 && forall k :: 0 <= k < |ds| ==> IsDigit(ds[k])
    ensures StripMarkers([open] + ds + [close] + b, open, close) == StripMarkers(b, open, close)
  {
    var m := [open] + ds + [close] + b;
    assert forall k :: 1 <= k < 1 + |ds| ==> m[k] == ds[k - 1];
    assert m[1 + |ds|] == close;
    DigitsExact(m, 1, |ds|);
    assert MarkerLen(m, open, close) == |ds| + 2;
    assert m[|ds| + 2..] == b;
  }

  // ---------------------------------------------------------------------------------------
  // Reference section: re.sub(r'\n*(?:References?|Sources?):.*$', '', s, IGNORECASE | DOTALL)
  // ---------------------------------------------------------------------------------------

  /** The lower-case ASCII word `w` occurs at index `k`, ignoring case. */
  predicate WordAt(s: string, k: nat, w: string) {
    k + |w| <= |s| && forall t :: 0 <= t < |w| ==> Lower(s[k + t]) == w[t]
  }

  /** `s?:` at index `k`: an optional plural `s`, then a colon. */
  predicate ColonAt(s: string, k: nat) {
    (k < |s| && s[k] == ':') || (k + 1 < |s| && Lower(s[k]) == 's' && s[k + 1] == ':')
  }

  /** `(?:References?|Sources?):` at index `k`. */
  predicate HeadingAt(s: string, k: nat) {
    (WordAt(s, k, "reference") && ColonAt(s, k + 9)) || (WordAt(s, k, "source") && ColonAt(s, k + 6))
  }

  /** The pattern matches at `j`: a (possibly empty) run of newlines, then a heading. */
  predicate ReferenceAt(s: string, j: nat)
    requires j <= |s|
  {
    HeadingAt(s, j + CharsFrom(s, j, '\n'))
  }

  /** The leftmost match at or after `i`, or `|s|`. */
  function FirstReference(s: string, i: nat): (j: nat)
    requires i <= |s|
    ensures i <= j <= |s|
    ensures j < |s| ==> ReferenceAt(s, j)
    ensures forall k :: i <= k < j ==> !ReferenceAt(s, k)
    decreases |s| - i
  {
    if i == |s| then |s| else if ReferenceAt(s, i) then i else FirstReference(s, i + 1)
  }

  /**
   * The reference section and everything after it are cut. The result is the text before
   * the leftmost match; `.*` with DOTALL runs to the end, so nothing after it survives.
   */
  function CutReferences(s: string): (r: string)
    ensures |r| <= |s| && r == s[..|r|]
    ensures |r| < |s| ==> ReferenceAt(s, |r|)
    ensures forall k :: 0 <= k < |r| ==> !ReferenceAt(s, k)
  {
    s[..FirstReference(s, 0)]
  }

  // ---------------------------------------------------------------------------------------
  // Numbered reference lines: re.sub(r'\n\d+\.\s+.*$', '', s, MULTILINE)
  // ---------------------------------------------------------------------------------------

  /**
   * Length of the numbered line that starts `s`, or 0: a newline, digits, a period, at least
   * one whitespace character (newlines included), then the rest of that line.
   */
  function NumberedLen(s: string): (n: nat)
    ensures n <= |s|
    ensures n > 0 ==> n >= 4 && s[0] == '\n' && (n < |s| ==> s[n] == '\n')
  {
    if s == [] || s[0] != '\n' then 0
    else
      var d := DigitsFrom(s, 1);
      if d == 0 || 1 + d == |s| || s[1 + d] != '.' then 0
      else
        var w := SpacesFrom(s, 2 + d);
        if w == 0 then 0 else LineEnd(s, 2 + d + w)
  }

  function StripNumberedLines(s: string): string
    decreases |s|
  {
    if s == [] then []
    else if NumberedLen(s) > 0 then StripNumberedLines(s[NumberedLen(s)..])
    else [s[0]] + StripNumberedLines(s[1..])
  }

  /** Text before the first newline passes through untouched. */
  lemma {:induction false} StripNumberedLinesPrefix(a: string, b: string)
    requires '\n' !in a
    ensures StripNumberedLines(a + b) == a + StripNumberedLines(b)
    decreases |a|
  {
    if a == [] {
      assert a + b == b;
    } else {
      var s := a + b;
      assert s[0] == a[0] && s[0] != '\n';
      assert StripNumberedLines(s) == [a[0]] + StripNumberedLines(s[1..]);
      assert s[1..] == a[1..] + b;
      StripNumberedLinesPrefix(a[1..], b);
      ConsAssoc(a[0], a[1..], StripNumberedLines(b));
      HeadTail(a);
    }
  }

  /** No numbered line survives: the pass leaves nothing for a second pass to remove. */
  lemma {:induction false} StripNumberedLinesGone(s: string)
    ensures forall k :: 0 <= k < |StripNumberedLines(s)| ==> NumberedLen(StripNumberedLines(s)[k..]) == 0
    decreases |s|
  {
    var r := StripNumberedLines(s);
    if s != [] {
      var n := NumberedLen(s);
      if n > 0 {
        StripNumberedLinesGone(s[n..]);
      } else {
        var rest := StripNumberedLines(s[1..]);
        StripNumberedLinesGone(s[1..]);
        assert r == [s[0]] + rest;
        forall k | 1 <= k < |r| ensures NumberedLen(r[k..]) == 0 {
          assert r[k..] == rest[k - 1..];
        }
        HeadStaysUnnumbered(s);
      }
    }
  }

  /** A newline that did not start a numbered line does not start one after the pass. */
  lemma HeadStaysUnnumbered(s: string)
    requires s != [] && NumberedLen(s) == 0
    ensures NumberedLen([s[0]] + StripNumberedLines(s[1..])) == 0
  {
    if s[0] == '\n' {
      var d := DigitsFrom(s, 1);
      var m := if d > 0 && 1 + d < |s| && s[1 + d] == '.' then 2 + d else 1 + d;
      HeadAgrees(s, d, m);
      Unnumbered(s, d);
      SameShape(s, [s[0]] + StripNumberedLines(s[1..]), d, m);
    }
  }

  /** The pass keeps the newline, the digits and the period of a would-be numbered line. */
  lemma HeadAgrees(s: string, d: nat, m: nat)
    requires s != [] && s[0] == '\n' && d == DigitsFrom(s, 1)
    requires m == if d > 0 && 1 + d < |s| && s[1 + d] == '.' then 2 + d else 1 + d
    ensures var r := [s[0]] + StripNumberedLines(s[1..]);
      m <= |r| && r[..m] == s[..m] && (m < |r| ==> m < |s| && r[m] == s[m])
  {
    var tail := StripNumberedLines(s[m..]);
    assert StripNumberedLines(s[1..]) == s[1..m] + tail by {
      KeepsBeforeNewline(s, m);
    }
    StripNumberedLinesFirst(s[m..]);
    Glue(s, m, tail, [s[0]] + StripNumberedLines(s[1..]));
  }

  lemma KeepsBeforeNewline(s: string, m: nat)
    requires 1 <= m <= |s|
    requires forall k :: 1 <= k < m ==> s[k] != '\n'
    ensures StripNumberedLines(s[1..]) == s[1..m] + StripNumberedLines(s[m..])
  {
    var a := s[1..m];
    assert '\n' !in a by {
      forall k | 0 <= k < |a| ensures a[k] != '\n' {
        assert a[k] == s[1 + k];
      }
    }
    assert s[1..] == a + s[m..];
    StripNumberedLinesPrefix(a, s[m..]);
  }

  lemma Glue(s: string, m: nat, tail: string, r: string)
    requires 1 <= m <= |s|
    requires r == [s[0]] + (s[1..m] + tail)
    requires tail == [] || (m < |s| && tail[0] == s[m])
    ensures m <= |r| && r[..m] == s[..m] && (m < |r| ==> m < |s| && r[m] == s[m])
  {
    assert r[..m] == [s[0]] + s[1..m];
    assert s[..m] == [s[0]] + s[1..m];
  }

  /** `r` agrees with `s` on the first `m` characters and on the next one, if it has one. */
  lemma SameShape(s: string, r: string, d: nat, m: nat)
    requires s != [] && s[0] == '\n' && d == DigitsFrom(s, 1)
    requires d == 0 || 1 + d == |s| || s[1 + d] != '.' || SpacesFrom(s, 2 + d) == 0
    requires m == if d > 0 && 1 + d < |s| && s[1 + d] == '.' then 2 + d else 1 + d
    requires m <= |r| && r[..m] == s[..m]
    requires m < |r| ==> m < |s| && r[m] == s[m]
    requires r != [] && r[0] == '\n'
    ensures NumberedLen(r) == 0
  {
    assert forall k :: 0 <= k < m ==> r[k] == s[k];
    DigitsExact(r, 1, d);
    if d > 0 && 1 + d < |r| && r[1 + d] == '.' {
      assert m == 2 + d && SpacesFrom(s, m) == 0;
      if m < |r| {
        assert r[m] == s[m] && !IsSpace(r[m]);
      }
    }
    NoNumberedLine(r, d);
  }

  /** Why a newline opens no numbered line: its digits are missing, or no period and space follow them. */
  lemma Unnumbered(s: string, d: nat)
    requires s != [] && s[0] == '\n' && d == DigitsFrom(s, 1) && NumberedLen(s) == 0
    ensures d == 0 || 1 + d == |s| || s[1 + d] != '.' || SpacesFrom(s, 2 + d) == 0
  {
  }

  /** A newline opens no numbered line when its digits are missing or no period and space follow them. */
  lemma NoNumberedLine(r: string, d: nat)
    requires r != [] && r[0] == '\n' && d == DigitsFrom(r, 1)
    requires d == 0 || 1 + d == |r| || r[1 + d] != '.' || SpacesFrom(r, 2 + d) == 0
    ensures NumberedLen(r) == 0
  {
  }

  /** The pass keeps the first character, or removes everything. */
  lemma {:induction false} StripNumberedLinesFirst(t: string)
    ensures StripNumberedLines(t) == [] || StripNumberedLines(t)[0] == t[0]
    ensures t != [] && t[0] != '\n' ==> StripNumberedLines(t) != []
    decreases |t|
  {
    if t != [] {
      var n := NumberedLen(t);
      if n > 0 {
        StripNumberedLinesFirst(t[n..]);
      }
    }
  }

  // ---------------------------------------------------------------------------------------
  // Stray numbers: re.sub(r'\s+\d+\s*$', '', s) and re.sub(r'^\s*\d+\s+', '', s)
  // ---------------------------------------------------------------------------------------

  /**
   * `\s+\d+\s*$` matches at `j`. Both runs are greedy and a digit is not whitespace, so the
   * match exists exactly when whitespace, digits and whitespace run on to the end of the text.
   */
  predicate TrailingNumberAt(s: string, j: nat)
    requires j <= |s|
  {
    var w := SpacesFrom(s, j);
    var d := DigitsFrom(s, j + w);
    w > 0 && d > 0 && j + w + d + SpacesFrom(s, j + w + d) == |s|
  }

  function FirstTrailingNumber(s: string, i: nat): (j: nat)
    requires i <= |s|
    ensures i <= j <= |s|
    ensures j < |s| ==> TrailingNumberAt(s, j)
    ensures forall k :: i <= k < j ==> !TrailingNumberAt(s, k)
    decreases |s| - i
  {
    if i == |s| then |s| else if TrailingNumberAt(s, i) then i else FirstTrailingNumber(s, i + 1)
  }

  /** Drops a final number set off by whitespace; the cut is at the leftmost match. */
  function DropTrailingNumber(s: string): (r: string)
    ensures |r| <= |s| && r == s[..|r|]
    ensures |r| < |s| ==> TrailingNumberAt(s, |r|)
    ensures forall k :: 0 <= k < |r| ==> !TrailingNumberAt(s, k)
  {
    s[..FirstTrailingNumber(s, 0)]
  }

  /** A number appended after a space to text ending in a solid character is dropped again. */
  lemma DropTrailingNumberAppended(body: string, ds: string)
    requires body != [] && !IsSpace(body[|body| - 1])
    requires |ds| >= 1 && forall k :: 0 <= k < |ds| ==> IsDigit(ds[k])
    ensures DropTrailingNumber(body + " " + ds) == body
  {
    var s := body + " " + ds;
    var b := |body|;
    forall j | 0 <= j < b ensures !TrailingNumberAt(s, j) {
      NoMatchInBody(s, b, j);
    }
    assert TrailingNumberAt(s, b) by {
      assert SpacesFrom(s, b + 1) == 0;
      assert SpacesFrom(s, b) == 1;
      DigitsExact(s, b + 1, |ds|);
    }
    assert FirstTrailingNumber(s, 0) == b by {
      FirstTrailingIs(s, b);
    }
    assert s[..b] == body;
  }

  lemma FirstTrailingIs(s: string, b: nat)
    requires b < |s| && TrailingNumberAt(s, b)
    requires forall k :: 0 <= k < b ==> !TrailingNumberAt(s, k)
    ensures FirstTrailingNumber(s, 0) == b
  {
  }

  /** No match starts inside `s[..b]` when `s[b - 1]` is solid, `s[b]` a space and `s[b + 1]` a digit. */
  lemma NoMatchInBody(s: string, b: nat, j: nat)
    requires 0 <= j < b && b + 1 < |s|
    requires !IsSpace(s[b - 1]) && s[b] == ' ' && IsDigit(s[b + 1])
    ensures !TrailingNumberAt(s, j)
  {
    var w := SpacesFrom(s, j);
    if w > 0 {
      var e1 := j + w;
      var d := DigitsFrom(s, e1);
      var e2 := e1 + d;
      var e3 := e2 + SpacesFrom(s, e2);
      // The leading run stops before the solid character at b - 1.
      assert e1 <= b - 1;
      if e2 < b {
        assert e3 <= b - 1;
      } else {
        assert e2 == b;
        assert SpacesFrom(s, b + 1) == 0;
        assert e3 == b + 1;
      }
    }
  }

  /**
   * `^\s*\d+\s+` matches `s[..n]` with a whitespace run of length `w`, then `d` digits,
   * then whitespace up to `n`, and that last run is greedy.
   */
  predicate LeadingNumberMatch(s: string, w: nat, d: nat, n: nat) {
    w + d < n <= |s| && d > 0
    && (forall k :: 0 <= k < w ==> IsSpace(s[k]))
    && (forall k :: w <= k < w + d ==> IsDigit(s[k]))
    && (forall k :: w + d <= k < n ==> IsSpace(s[k]))
    && (n < |s| ==> !IsSpace(s[n]))
  }

  /**
   * Length of the match of `^\s*\d+\s+`, or 0: whitespace, then at least one digit, then
   * at least one whitespace character, each run greedy.
   */
  function LeadingNumberLen(s: string): (n: nat)
    ensures n <= |s|
    ensures n > 0 ==> exists w, d :: LeadingNumberMatch(s, w, d, n)
    ensures n == 0 ==> forall w, d, m :: !LeadingNumberMatch(s, w, d, m)
  {
    var w := SpacesFrom(s, 0);
    var d := DigitsFrom(s, w);
    if d > 0 && SpacesFrom(s, w + d) > 0 then
      var n := w + d + SpacesFrom(s, w + d);
      assert LeadingNumberMatch(s, w, d, n);
      n
    else
      NoLeadingNumber(s);
      0
  }

  /** When the greedy runs find no digits, or no whitespace after them, nothing matches. */
  lemma NoLeadingNumber(s: string)
    requires DigitsFrom(s, SpacesFrom(s, 0)) == 0
      || SpacesFrom(s, SpacesFrom(s, 0) + DigitsFrom(s, SpacesFrom(s, 0))) == 0
    ensures forall w, d, m :: !LeadingNumberMatch(s, w, d, m)
  {
    forall w: nat, d: nat, m: nat | LeadingNumberMatch(s, w, d, m)
      ensures false
    {
      DigitNotSpace(s[w]);
      SpacesExact(s, 0, w);
      if IsDigit(s[w + d]) {
        DigitNotSpace(s[w + d]);
      }
      DigitsExact(s, w, d);
    }
  }

  /**
   * `re.sub(r'^\s*\d+\s+', '', s)`: drops a leading number followed by whitespace. What is
   * removed is a match of the pattern, and nothing is removed exactly when none exists.
   */
  function DropLeadingNumber(s: string): (r: string)
    ensures |r| <= |s| && r == s[|s| - |r|..]
    ensures |r| < |s| ==> var n := |s| - |r|; exists w, d :: LeadingNumberMatch(s, w, d, n)
    ensures |r| == |s| ==> forall w, d, n :: !LeadingNumberMatch(s, w, d, n)
  {
    var n := LeadingNumberLen(s);
    SuffixFrom(s, n);
    s[n..]
  }

  /** The suffix from `n` is the last `|s| - n` characters. */
  lemma SuffixFrom(s: string, n: nat)
    requires n <= |s|
    ensures |s[n..]| == |s| - n && s[|s| - |s[n..]|..] == s[n..]
  {
  }

  /** A number and a space put in front of solid text are removed again. */
  lemma DropLeadingNumberPrefixed(ds: string, body: string)
    requires |ds| >= 1 && forall k :: 0 <= k < |ds| ==> IsDigit(ds[k])
    requires body != [] && !IsSpace(body[0])
    ensures DropLeadingNumber(ds + " " + body) == body
  {
    var s := ds + [' '] + body;
    Around(ds, ' ', body);
    assert s[0] == ds[0] && s[|ds| + 1] == body[0];
    DigitNotSpace(s[0]);
    assert SpacesFrom(s, 0) == 0;
    DigitsExact(s, 0, |ds|);
    assert SpacesFrom(s, |ds|) == 1;
    assert LeadingNumberLen(s) == |ds| + 1;
    assert s[|ds| + 1..] == body;
  }

  /** Text that starts with a solid non-digit has no leading number to drop. */
  lemma DropLeadingNumberSolid(s: string)
    requires s != [] && !IsSpace(s[0]) && !IsDigit(s[0])
    ensures DropLeadingNumber(s) == s
  {
  }

  // ---------------------------------------------------------------------------------------
  // clean_perplexity_summary
  // ---------------------------------------------------------------------------------------

  /** `re.sub(r'\n+', ' ', s)`: every run of newlines becomes one space. */
  function NewlineRuns(s: string): string
    decreases |s|
  {
    if s == [] then []
    else if s[0] == '\n' then " " + NewlineRuns(s[CharsFrom(s, 0, '\n')..])
    else [s[0]] + NewlineRuns(s[1..])
  }

  lemma {:induction false} NewlineRunsAbsent(s: string)
    requires '\n' !in s
    ensures NewlineRuns(s) == s
    decreases |s|
  {
    if s != [] {
      NewlineRunsAbsent(s[1..]);
    }
  }

  /**
   * `clean_perplexity_summary`: citation markers, the reference section, numbered reference
   * lines and stray leading and trailing numbers go; whitespace collapses; then the speech
   * cleaner runs. The result is stripped, has no line breaks and holds only characters the
   * speech cleaner may emit.
   */
  function CleanPerplexitySummary(text: string): (r: string)
    ensures text == [] ==> r == []
    ensures Stripped(r)
    ensures forall i :: 0 <= i < |r| ==> TextUtils.SpeechSafe(r[i], TextUtils.IntendedPatterns)
    ensures '\n' !in r
  {
    if text == [] then [] else Voiced(Uncited(text))
  }

  /** The citation passes, in source order, before the whitespace clean-up. */
  function Uncited(text: string): string {
    Trimmed(Unbracketed(text))
  }

  /** The two marker passes: square brackets first, then parentheses. */
  function Unbracketed(text: string): string {
    StripMarkers(StripMarkers(text, '[', ']'), '(', ')')
  }

  /** The reference section, numbered lines and stray numbers, in source order. */
  function Trimmed(u: string): string {
    DropLeadingNumber(DropTrailingNumber(StripNumberedLines(CutReferences(u))))
  }

  /** The whitespace passes, the speech cleaner and the final `strip()`. */
  function Voiced(u: string): (r: string)
    ensures Stripped(r)
    ensures forall i :: 0 <= i < |r| ==> TextUtils.SpeechSafe(r[i], TextUtils.IntendedPatterns)
    ensures '\n' !in r
  {
    var spoken := TextUtils.CleanTextForSpeech(NewlineRuns(Collapse(u)));
    StripOfStripped(spoken);
    assert '\n' !in spoken by {
      forall i | 0 <= i < |spoken| ensures spoken[i] != '\n' {
        assert TextUtils.SpeechSafe(spoken[i], TextUtils.IntendedPatterns);
      }
    }
    Strip(spoken)
  }

  /** The empty-text guard agrees with running every pass on the empty text. */
  lemma SummaryStages(text: string)
    ensures CleanPerplexitySummary(text) == Voiced(Uncited(text))
  {
    if text == [] {
      EmptyUncited();
      EmptyVoiced();
    }
  }

  lemma EmptyUncited()
    ensures Uncited([]) == []
  {
    assert Unbracketed([]) == [];
    assert StripNumberedLines(CutReferences([])) == [];
  }

  lemma EmptyVoiced()
    ensures Voiced([]) == []
  {
    var e: string := [];
    assert NewlineRuns(Collapse(e)) == [];
    assert TextUtils.CleanTextForSpeech([]) == [];
    assert Strip(e) == [];
  }

  /** The newline pass has nothing left to do once whitespace has been collapsed. */
  lemma NewlinePassIdle(s: string)
    ensures NewlineRuns(Collapse(s)) == Collapse(s)
  {
    CollapseSingleSpaced(s);
    var c := Collapse(s);
    assert '\n' !in c by {
      forall i | 0 <= i < |c| ensures c[i] != '\n' {
        assert IsSpace(c[i]) ==> c[i] == ' ';
      }
    }
    NewlineRunsAbsent(c);
  }

  // ---- what the passes leave alone, and what they remove ----

  /** `s` holds no ASCII digit, so no marker, numbered line or stray number can match. */
  predicate NoDigits(s: string) {
    forall i :: 0 <= i < |s| ==> !IsDigit(s[i])
  }

  /**
   * Prose with no digit and no colon comes out of `clean_perplexity_summary` exactly as the
   * whitespace collapse and the speech cleaner leave it: every citation pass is idle.
   */
  lemma PlainSummary(t: string)
    requires NoDigits(t) && ':' !in t
    ensures CleanPerplexitySummary(t) == TextUtils.CleanTextForSpeech(Collapse(t))
  {
    SummaryStages(t);
    StripMarkersNoDigits(t, '[', ']');
    StripMarkersNoDigits(t, '(', ')');
    CutNoColon(t);
    StripNumberedLinesNoDigits(t);
    DropTrailingNoDigits(t);
    DropLeadingNoDigits(t);
    assert Uncited(t) == t;
    NewlinePassIdle(t);
    StripOfStripped(TextUtils.CleanTextForSpeech(Collapse(t)));
  }

  /**
   * A reference section after a line break is dropped with everything that follows it:
   * `body + "\nSources: ..."` cleans exactly as `body` does.
   */
  lemma ReferenceSectionDropped(body: string, h: string, x: string)
    requires ':' !in body && '[' !in body && '(' !in body
    requires body == [] || body[|body| - 1] != '\n'
    requires HeadingAt(h, 0) && '[' !in h && '(' !in h
    ensures CleanPerplexitySummary(body + ("\n" + h + x)) == CleanPerplexitySummary(body)
  {
    var x2 := StripMarkers(StripMarkers(x, '[', ']'), '(', ')');
    SectionUnbracketed(body, "\n" + h, x);
    StripMarkersAbsent(body, '[', ']');
    StripMarkersAbsent(body, '(', ')');
    CutAtSection(body, h, x2);
    CutNoColon(body);
    SummaryStages(body + ("\n" + h + x));
    SummaryStages(body);
  }

  /** A `[n]` citation marker is removed as if it had never been written. */
  lemma BracketCitationDropped(a: string, ds: string, b: string)
    requires '[' !in a
    requires |ds| >= 1 && forall k :: 0 <= k < |ds| ==> IsDigit(ds[k])
    ensures CleanPerplexitySummary(a + ("[" + ds + "]" + b)) == CleanPerplexitySummary(a + b)
  {
    StripMarkersFirst(a, ds, b, '[', ']');
    StripMarkersPrefix(a, b, '[', ']');
    SummaryStages(a + ("[" + ds + "]" + b));
    SummaryStages(a + b);
  }

  /** So is a `(n)` marker in text without square brackets. */
  lemma ParenCitationDropped(a: string, ds: string, b: string)
    requires '[' !in a && '[' !in b && '(' !in a
    requires |ds| >= 1 && forall k :: 0 <= k < |ds| ==> IsDigit(ds[k])
    ensures CleanPerplexitySummary(a + ("(" + ds + ")" + b)) == CleanPerplexitySummary(a + b)
  {
    var m := "(" + ds + ")" + b;
    assert '[' !in "(" + ds + ")" by {
      assert forall k :: 0 <= k < |ds| ==> ds[k] != '[';
    }
    assert '[' !in m;
    StripMarkersAbsent(a + m, '[', ']');
    StripMarkersAbsent(a + b, '[', ']');
    StripMarkersFirst(a, ds, b, '(', ')');
    StripMarkersPrefix(a, b, '(', ')');
    SummaryStages(a + m);
    SummaryStages(a + b);
  }

  lemma {:induction false} StripMarkersNoDigits(s: string, open: char, close: char)
    requires NoDigits(s)
    ensures StripMarkers(s, open, close) == s
    decreases |s|
  {
    if s != [] {
      if |s| > 1 {
        assert !IsDigit(s[1]);
      }
      assert MarkerLen(s, open, close) == 0;
      assert NoDigits(s[1..]) by {
        assert forall i :: 0 <= i < |s[1..]| ==> s[1..][i] == s[i + 1];
      }
      StripMarkersNoDigits(s[1..], open, close);
      HeadTail(s);
    }
  }

  lemma {:induction false} StripNumberedLinesNoDigits(s: string)
    requires NoDigits(s)
    ensures StripNumberedLines(s) == s
    decreases |s|
  {
    if s != [] {
      if |s| > 1 {
        assert !IsDigit(s[1]);
      }
      assert NumberedLen(s) == 0;
      assert NoDigits(s[1..]) by {
        assert forall i :: 0 <= i < |s[1..]| ==> s[1..][i] == s[i + 1];
      }
      StripNumberedLinesNoDigits(s[1..]);
      HeadTail(s);
    }
  }

  /** Without a colon there is no heading, so nothing is cut. */
  lemma CutNoColon(s: string)
    requires ':' !in s
    ensures CutReferences(s) == s
  {
    var j := FirstReference(s, 0);
    if j < |s| {
      NoColonNoHeading(s, j + CharsFrom(s, j, '\n'));
    }
  }

  lemma NoColonNoHeading(s: string, k: nat)
    requires ':' !in s
    ensures !HeadingAt(s, k)
  {
    assert !ColonAt(s, k + 9) && !ColonAt(s, k + 6);
  }

  lemma DropTrailingNoDigits(s: string)
    requires NoDigits(s)
    ensures DropTrailingNumber(s) == s
  {
    forall k | 0 <= k < |s| ensures !TrailingNumberAt(s, k) {
      NoDigitRun(s, k + SpacesFrom(s, k));
    }
  }

  lemma DropLeadingNoDigits(s: string)
    requires NoDigits(s)
    ensures DropLeadingNumber(s) == s
  {
    NoDigitRun(s, SpacesFrom(s, 0));
    assert LeadingNumberLen(s) == 0;
  }

  lemma NoDigitRun(s: string, i: nat)
    requires NoDigits(s) && i <= |s|
    ensures DigitsFrom(s, i) == 0
  {
    if i < |s| {
      assert !IsDigit(s[i]);
    }
  }

  /** Both marker passes leave `a` alone and run on in `m` once `a` is behind them. */
  lemma SectionUnbracketed(body: string, a: string, x: string)
    requires '[' !in body && '(' !in body && '[' !in a && '(' !in a
    ensures Unbracketed(body + (a + x)) == body + (a + Unbracketed(x))
  {
    var x1 := StripMarkers(x, '[', ']');
    StripMarkersPrefix(a, x, '[', ']');
    StripMarkersPrefix(body, a + x, '[', ']');
    StripMarkersPrefix(a, x1, '(', ')');
    StripMarkersPrefix(body, a + x1, '(', ')');
  }

  /** The cut falls exactly at the line break before the heading. */
  lemma CutAtSection(body: string, h: string, y: string)
    requires ':' !in body && (body == [] || body[|body| - 1] != '\n')
    requires HeadingAt(h, 0)
    ensures CutReferences(body + ("\n" + h + y)) == body
  {
    var s := body + ("\n" + h + y);
    var b := |body|;
    assert s[b] == '\n';
    SectionStart(s, b, h);
    forall k | 0 <= k < b ensures !ReferenceAt(s, k) {
      BodyNoReference(s, b, k);
    }
    FirstReferenceIs(s, b);
    assert s[..b] == body;
  }

  /** A line break followed by a heading is a match. */
  lemma SectionStart(s: string, b: nat, h: string)
    requires HeadingAt(h, 0) && b + 1 + |h| <= |s| && s[b] == '\n'
    requires forall t :: 0 <= t < |h| ==> s[b + 1 + t] == h[t]
    ensures ReferenceAt(s, b)
  {
    if WordAt(h, 0, "reference") {
      WordBreaks(h, 0, "reference", 0);
    } else {
      WordBreaks(h, 0, "source", 0);
    }
    assert CharsFrom(s, b, '\n') == 1;
    HeadingShift(h, s, b + 1);
  }

  /** A heading read at offset `off` of a longer text that holds it there. */
  lemma HeadingShift(h: string, s: string, off: nat)
    requires HeadingAt(h, 0) && off + |h| <= |s|
    requires forall t :: 0 <= t < |h| ==> s[off + t] == h[t]
    ensures HeadingAt(s, off)
  {
    if WordAt(h, 0, "reference") && ColonAt(h, 9) {
      assert WordAt(s, off, "reference");
      assert ColonAt(s, off + 9);
    } else {
      assert WordAt(s, off, "source");
      assert ColonAt(s, off + 6);
    }
  }

  /** No match starts inside a colon-free body that ends before a line break. */
  lemma BodyNoReference(s: string, b: nat, k: nat)
    requires k < b < |s| && s[b] == '\n' && s[b - 1] != '\n'
    requires forall i :: 0 <= i < b ==> s[i] != ':'
    ensures !ReferenceAt(s, k)
  {
    var j := k + CharsFrom(s, k, '\n');
    assert j < b;
    NoHeadingAcross(s, b, j, "reference");
    NoHeadingAcross(s, b, j, "source");
  }

  /** A word that begins before the line break at `b` cannot reach a colon after it. */
  lemma NoHeadingAcross(s: string, b: nat, j: nat, w: string)
    requires j < b < |s| && s[b] == '\n' && '\n' !in w
    requires forall i :: 0 <= i < b ==> s[i] != ':'
    ensures !(WordAt(s, j, w) && ColonAt(s, j + |w|))
  {
    if WordAt(s, j, w) && b < j + |w| {
      WordBreaks(s, j, w, b);
    }
  }

  /** A letter of a matched word is not a line break. */
  lemma WordBreaks(s: string, j: nat, w: string, q: nat)
    requires WordAt(s, j, w) && j <= q < j + |w| && '\n' !in w
    ensures s[q] != '\n'
  {
    assert Lower(s[j + (q - j)]) == w[q - j];
  }

  // ---- worked examples ----

  /** A reference section is cut, newlines before it included. */
  lemma ReferenceExample()
    ensures CutReferences("Hi\nSources: x") == "Hi"
  {
    var s := "Hi\nSources: x";
    SourcesHeading(s);
    NothingBeforeNewline(s);
    FirstReferenceIs(s, 2);
  }

  lemma SourcesHeading(s: string)
    requires s == "Hi\nSources: x"
    ensures ReferenceAt(s, 2)
  {
    assert CharsFrom(s, 2, '\n') == 1;
    assert WordAt(s, 3, "source") by {
      assert forall t :: 0 <= t < 6 ==> Lower(s[3 + t]) == "source"[t];
    }
    assert ColonAt(s, 9);
  }

  lemma NothingBeforeNewline(s: string)
    requires s == "Hi\nSources: x"
    ensures forall k :: 0 <= k < 2 ==> !ReferenceAt(s, k)
  {
    forall k | 0 <= k < 2 ensures !ReferenceAt(s, k) {
      assert CharsFrom(s, k, '\n') == 0;
      FirstLetterMismatch(s, k, "reference");
      FirstLetterMismatch(s, k, "source");
    }
  }

  lemma FirstLetterMismatch(s: string, k: nat, w: string)
    requires k < |s| && w != [] && Lower(s[k]) != w[0]
    ensures !WordAt(s, k, w)
  {
    assert Lower(s[k + 0]) != w[0];
  }

  lemma FirstReferenceIs(s: string, b: nat)
    requires b < |s| && ReferenceAt(s, b)
    requires forall k :: 0 <= k < b ==> !ReferenceAt(s, k)
    ensures FirstReference(s, 0) == b
  {
  }

  // ---------------------------------------------------------------------------------------
  // ensure_complete_sentences
  // ---------------------------------------------------------------------------------------

  /** The sentence terminators of the class `[.!?]`. */
  predicate IsTerminal(c: char) {
    c == '.' || c == '!' || c == '?'
  }

  /** No sentence terminator anywhere in `p`. */
  predicate Plain(p: string) {
    forall i :: 0 <= i < |p| ==> !IsTerminal(p[i])
  }

  /** Index of the first terminator at or after `i`, or `|s|`. */
  function NextTerminal(s: string, i: nat): (k: nat)
    requires i <= |s|
    ensures i <= k <= |s|
    ensures k < |s| ==> IsTerminal(s[k])
    ensures forall j :: i <= j < k ==> !IsTerminal(s[j])
    decreases |s| - i
  {
    if i == |s| || IsTerminal(s[i]) then i else NextTerminal(s, i + 1)
  }

  /** Number of terminators from index `i` on (a greedy `[.!?]+`). */
  function TerminalsFrom(s: string, i: nat): (n: nat)
    requires i <= |s|
    ensures i + n <= |s|
    ensures forall j :: i <= j < i + n ==> IsTerminal(s[j])
    ensures i + n < |s| ==> !IsTerminal(s[i + n])
    decreases |s| - i
  {
    if i < |s| && IsTerminal(s[i]) then 1 + TerminalsFrom(s, i + 1) else 0
  }

  /** `s` with every sentence terminator taken out. */
  function Unterminated(s: string): (r: string)
    ensures |r| <= |s|
  {
    if s == [] then [] else (if IsTerminal(s[0]) then [] else [s[0]]) + Unterminated(s[1..])
  }

  /** Laid end to end, `parts` are `s` with its terminators taken out. */
  ghost predicate Reassembles(parts: seq<string>, s: string) {
    Join([], parts) == Unterminated(s)
  }

  /**
   * `re.split(r'[.!?]+', s)`: the stretches between maximal runs of terminators. Laid end
   * to end, the parts are the text with its terminators taken out.
   */
  function SplitSentences(s: string): (parts: seq<string>)
    ensures |parts| >= 1
    ensures forall i :: 0 <= i < |parts| ==> Plain(parts[i])
    ensures Reassembles(parts, s)
    decreases |s|
  {
    var k := NextTerminal(s, 0);
    if k == |s| then
      SplitUnterminated(s, |s|, 0);
      assert s[|s| + 0..] == [];
      [s]
    else
      var t := TerminalsFrom(s, k);
      var rest := SplitSentences(s[k + t..]);
      SplitUnterminated(s, k, t);
      assert ([s[..k]] + rest)[1..] == rest;
      [s[..k]] + rest
  }

  /** Taking terminators out of text cut at a terminator run keeps the plain stretch before it. */
  lemma SplitUnterminated(s: string, k: nat, t: nat)
    requires k + t <= |s|
    requires forall j :: 0 <= j < k ==> !IsTerminal(s[j])
    requires forall j :: k <= j < k + t ==> IsTerminal(s[j])
    ensures Unterminated(s) == s[..k] + Unterminated(s[k + t..])
  {
    UnterminatedPlain(s, k);
    UnterminatedSkip(s[k..], t);
    assert s[k..][t..] == s[k + t..];
  }

  lemma {:induction false} UnterminatedPlain(s: string, k: nat)
    requires k <= |s|
    requires forall j :: 0 <= j < k ==> !IsTerminal(s[j])
    ensures Unterminated(s) == s[..k] + Unterminated(s[k..])
  {
    if k > 0 {
      var tail := s[1..];
      assert !IsTerminal(s[0]);
      assert Unterminated(s) == [s[0]] + Unterminated(tail);
      assert forall j :: 0 <= j < k - 1 ==> tail[j] == s[j + 1];
      UnterminatedPlain(tail, k - 1);
      assert tail[k - 1..] == s[k..];
      ConsAssoc(s[0], tail[..k - 1], Unterminated(s[k..]));
      assert [s[0]] + tail[..k - 1] == s[..k];
    } else {
      assert s[..0] + s[0..] == s;
    }
  }

  lemma {:induction false} UnterminatedSkip(s: string, t: nat)
    requires t <= |s|
    requires forall j :: 0 <= j < t ==> IsTerminal(s[j])
    ensures Unterminated(s) == Unterminated(s[t..])
  {
    if t > 0 {
      var tail := s[1..];
      assert forall j :: 0 <= j < t - 1 ==> tail[j] == s[j + 1];
      UnterminatedSkip(tail, t - 1);
      assert tail[t - 1..] == s[t..];
    } else {
      assert s[0..] == s;
    }
  }

  /** Every character of `r` is a sentence terminator. */
  predicate AllTerminal(r: string) {
    forall i :: 0 <= i < |r| ==> IsTerminal(r[i])
  }

  /** `parts[0] + runs[0] + parts[1] + ... + runs[n - 1] + parts[n]`. */
  function Weave(parts: seq<string>, runs: seq<string>): string
    requires |parts| == |runs| + 1
    decreases |runs|
  {
    if runs == [] then parts[0] else parts[0] + runs[0] + Weave(parts[1..], runs[1..])
  }

  /**
   * `s` is laid out as plain stretches separated by non-empty runs of terminators, and
   * every stretch strictly between two runs is non-empty, so each run is maximal.
   */
  ghost predicate Woven(parts: seq<string>, runs: seq<string>, s: string) {
    |parts| == |runs| + 1
    && (forall j :: 0 <= j < |parts| ==> Plain(parts[j]))
    && (forall j :: 0 <= j < |runs| ==> runs[j] != [] && AllTerminal(runs[j]))
    && (forall j :: 0 < j < |parts| - 1 ==> parts[j] != [])
    && Weave(parts, runs) == s
  }

  /** The maximal runs of terminators in `s`, in order. */
  function Runs(s: string): seq<string>
    decreases |s|
  {
    var k := NextTerminal(s, 0);
    if k == |s| then [] else [s[k..k + TerminalsFrom(s, k)]] + Runs(s[k + TerminalsFrom(s, k)..])
  }

  /** The split and the terminator runs interleave to give back the text. */
  lemma {:induction false} SplitWoven(s: string)
    ensures Woven(SplitSentences(s), Runs(s), s)
    decreases |s|
  {
    var k := NextTerminal(s, 0);
    if k == |s| {
      SplitLast(s);
    } else {
      var t := TerminalsFrom(s, k);
      var tail := s[k + t..];
      SplitStep(s, k, t);
      RunsStep(s, k, t);
      SplitStepShape(s, k, t);
      ThreeSlices(s, k, k + t);
      SplitWoven(tail);
      if |SplitSentences(tail)| > 1 {
        FirstStretch(SplitSentences(tail), Runs(tail), tail);
      }
      WovenCons(s[..k], s[k..k + t], SplitSentences(tail), Runs(tail), tail, SplitSentences(s), Runs(s), s);
    }
  }

  lemma ThreeSlices(s: string, i: nat, j: nat)
    requires i <= j <= |s|
    ensures s == s[..i] + s[i..j] + s[j..]
  {
  }

  /** Text without a terminator is one piece and has no runs. */
  lemma SplitLast(s: string)
    requires NextTerminal(s, 0) == |s|
    ensures SplitSentences(s) == [s] && Runs(s) == []
    ensures Woven([s], [], s)
  {
  }

  /** Text with a terminator: the stretch before the first run, then the rest split. */
  lemma SplitStep(s: string, k: nat, t: nat)
    requires k == NextTerminal(s, 0) < |s| && t == TerminalsFrom(s, k)
    ensures SplitSentences(s) == [s[..k]] + SplitSentences(s[k + t..])
  {
  }

  /** Text with a terminator: the first run, then the runs of the rest. */
  lemma RunsStep(s: string, k: nat, t: nat)
    requires k == NextTerminal(s, 0) < |s| && t == TerminalsFrom(s, k)
    ensures Runs(s) == [s[k..k + t]] + Runs(s[k + t..])
  {
  }

  /** The stretch before the first run is plain, the run is not empty, and what follows starts plain. */
  lemma SplitStepShape(s: string, k: nat, t: nat)
    requires k == NextTerminal(s, 0) < |s| && t == TerminalsFrom(s, k)
    ensures t > 0 && Plain(s[..k]) && AllTerminal(s[k..k + t])
    ensures s[k + t..] != [] ==> !IsTerminal(s[k + t..][0])
  {
  }

  /** Weaving one more stretch and run in front. */
  lemma WeaveCons(p: string, r: string, parts: seq<string>, runs: seq<string>)
    requires |parts| == |runs| + 1
    ensures Weave([p] + parts, [r] + runs) == p + r + Weave(parts, runs)
  {
    assert ([p] + parts)[1..] == parts && ([r] + runs)[1..] == runs;
  }

  /** A plain stretch and a run put in front of a layout give a layout. */
  lemma WovenCons(p: string, r: string, parts: seq<string>, runs: seq<string>, s: string,
                  ps: seq<string>, rs: seq<string>, whole: string)
    requires Woven(parts, runs, s) && Plain(p) && r != [] && AllTerminal(r)
    requires |parts| > 1 ==> parts[0] != []
    requires ps == [p] + parts && rs == [r] + runs && whole == p + r + s
    ensures Woven(ps, rs, whole)
  {
    WeaveCons(p, r, parts, runs);
    assert forall j :: 1 <= j < |ps| ==> ps[j] == parts[j - 1];
    assert forall j :: 1 <= j < |rs| ==> rs[j] == runs[j - 1];
  }

  /** When a layout has a run and its text starts plain, its first stretch is not empty. */
  lemma FirstStretch(parts: seq<string>, runs: seq<string>, s: string)
    requires Woven(parts, runs, s) && runs != []
    requires s != [] && !IsTerminal(s[0])
    ensures parts[0] != []
  {
    assert s == parts[0] + runs[0] + Weave(parts[1..], runs[1..]);
  }

  /** Any such layout of `s` is the split: the pieces and runs are determined by the text. */
  lemma {:induction false} WovenIsSplit(parts: seq<string>, runs: seq<string>, s: string)
    requires Woven(parts, runs, s)
    ensures parts == SplitSentences(s) && runs == Runs(s)
    decreases |runs|
  {
    if runs == [] {
      assert s == parts[0];
      assert NextTerminal(s, 0) == |s|;
    } else {
      var tail := Weave(parts[1..], runs[1..]);
      WovenTail(parts, runs, s);
      if tail != [] {
        TailStartsPlain(parts[1..], runs[1..], tail);
      }
      var a, b := |parts[0]|, |runs[0]|;
      RunBounds(parts[0], runs[0], tail, s);
      WovenIsSplit(parts[1..], runs[1..], tail);
      SplitOfLayout(s, a, b, parts, runs);
    }
  }

  /** A first stretch and run where the split puts them, followed by the split of the rest, are the split. */
  lemma SplitOfLayout(s: string, a: nat, b: nat, parts: seq<string>, runs: seq<string>)
    requires a == NextTerminal(s, 0) < |s| && b == TerminalsFrom(s, a)
    requires parts != [] && runs != [] && parts[0] == s[..a] && runs[0] == s[a..a + b]
    requires parts[1..] == SplitSentences(s[a + b..]) && runs[1..] == Runs(s[a + b..])
    ensures parts == SplitSentences(s) && runs == Runs(s)
  {
    SplitStep(s, a, b);
    RunsStep(s, a, b);
    assert parts == [parts[0]] + parts[1..];
    assert runs == [runs[0]] + runs[1..];
  }

  /** Dropping the first stretch and run of a layout leaves a layout of the rest. */
  lemma WovenTail(parts: seq<string>, runs: seq<string>, s: string)
    requires Woven(parts, runs, s) && runs != []
    ensures s == parts[0] + runs[0] + Weave(parts[1..], runs[1..])
    ensures Plain(parts[0]) && runs[0] != [] && AllTerminal(runs[0])
    ensures Woven(parts[1..], runs[1..], Weave(parts[1..], runs[1..]))
    ensures |runs| > 1 ==> parts[1] != []
  {
    var ps, rs := parts[1..], runs[1..];
    assert forall j :: 0 <= j < |ps| ==> ps[j] == parts[j + 1];
    assert forall j :: 0 <= j < |rs| ==> rs[j] == runs[j + 1];
  }

  /** In plain + run + text that starts plain, the run starts at the first terminator and is maximal. */
  lemma RunBounds(p: string, r: string, tail: string, s: string)
    requires s == p + r + tail && Plain(p) && r != [] && AllTerminal(r)
    requires tail != [] ==> !IsTerminal(tail[0])
    ensures NextTerminal(s, 0) == |p| < |s| && TerminalsFrom(s, |p|) == |r|
    ensures s[..|p|] == p && s[|p|..|p| + |r|] == r && s[|p| + |r|..] == tail
  {
    FirstRunAt(p, r + tail, s);
    var u := r + tail;
    assert s[|p|..] == u;
    RunLength(r, tail, u);
    TerminalsShift(s, |p|, |r|);
  }

  /** After a plain stretch, the first terminator is where the next text starts with one. */
  lemma FirstRunAt(p: string, u: string, s: string)
    requires s == p + u && Plain(p) && u != [] && IsTerminal(u[0])
    ensures NextTerminal(s, 0) == |p| < |s|
  {
    assert forall j :: 0 <= j < |p| ==> s[j] == p[j];
    assert s[|p|] == u[0];
  }

  /** A run followed by text that starts plain is counted whole. */
  lemma RunLength(r: string, tail: string, u: string)
    requires u == r + tail && AllTerminal(r)
    requires tail != [] ==> !IsTerminal(tail[0])
    ensures TerminalsFrom(u, 0) == |r|
  {
    assert forall j :: 0 <= j < |r| ==> u[j] == r[j];
    assert |r| < |u| ==> u[|r|] == tail[0];
  }

  /** Counting terminators from `i` only looks at the text from `i` on. */
  lemma TerminalsShift(s: string, i: nat, n: nat)
    requires i <= |s| && TerminalsFrom(s[i..], 0) == n
    ensures TerminalsFrom(s, i) == n
  {
    var u := s[i..];
    assert forall j :: 0 <= j < |u| ==> u[j] == s[i + j];
  }

  /** The text after a run starts plain: its first stretch is non-empty whenever a run follows it. */
  lemma TailStartsPlain(parts: seq<string>, runs: seq<string>, s: string)
    requires Woven(parts, runs, s) && s != []
    requires runs != [] ==> parts[0] != []
    ensures !IsTerminal(s[0])
  {
    if runs == [] {
      assert s == parts[0];
    } else {
      assert s == parts[0] + runs[0] + Weave(parts[1..], runs[1..]);
      assert s[0] == parts[0][0];
    }
  }

  /** The strings of `r` are exactly the non-blank strips of the parts. */
  ghost predicate NonBlankStrips(r: seq<string>, parts: seq<string>) {
    forall x :: x in r <==> x != [] && exists p :: p in parts && Strip(p) == x
  }

  /**
   * `[p.strip() for p in parts if p.strip()]`: a string is kept exactly when it is the
   * non-blank strip of one of the parts.
   */
  function NonBlank(parts: seq<string>): (r: seq<string>)
    ensures |r| <= |parts|
    ensures forall i :: 0 <= i < |r| ==> r[i] != [] && Stripped(r[i])
    ensures NonBlankStrips(r, parts)
  {
    if parts == [] then []
    else
      var rest := NonBlank(parts[1..]);
      assert forall p :: p in parts <==> p == parts[0] || p in parts[1..];
      (if Strip(parts[0]) != [] then [Strip(parts[0])] else []) + rest
  }

  /** One part gives its strip, or nothing when the strip is empty. */
  lemma NonBlankSingle(x: string)
    ensures NonBlank([x]) == if Strip(x) == [] then [] else [Strip(x)]
  {
    assert [x][1..] == [];
  }

  /** The comprehension keeps order and multiplicity: it distributes over concatenation. */
  lemma {:induction false} NonBlankAppend(p: seq<string>, q: seq<string>)
    ensures NonBlank(p + q) == NonBlank(p) + NonBlank(q)
    decreases |p|
  {
    if p == [] {
      assert p + q == q;
    } else {
      var x, rest := p[0], p[1..];
      var head := if Strip(x) != [] then [Strip(x)] else [];
      HeadTail(p);
      ConsAssoc(x, rest, q);
      NonBlankCons(x, rest + q);
      NonBlankCons(x, rest);
      NonBlankAppend(rest, q);
      SeqAssoc(head, NonBlank(rest), NonBlank(q));
    }
  }

  lemma SeqAssoc<T>(a: seq<T>, b: seq<T>, c: seq<T>)
    ensures a + (b + c) == (a + b) + c
  {
  }

  /** The stripped, non-blank sentences of `text`. */
  function Pieces(text: string): seq<string> {
    NonBlank(SplitSentences(text))
  }

  /** Drops the last sentence when it has fewer than ten characters. */
  function DropShortLast(ps: seq<string>): (r: seq<string>)
    ensures r == ps || (ps != [] && r == ps[..|ps| - 1] && |ps[|ps| - 1]| < 10)
    ensures r != [] ==> r == ps[..|r|]
    ensures ps != [] && |ps[|ps| - 1]| < 10 ==> |r| == |ps| - 1
    ensures ps != [] && |ps[|ps| - 1]| >= 10 ==> r == ps
  {
    if ps != [] && |ps[|ps| - 1]| < 10 then ps[..|ps| - 1] else ps
  }

  /** `re.sub(r'\.+', '.', s)` */
  function DotRuns(s: string): string
    decreases |s|
  {
    if s == [] then []
    else if s[0] == '.' then "." + DotRuns(s[CharsFrom(s, 0, '.')..])
    else [s[0]] + DotRuns(s[1..])
  }

  /** The sentences that survive: the non-blank pieces, minus a short last one. */
  function Survivors(text: string): seq<string> {
    DropShortLast(Pieces(text))
  }

  /** Text that ends with a full stop and holds no other kind of sentence terminator. */
  predicate PeriodClosed(r: string) {
    r != [] && r[|r| - 1] == '.' && '!' !in r && '?' !in r
  }

  /**
   * `ensure_complete_sentences`: the surviving sentences joined with ". " and closed with a
   * period; the text itself when none survive. Re-splitting the result gives back exactly
   * the surviving sentences.
   */
  function EnsureCompleteSentences(text: string): (r: string)
    ensures text == [] ==> r == text
    ensures text != [] && Survivors(text) == [] ==> r == text
    ensures Survivors(text) != [] ==> Pieces(r) == Survivors(text)
    ensures Survivors(text) != [] ==> PeriodClosed(r)
  {
    if text == [] then
      NothingSurvivesEmpty();
      text
    else
      var kept := Survivors(text);
      if kept != [] then
        SurvivorsShape(text);
        CompleteJoined(kept);
        DotRuns(Join(". ", kept) + ".")
      else text
  }

  /** Empty text has no sentences. */
  lemma NothingSurvivesEmpty()
    ensures Survivors([]) == []
  {
    assert NextTerminal([], 0) == 0;
    assert SplitSentences([]) == [[]];
    assert Strip([]) == [];
    assert NonBlank([[]]) == [];
  }

  /** Sentences joined with ". " and closed with a period split back into the same sentences. */
  lemma CompleteJoined(ps: seq<string>)
    requires ps != [] && Sentences(ps)
    ensures Pieces(DotRuns(Join(". ", ps) + ".")) == ps
    ensures PeriodClosed(DotRuns(Join(". ", ps) + "."))
  {
    JoinedIdle(ps);
    PiecesOfJoined(ps);
    JoinedPlainExceptDots(ps);
  }

  /** A sentence as the splitter leaves it: non-blank, stripped, without terminators. */
  predicate Sentence(p: string) {
    p != [] && Stripped(p) && Plain(p)
  }

  /** Every element of `ps` is a sentence. */
  predicate Sentences(ps: seq<string>) {
    ps == [] || (Sentence(ps[0]) && Sentences(ps[1..]))
  }

  lemma {:induction false} SentencesPrefix(ps: seq<string>, n: nat)
    requires Sentences(ps) && n <= |ps|
    ensures Sentences(ps[..n])
  {
    if n > 0 {
      assert ps[..n][1..] == ps[1..][..n - 1];
      SentencesPrefix(ps[1..], n - 1);
    }
  }

  lemma StripPlain(s: string)
    requires Plain(s)
    ensures Plain(Strip(s))
  {
    StripDrawn(s);
    var r := Strip(s);
    forall i | 0 <= i < |r| ensures !IsTerminal(r[i]) {
      if r[i] != ' ' {
        var j :| 0 <= j < |s| && s[j] == r[i];
      }
    }
  }

  lemma {:induction false} NonBlankPlain(parts: seq<string>)
    requires forall i :: 0 <= i < |parts| ==> Plain(parts[i])
    ensures Sentences(NonBlank(parts))
  {
    if parts != [] {
      StripPlain(parts[0]);
      NonBlankPlain(parts[1..]);
      var rest := NonBlank(parts[1..]);
      var x := Strip(parts[0]);
      if x != [] {
        assert NonBlank(parts) == [x] + rest;
        assert ([x] + rest)[1..] == rest;
      } else {
        assert NonBlank(parts) == rest;
      }
    }
  }

  /** Every surviving sentence is non-blank, stripped and free of terminators. */
  lemma SurvivorsShape(text: string)
    ensures Sentences(Survivors(text))
  {
    var ps := Pieces(text);
    NonBlankPlain(SplitSentences(text));
    if ps != [] {
      SentencesPrefix(ps, |ps| - 1);
    }
  }

  lemma {:induction false} DotRunsPlainPrefix(a: string, b: string)
    requires Plain(a)
    ensures DotRuns(a + b) == a + DotRuns(b)
    decreases |a|
  {
    if a != [] {
      assert (a + b)[0] == a[0] && !IsTerminal(a[0]);
      assert (a + b)[1..] == a[1..] + b;
      assert Plain(a[1..]) by {
        assert forall i :: 0 <= i < |a| - 1 ==> a[1..][i] == a[i + 1];
      }
      DotRunsPlainPrefix(a[1..], b);
      assert a == [a[0]] + a[1..];
    } else {
      assert a + b == b;
    }
  }

  lemma DotRunsDotSpace(b: string)
    ensures DotRuns(". " + b) == ". " + DotRuns(b)
  {
    var s := ". " + b;
    assert CharsFrom(s, 0, '.') == 1 by {
      assert s[1] != '.';
    }
    assert s[1..] == " " + b;
    assert (" " + b)[1..] == b;
  }

  /** The `\.+` pass leaves a joined, period-closed text alone. */
  lemma {:induction false} JoinedIdle(ps: seq<string>)
    requires ps != []
    requires Sentences(ps)
    ensures DotRuns(Join(". ", ps) + ".") == Join(". ", ps) + "."
  {
    var p := ps[0];
    if |ps| == 1 {
      DotRunsPlainPrefix(p, ".");
      assert CharsFrom(".", 0, '.') == 1;
    } else {
      var rest := Join(". ", ps[1..]) + ".";
      assert Join(". ", ps) + "." == p + (". " + rest);
      DotRunsPlainPrefix(p, ". " + rest);
      DotRunsDotSpace(rest);
      JoinedIdle(ps[1..]);
    }
  }

  lemma {:induction false} JoinedQuiet(ps: seq<string>)
    requires Sentences(ps)
    ensures '!' !in Join(". ", ps) && '?' !in Join(". ", ps)
  {
    if |ps| > 1 {
      JoinedQuiet(ps[1..]);
    }
  }

  /** The terminators of a joined, period-closed text are all periods. */
  lemma JoinedPlainExceptDots(ps: seq<string>)
    requires Sentences(ps)
    ensures '!' !in Join(". ", ps) + "." && '?' !in Join(". ", ps) + "."
  {
    JoinedQuiet(ps);
  }

  lemma SplitPlain(p: string)
    requires Plain(p)
    ensures SplitSentences(p) == [p]
  {
    assert NextTerminal(p, 0) == |p|;
    assert p[..|p|] == p;
  }

  /** A terminator after a plain stretch splits it off. */
  lemma SplitCons(p: string, rest: string)
    requires Plain(p)
    requires rest == [] || !IsTerminal(rest[0])
    ensures SplitSentences(p + "." + rest) == [p] + SplitSentences(rest)
  {
    var s := p + "." + rest;
    Around(p, '.', rest);
    NextTerminalIs(s, |p|);
    if |p| + 1 < |s| {
      assert s[|p| + 1] == rest[0];
    }
    assert TerminalsFrom(s, |p| + 1) == 0;
  }

  lemma Around(p: string, c: char, rest: string)
    ensures (p + [c] + rest)[..|p|] == p && (p + [c] + rest)[|p|] == c
    ensures (p + [c] + rest)[|p| + 1..] == rest
    ensures forall j :: 0 <= j < |p| ==> (p + [c] + rest)[j] == p[j]
  {
  }

  lemma NextTerminalIs(s: string, k: nat)
    requires k < |s| && IsTerminal(s[k])
    requires forall j :: 0 <= j < k ==> !IsTerminal(s[j])
    ensures NextTerminal(s, 0) == k
  {
  }

  lemma StripLead(lead: string, p: string)
    requires lead == "" || lead == " "
    requires Sentence(p)
    ensures Strip(lead + p) == p
  {
    if lead == "" {
      assert lead + p == p;
      StripOfStripped(p);
    } else {
      var s := lead + p;
      assert IsSpace(s[0]) && s[1] == p[0];
      assert Lead(s) == 1;
      assert s[|s| - 1] == p[|p| - 1];
      assert Trail(s) == 0;
      assert s[1..|s|] == p;
    }
  }

  lemma NonBlankCons(x: string, xs: seq<string>)
    ensures NonBlank([x] + xs) == (if Strip(x) != [] then [Strip(x)] else []) + NonBlank(xs)
  {
    assert ([x] + xs)[1..] == xs;
  }

  /** A terminator after a plain stretch ends one piece. */
  lemma PiecesCons(q: string, rest: string)
    requires Plain(q)
    requires rest == [] || !IsTerminal(rest[0])
    ensures Pieces(q + "." + rest) == (if Strip(q) != [] then [Strip(q)] else []) + Pieces(rest)
  {
    SplitCons(q, rest);
    NonBlankCons(q, SplitSentences(rest));
  }

  lemma PlainLead(lead: string, p: string)
    requires lead == "" || lead == " "
    requires Plain(p)
    ensures Plain(lead + p)
  {
    assert forall i :: 0 <= i < |p| ==> (lead + p)[|lead| + i] == p[i];
  }

  /**
   * Splitting sentences joined with ". " and followed by a terminator gives the sentences
   * back, followed by whatever the remainder splits into.
   */
  lemma {:induction false} PiecesJoined(lead: string, ps: seq<string>, end: string)
    requires lead == "" || lead == " "
    requires ps != []
    requires Sentences(ps)
    requires end != [] && end[0] == '.' && (|end| == 1 || !IsTerminal(end[1]))
    ensures Pieces(lead + Join(". ", ps) + end) == ps + Pieces(end[1..])
    decreases |ps|
  {
    var p := ps[0];
    var x := Pieces(end[1..]);
    var s := lead + Join(". ", ps) + end;
    HeadTail(ps);
    if |ps| == 1 {
      DotFirst(lead, ps, end);
      PiecesStep(s, lead, p, end[1..], [], x, ps);
    } else {
      var tail := " " + Join(". ", ps[1..]) + end;
      DotSpaceFirst(lead, ps, end);
      PiecesJoined(" ", ps[1..], end);
      PiecesStep(s, lead, p, tail, ps[1..], x, ps);
    }
  }

  lemma DotFirst(lead: string, ps: seq<string>, end: string)
    requires |ps| == 1 && end != [] && end[0] == '.'
    ensures lead + Join(". ", ps) + end == (lead + ps[0]) + "." + end[1..]
  {
    assert end == "." + end[1..];
  }

  lemma DotSpaceFirst(lead: string, ps: seq<string>, end: string)
    requires |ps| > 1
    ensures lead + Join(". ", ps) + end == (lead + ps[0]) + "." + (" " + Join(". ", ps[1..]) + end)
  {
    var more := Join(". ", ps[1..]);
    assert Join(". ", ps) == ps[0] + ". " + more;
    DotSpace(lead, ps[0], more, end);
  }

  lemma DotSpace(lead: string, p: string, more: string, end: string)
    ensures lead + (p + ". " + more) + end == (lead + p) + "." + (" " + more + end)
  {
  }

  /** One step of the round trip: a leading sentence and its terminator. */
  lemma PiecesStep(s: string, lead: string, p: string, tail: string, rest: seq<string>, x: seq<string>, ps: seq<string>)
    requires lead == "" || lead == " "
    requires Sentence(p)
    requires s == (lead + p) + "." + tail
    requires tail == [] || !IsTerminal(tail[0])
    requires Pieces(tail) == rest + x
    requires ps == [p] + rest
    ensures Pieces(s) == ps + x
  {
    StripLead(lead, p);
    PlainLead(lead, p);
    PiecesCons(lead + p, tail);
    ConsAssoc(p, rest, x);
  }

  lemma HeadTail<T>(ps: seq<T>)
    requires ps != []
    ensures [ps[0]] + ps[1..] == ps
  {
  }

  lemma ConsAssoc<T>(a: T, b: seq<T>, c: seq<T>)
    ensures [a] + (b + c) == ([a] + b) + c
  {
  }

  lemma DotSpaceDrop(t: string)
    ensures (". " + t)[1..] == " " + t
  {
  }

  lemma NoLead(x: string)
    ensures "" + x == x
  {
  }

  /** Round trip: joining sentences and splitting the result gives the sentences back. */
  lemma PiecesOfJoined(ps: seq<string>)
    requires ps != []
    requires Sentences(ps)
    ensures Pieces(Join(". ", ps) + ".") == ps
  {
    PiecesJoined("", ps, ".");
    NoLead(Join(". ", ps));
    assert "."[1..] == "";
    assert SplitSentences("") == [""];
  }

  /** Splitting sentences joined with ". " and an unterminated last one gives all of them. */
  lemma PiecesWithTail(ps: seq<string>, tail: string)
    requires ps != []
    requires Sentences(ps)
    requires Sentence(tail)
    ensures Pieces(Join(". ", ps) + (". " + tail)) == ps + [tail]
  {
    var j := Join(". ", ps);
    var e := ". " + tail;
    assert Pieces(j + e) == ps + Pieces(e[1..]) by {
      PiecesJoined("", ps, e);
      NoLead(j);
    }
    PiecesAfterDot(tail);
  }

  lemma PiecesAfterDot(tail: string)
    requires Sentence(tail)
    ensures Pieces((". " + tail)[1..]) == [tail]
  {
    DotSpaceDrop(tail);
    PlainLead(" ", tail);
    SplitPlain(" " + tail);
    StripLead(" ", tail);
    NonBlankCons(" " + tail, []);
  }

  /** A short unterminated last sentence is cut off and the rest closed with a period. */
  lemma ShortTailDropped(ps: seq<string>, tail: string)
    requires ps != []
    requires Sentences(ps)
    requires Sentence(tail) && |tail| < 10
    ensures EnsureCompleteSentences(Join(". ", ps) + ". " + tail) == Join(". ", ps) + "."
  {
    var text := Join(". ", ps) + ". " + tail;
    assert text == Join(". ", ps) + (". " + tail);
    PiecesWithTail(ps, tail);
    assert (ps + [tail])[..|ps|] == ps;
    assert Survivors(text) == ps;
    JoinedIdle(ps);
  }

  /** Text that is already a run of long-enough complete sentences is left as it is. */
  lemma CompleteIdle(ps: seq<string>)
    requires ps != []
    requires Sentences(ps)
    requires |ps[|ps| - 1]| >= 10
    ensures EnsureCompleteSentences(Join(". ", ps) + ".") == Join(". ", ps) + "."
  {
    PiecesOfJoined(ps);
    JoinedIdle(ps);
  }

  /**
   * A second pass changes the text exactly when it drops another short sentence: when at
   * least two sentences survived the first pass and the last of them is under ten characters.
   */
  lemma IdempotentIff(text: string)
    ensures var kept := Survivors(text);
      EnsureCompleteSentences(EnsureCompleteSentences(text)) == EnsureCompleteSentences(text)
      <==> (|kept| <= 1 || |kept[|kept| - 1]| >= 10)
  {
    var kept := Survivors(text);
    var r := EnsureCompleteSentences(text);
    if kept != [] {
      assert Pieces(r) == kept;
      assert Survivors(r) == DropShortLast(kept);
      var r2 := EnsureCompleteSentences(r);
      if |kept| >= 2 && |kept[|kept| - 1]| < 10 {
        assert Survivors(r) == kept[..|kept| - 1];
        assert Pieces(r2) == kept[..|kept| - 1];
        assert r2 != r by {
          assert |Pieces(r2)| != |Pieces(r)|;
        }
      } else if |kept[|kept| - 1]| >= 10 {
        assert Survivors(r) == kept;
      } else {
        assert Survivors(r) == [];
      }
    }
  }

  /** The worked example: a short fragment after the last full stop is dropped. */
  lemma FragmentExample()
    ensures EnsureCompleteSentences("This is fine. Short") == "This is fine."
  {
    var p := "This is fine";
    assert Sentence(p);
    assert Sentence("Short");
    assert Join(". ", [p]) == p;
    assert p + ". " + "Short" == "This is fine. Short";
    ShortTailDropped([p], "Short");
  }
}

=== FILE: text_utils.dfy ===
/**
 * The text normalisers of `text_utils.py`: the speech-safety cleaner, the citation stripper
 * for generated summaries, the URL-preserving cleaner, the length-capped metadata sanitiser
 * and the sentence-completion pass.
 */
module TextUtils {
  import opened PyStr

  // ---------------------------------------------------------------------------------------
  // clean_text_for_speech
  // ---------------------------------------------------------------------------------------

  /** The symbols the replacement list names before its quotes, one pattern each. */
  const SymbolsBefore: string :=
    "*/\\`~^|<>{}[]\U{A7}\U{B6}\U{2020}\U{2021}\U{2022}\U{25E6}\U{25AA}\U{25AB}\U{2013}\U{2014}"

  /** The symbols the replacement list names after its quotes. */
  const SymbolsAfter: string :=
    "\U{2026}\U{A1}\U{BF}\U{AB}\U{BB}\U{2039}\U{203A}\U{20AC}\U{A3}\U{A5}\U{A9}\U{AE}\U{2122}"

  /** The typographic quotes ‘ ’ “ ”. */
  const TypographicQuotes: string := "\U{2018}\U{2019}\U{201C}\U{201D}"

  /** One single-character pattern per character of `s`. */
  function Singles(s: string): (ps: seq<string>)
    ensures |ps| == |s|
    ensures forall i :: 0 <= i < |s| ==> ps[i] == [s[i]]
  {
    seq(|s|, i requires 0 <= i < |s| => [s[i]])
  }

  /**
   * The replacement list exactly as Python reads it. Where the four typographic quotes were
   * meant, the literal `''', '''` is one triple-quoted string holding a comma and a space,
   * and two straight double quotes follow it.
   */
  const AsWrittenPatterns: seq<string> :=
    Singles(SymbolsBefore) + [", ", "\"", "\""] + Singles(SymbolsAfter)

  /** The replacement list as evidently intended: the typographic quotes one by one. */
  const IntendedPatterns: seq<string> := Singles(SymbolsBefore + TypographicQuotes + SymbolsAfter)

  /** Replacement patterns are non-empty and never a lone space. */
  predicate ValidPatterns(patterns: seq<string>) {
    forall p :: p in patterns ==> |p| > 0 && p != " "
  }

  /** `c` is one of the single characters the list replaces. */
  predicate Listed(c: char, patterns: seq<string>) {
    [c] in patterns
  }

  /** `for char in patterns: text = text.replace(char, ' ')` */
  function ReplaceEach(s: string, patterns: seq<string>): string
    requires ValidPatterns(patterns)
    decreases |patterns|
  {
    if patterns == [] then s else ReplaceEach(ReplaceAll(s, patterns[0], " "), patterns[1..])
  }

  /** The characters the class `[^\w\s\.,!?;:()\-\'\"&@#%]` does NOT match. */
  predicate Kept(c: char) {
    IsWordChar(c) || IsSpace(c) || c in ".,!?;:()-'\"&@#%"
  }

  /** `re.sub(r'[^\w\s\.,!?;:()\-\'\"&@#%]', ' ', s)` */
  function BlankSymbols(s: string): (r: string)
    ensures |r| == |s|
    ensures forall i :: 0 <= i < |s| ==> r[i] == if Kept(s[i]) then s[i] else ' '
  {
    if s == [] then [] else [if Kept(s[0]) then s[0] else ' '] + BlankSymbols(s[1..])
  }

  /**
   * Index of the first occurrence of `d` at or after `i` with no line break between `i` and
   * it, or `|s|`: where the lazy `(.*?)` of `d(.*?)d` stops (`.` does not match a newline).
   */
  function NextDelim(s: string, i: nat, d: string): (k: nat)
    requires |d| > 0 && i <= |s|
    ensures i <= k <= |s|
    ensures k < |s| ==> StartsAt(s, k, d)
    ensures k < |s| ==> forall j :: i <= j < k ==> s[j] != '\n' && !StartsAt(s, j, d)
    decreases |s| - i
  {
    if i + |d| > |s| then |s|
    else if s[i..i + |d|] == d then i
    else if s[i] == '\n' then |s|
    else NextDelim(s, i + 1, d)
  }

  /** `s` opens with `d` and a partner for it follows on the same line. */
  predicate Opens(s: string, d: string)
    requires |d| > 0
  {
    StartsAt(s, 0, d) && NextDelim(s, |d|, d) < |s|
  }

  /** `re.sub(r'D(.*?)D', r'\1', s)` for the literal delimiter `D`. */
  function PairStrip(s: string, d: string): string
    requires |d| > 0
    decreases |s|
  {
    if s == [] then []
    else if Opens(s, d) then
      var e := NextDelim(s, |d|, d);
      s[|d|..e] + PairStrip(s[e + |d|..], d)
    else [s[0]] + PairStrip(s[1..], d)
  }

  /** `re.sub(r'\\[a-zA-Z]', '', s)` */
  function DropBackslashLetter(s: string): string
    decreases |s|
  {
    if s == [] then []
    else if |s| >= 2 && s[0] == '\\' && IsAsciiLetter(s[1]) then DropBackslashLetter(s[2..])
    else [s[0]] + DropBackslashLetter(s[1..])
  }

  /** `re.sub(r'\\\w+', '', s)` */
  function DropBackslashWord(s: string): string
    decreases |s|
  {
    if s == [] then []
    else if s[0] == '\\' && Run(s[1..], IsWordChar) > 0 then
      DropBackslashWord(s[1 + Run(s[1..], IsWordChar)..])
    else [s[0]] + DropBackslashWord(s[1..])
  }

  /** `clean_text_for_speech`, parameterised by its replacement list. */
  function CleanWith(text: string, patterns: seq<string>): string
    requires ValidPatterns(patterns)
  {
    if text == [] then [] else Finish(ReplaceEach(text, patterns))
  }

  /** The stages after the replacement list, from the symbol blanking to the final strip. */
  function Finish(replaced: string): string {
    var unmarked := Unmark(Collapse(BlankSymbols(replaced)));
    Strip(DropBackslashWord(DropBackslashLetter(unmarked)))
  }

  /** The five markdown substitutions, in source order. */
  function Unmark(s: string): string {
    PairStrip(PairStrip(PairStrip(PairStrip(PairStrip(s, "**"), "*"), "__"), "_"), "`")
  }

  /** A character the cleaner may emit. */
  predicate SpeechSafe(c: char, patterns: seq<string>) {
    Kept(c) && !Listed(c, patterns) && (IsSpace(c) ==> c == ' ')
  }

  ghost predicate AllSafe(s: string, patterns: seq<string>) {
    forall i :: 0 <= i < |s| ==> SpeechSafe(s[i], patterns)
  }

  /**
   * `clean_text_for_speech` with the intended replacement list: the result is empty for
   * empty input, stripped, single-line, free of every listed character and of every
   * character outside the kept class, and it keeps every comma of the input.
   */
  function CleanTextForSpeech(text: string): (r: string)
    ensures text == [] ==> r == []
    ensures Stripped(r)
    ensures forall i :: 0 <= i < |r| ==> SpeechSafe(r[i], IntendedPatterns)
    ensures multiset(r)[','] == multiset(text)[',']
  {
    IntendedFacts();
    CleanSafe(text, IntendedPatterns);
    CleanKeepsCommas(text);
    CleanWith(text, IntendedPatterns)
  }

  /** `clean_text_for_speech` exactly as written, comma-space pattern included. */
  function CleanTextForSpeechAsWritten(text: string): (r: string)
    ensures text == [] ==> r == []
    ensures Stripped(r)
    ensures forall i :: 0 <= i < |r| ==> SpeechSafe(r[i], AsWrittenPatterns)
  {
    AsWrittenFacts();
    CleanSafe(text, AsWrittenPatterns);
    CleanWith(text, AsWrittenPatterns)
  }

  /**
   * Neither list decides the fate of the typographic quotes: both cleaners blank them, the
   * as-written one through the character-class rule, which keeps no general punctuation.
   */
  lemma QuotesBlanked(text: string, c: char)
    requires c in TypographicQuotes
    ensures c !in CleanTextForSpeech(text) && c !in CleanTextForSpeechAsWritten(text)
  {
    assert !Kept(c);
    var r := CleanTextForSpeech(text);
    var q := CleanTextForSpeechAsWritten(text);
    forall i | 0 <= i < |r| ensures r[i] != c {
      assert SpeechSafe(r[i], IntendedPatterns);
    }
    forall i | 0 <= i < |q| ensures q[i] != c {
      assert SpeechSafe(q[i], AsWrittenPatterns);
    }
  }

  // ---- proofs about the cleaner ----

  lemma {:induction false} ReplaceAllDrawn(s: string, pat: string)
    requires |pat| > 0
    ensures Drawn(ReplaceAll(s, pat, " "), s)
    decreases |s|
  {
    var r := ReplaceAll(s, pat, " ");
    if |s| < |pat| {
    } else {
      var n := if s[..|pat|] == pat then |pat| else 1;
      var head := if s[..|pat|] == pat then " " else [s[0]];
      var rest := ReplaceAll(s[n..], pat, " ");
      ReplaceAllDrawn(s[n..], pat);
      assert r == head + rest;
      forall i | 0 <= i < |r| && r[i] != ' ' ensures r[i] in s {
        if i == 0 {
          assert r[0] == s[0];
        } else {
          assert r[i] == rest[i - 1];
          var j :| 0 <= j < |s[n..]| && s[n..][j] == rest[i - 1];
          assert s[n + j] == r[i];
        }
      }
    }
  }

  lemma {:induction false} ReplaceAllRemoves(s: string, c: char)
    requires c != ' '
    ensures c !in ReplaceAll(s, [c], " ")
    decreases |s|
  {
    if |s| >= 1 {
      ReplaceAllRemoves(s[1..], c);
    }
  }

  lemma {:induction false} ReplaceAllCount(s: string, pat: string, rep: string, x: char)
    requires |pat| > 0 && x !in pat && x !in rep
    ensures multiset(ReplaceAll(s, pat, rep))[x] == multiset(s)[x]
    decreases |s|
  {
    if |s| >= |pat| {
      if s[..|pat|] == pat {
        ReplaceAllCount(s[|pat|..], pat, rep, x);
        assert forall k :: 0 <= k < |pat| ==> s[k] == pat[k];
        CountSkip(s, |pat|, x);
        assert multiset(rep)[x] == 0;
      } else {
        ReplaceAllCount(s[1..], pat, rep, x);
        CountCons(s, ReplaceAll(s, pat, rep), ReplaceAll(s[1..], pat, rep), x);
      }
    }
  }

  lemma {:induction false} ReplaceEachSpec(s: string, patterns: seq<string>)
    requires ValidPatterns(patterns)
    ensures Drawn(ReplaceEach(s, patterns), s)
    ensures forall c :: Listed(c, patterns) ==> c !in ReplaceEach(s, patterns)
    decreases |patterns|
  {
    if patterns == [] {
      forall i | 0 <= i < |s| ensures s[i] in s {}
    } else {
      var m := ReplaceAll(s, patterns[0], " ");
      var r := ReplaceEach(m, patterns[1..]);
      ReplaceAllDrawn(s, patterns[0]);
      ReplaceEachSpec(m, patterns[1..]);
      DrawnTrans(r, m, s);
      forall c | Listed(c, patterns) ensures c !in r {
        if [c] == patterns[0] {
          ReplaceAllRemoves(s, c);
          forall i | 0 <= i < |r| ensures r[i] != c {
            assert r[i] == ' ' || r[i] in m;
          }
        } else {
          assert [c] in patterns[1..];
        }
      }
    }
  }

  lemma {:induction false} ReplaceEachCount(s: string, patterns: seq<string>, x: char)
    requires ValidPatterns(patterns)
    requires forall p :: p in patterns ==> x !in p
    requires x != ' '
    ensures multiset(ReplaceEach(s, patterns))[x] == multiset(s)[x]
    decreases |patterns|
  {
    if patterns != [] {
      ReplaceAllCount(s, patterns[0], " ", x);
      ReplaceEachCount(ReplaceAll(s, patterns[0], " "), patterns[1..], x);
    }
  }

  lemma {:induction false} BlankSymbolsCount(s: string, x: char)
    requires Kept(x) && x != ' '
    ensures multiset(BlankSymbols(s))[x] == multiset(s)[x]
  {
    if s != [] {
      var h := if Kept(s[0]) then s[0] else ' ';
      BlankSymbolsCount(s[1..], x);
      assert h == x <==> s[0] == x;
      CountCons(s, BlankSymbols(s), BlankSymbols(s[1..]), x);
    }
  }

  lemma {:induction false} PairStripSubseq(s: string, d: string)
    requires |d| > 0
    ensures Drawn(PairStrip(s, d), s)
    decreases |s|
  {
    if s == [] {
    } else if Opens(s, d) {
      var e := NextDelim(s, |d|, d);
      PairStripSubseq(s[e + |d|..], d);
      PairStripOpened(s, d);
      DrawnStep(s, |d|, e, e + |d|, PairStrip(s, d), PairStrip(s[e + |d|..], d));
    } else {
      PairStripSubseq(s[1..], d);
      PairStripUnopened(s, d);
      DrawnStep(s, 0, 1, 1, PairStrip(s, d), PairStrip(s[1..], d));
    }
  }

  lemma PairStripOpened(s: string, d: string)
    requires |d| > 0 && Opens(s, d)
    ensures var e := NextDelim(s, |d|, d);
      e + |d| <= |s| && PairStrip(s, d) == s[|d|..e] + PairStrip(s[e + |d|..], d)
  {
  }

  lemma PairStripUnopened(s: string, d: string)
    requires |d| > 0 && s != [] && !Opens(s, d)
    ensures PairStrip(s, d) == s[0..1] + PairStrip(s[1..], d)
  {
    assert [s[0]] == s[0..1];
  }

  /** A matched pair splits its input into delimiter, inner text, delimiter and the rest. */
  lemma OpensSplit(s: string, d: string)
    requires |d| > 0 && Opens(s, d)
    ensures var e := NextDelim(s, |d|, d);
            s == d + s[|d|..e] + d + s[e + |d|..]
  {
    FourParts(s, NextDelim(s, |d|, d), d);
  }

  lemma FourParts(s: string, e: nat, d: string)
    requires |d| <= e && e + |d| <= |s|
    requires s[..|d|] == d && s[e..e + |d|] == d
    ensures s == d + s[|d|..e] + d + s[e + |d|..]
  {
    assert s[..e] == s[..|d|] + s[|d|..e];
    assert s[e..] == s[e..e + |d|] + s[e + |d|..];
    assert s == s[..e] + s[e..];
  }

  lemma CountAround(d: string, mid: string, tail: string, x: char)
    requires x !in d
    ensures multiset(d + mid + d + tail)[x] == multiset(mid)[x] + multiset(tail)[x]
  {
    assert multiset(d)[x] == 0;
    assert multiset(d + mid + d + tail) == multiset(d) + multiset(mid) + multiset(d) + multiset(tail);
  }

  lemma {:induction false} PairStripCount(s: string, d: string, x: char)
    requires |d| > 0 && x !in d
    ensures multiset(PairStrip(s, d))[x] == multiset(s)[x]
    decreases |s|
  {
    if s == [] {
    } else if Opens(s, d) {
      var e := NextDelim(s, |d|, d);
      var mid := s[|d|..e];
      var tail := s[e + |d|..];
      OpensSplit(s, d);
      PairStripCount(tail, d, x);
      CountAround(d, mid, tail, x);
      assert PairStrip(s, d) == mid + PairStrip(tail, d);
    } else {
      PairStripCount(s[1..], d, x);
      assert PairStrip(s, d) == [s[0]] + PairStrip(s[1..], d);
      CountCons(s, PairStrip(s, d), PairStrip(s[1..], d), x);
    }
  }

  lemma {:induction false} PairStripAbsent(s: string, d: string)
    requires |d| > 0 && d[0] !in s
    ensures PairStrip(s, d) == s
    decreases |s|
  {
    if s != [] {
      assert s[0] != d[0];
      PairStripAbsent(s[1..], d);
    }
  }

  lemma {:induction false} DropBackslashAbsent(s: string)
    requires '\\' !in s
    ensures DropBackslashLetter(s) == s && DropBackslashWord(s) == s
  {
    if s != [] {
      DropBackslashAbsent(s[1..]);
    }
  }

  lemma SafeDrawn(r: string, s: string, patterns: seq<string>)
    requires AllSafe(s, patterns) && Drawn(r, s) && SpeechSafe(' ', patterns)
    ensures AllSafe(r, patterns)
  {
    forall i | 0 <= i < |r| ensures SpeechSafe(r[i], patterns) {
      if r[i] != ' ' {
        var j :| 0 <= j < |s| && s[j] == r[i];
      }
    }
  }

  lemma UnmarkDrawn(s: string)
    ensures Drawn(Unmark(s), s)
  {
    var t1 := PairStrip(s, "**");
    var t2 := PairStrip(t1, "*");
    var t3 := PairStrip(t2, "__");
    var t4 := PairStrip(t3, "_");
    var t5 := PairStrip(t4, "`");
    PairStripSubseq(s, "**");
    PairStripSubseq(t1, "*");
    PairStripSubseq(t2, "__");
    PairStripSubseq(t3, "_");
    PairStripSubseq(t4, "`");
    DrawnTrans(t2, t1, s);
    DrawnTrans(t3, t2, s);
    DrawnTrans(t4, t3, s);
    DrawnTrans(t5, t4, s);
  }

  lemma BlankedSafe(replaced: string, patterns: seq<string>)
    requires forall c :: Listed(c, patterns) ==> c !in replaced
    requires !Listed(' ', patterns)
    ensures forall i :: 0 <= i < |BlankSymbols(replaced)| ==>
              Kept(BlankSymbols(replaced)[i]) && !Listed(BlankSymbols(replaced)[i], patterns)
  {
    var blanked := BlankSymbols(replaced);
    forall i | 0 <= i < |blanked|
      ensures Kept(blanked[i]) && !Listed(blanked[i], patterns)
    {
      if blanked[i] != ' ' {
        assert blanked[i] == replaced[i];
        assert blanked[i] in replaced;
      }
    }
  }

  lemma CollapsedSafe(blanked: string, patterns: seq<string>)
    requires forall i :: 0 <= i < |blanked| ==> Kept(blanked[i]) && !Listed(blanked[i], patterns)
    requires !Listed(' ', patterns)
    ensures AllSafe(Collapse(blanked), patterns)
  {
    var collapsed := Collapse(blanked);
    CollapseSingleSpaced(blanked);
    CollapseDrawn(blanked);
    forall i | 0 <= i < |collapsed| ensures SpeechSafe(collapsed[i], patterns) {
      if collapsed[i] != ' ' {
        var j :| 0 <= j < |blanked| && blanked[j] == collapsed[i];
      }
    }
  }

  /** What every stage after the whitespace collapse does: it only removes characters. */
  lemma TailStagesDrawn(collapsed: string)
    requires '\\' !in collapsed
    ensures var unmarked := Unmark(collapsed);
            '\\' !in unmarked
            && DropBackslashWord(DropBackslashLetter(unmarked)) == unmarked
            && Drawn(Strip(unmarked), collapsed)
  {
    var unmarked := Unmark(collapsed);
    UnmarkDrawn(collapsed);
    forall i | 0 <= i < |unmarked| ensures unmarked[i] != '\\' {
      assert unmarked[i] == ' ' || unmarked[i] in collapsed;
    }
    DropBackslashAbsent(unmarked);
    StripDrawn(unmarked);
    DrawnTrans(Strip(unmarked), unmarked, collapsed);
  }

  lemma CleanSafe(text: string, patterns: seq<string>)
    requires ValidPatterns(patterns)
    requires Listed('\\', patterns)
    ensures AllSafe(CleanWith(text, patterns), patterns)
  {
    if text != [] {
      var replaced := ReplaceEach(text, patterns);
      var blanked := BlankSymbols(replaced);
      var collapsed := Collapse(blanked);
      ReplaceEachSpec(text, patterns);
      assert !Listed(' ', patterns);
      BlankedSafe(replaced, patterns);
      CollapsedSafe(blanked, patterns);
      assert '\\' !in collapsed;
      TailStagesDrawn(collapsed);
      SafeDrawn(Strip(Unmark(collapsed)), collapsed, patterns);
    }
  }

  lemma SinglesFacts(s: string)
    requires ' ' !in s
    ensures ValidPatterns(Singles(s))
    ensures forall c :: Listed(c, Singles(s)) <==> c in s
  {
    var ps := Singles(s);
    forall c | c in s ensures Listed(c, ps) {
      var i :| 0 <= i < |s| && s[i] == c;
      assert ps[i] == [c];
    }
  }

  lemma IntendedFacts()
    ensures ValidPatterns(IntendedPatterns)
    ensures Listed('\\', IntendedPatterns)
    ensures forall p :: p in IntendedPatterns ==> ',' !in p
  {
    var all := SymbolsBefore + TypographicQuotes + SymbolsAfter;
    BeforeLacksPunctuation();
    AfterLacksPunctuation();
    assert ' ' !in all && ',' !in all;
    assert all[2] == '\\';
    SinglesFacts(all);
    forall p | p in IntendedPatterns ensures ',' !in p {
      var i :| 0 <= i < |all| && p == [all[i]];
    }
  }

  lemma AsWrittenFacts()
    ensures ValidPatterns(AsWrittenPatterns)
    ensures Listed('\\', AsWrittenPatterns)
  {
    AsWrittenValid();
    AsWrittenBackslash();
  }

  lemma AsWrittenValid()
    ensures ValidPatterns(AsWrittenPatterns)
  {
    var quotes: seq<string> := [", ", "\"", "\""];
    assert ' ' !in SymbolsBefore;
    assert ' ' !in SymbolsAfter;
    SinglesFacts(SymbolsBefore);
    SinglesFacts(SymbolsAfter);
    ValidConcat(Singles(SymbolsBefore), quotes);
    ValidConcat(Singles(SymbolsBefore) + quotes, Singles(SymbolsAfter));
  }

  lemma AsWrittenBackslash()
    ensures Listed('\\', AsWrittenPatterns)
  {
    assert SymbolsBefore[2] == '\\';
    assert AsWrittenPatterns[2] == "\\";
  }

  lemma ValidConcat(a: seq<string>, b: seq<string>)
    requires ValidPatterns(a) && ValidPatterns(b)
    ensures ValidPatterns(a + b)
  {
    forall p | p in a + b ensures |p| > 0 && p != " " {
      var i :| 0 <= i < |a + b| && (a + b)[i] == p;
      if i < |a| {
        assert a[i] == p;
      } else {
        assert b[i - |a|] == p;
      }
    }
  }

  lemma UnmarkCount(s: string, x: char)
    requires x !in "*_`"
    ensures multiset(Unmark(s))[x] == multiset(s)[x]
  {
    var t1 := PairStrip(s, "**");
    var t2 := PairStrip(t1, "*");
    var t3 := PairStrip(t2, "__");
    var t4 := PairStrip(t3, "_");
    PairStripCount(s, "**", x);
    PairStripCount(t1, "*", x);
    PairStripCount(t2, "__", x);
    PairStripCount(t3, "_", x);
    PairStripCount(t4, "`", x);
  }

  lemma CleanKeepsCommas(text: string)
    ensures ValidPatterns(IntendedPatterns)
    ensures multiset(CleanWith(text, IntendedPatterns))[','] == multiset(text)[',']
  {
    IntendedFacts();
    if text != [] {
      var replaced := ReplaceEach(text, IntendedPatterns);
      ReplaceEachCount(text, IntendedPatterns, ',');
      ReplaceEachSpec(text, IntendedPatterns);
      assert '\\' !in replaced;
      CommaKept();
      FinishCount(replaced, ',');
    }
  }

  /** The comma is kept, is not whitespace and is not markup. */
  lemma CommaKept()
    ensures Kept(',') && !IsSpace(',') && ',' !in "*_`\\"
  {
  }

  /** The stages after the replacement list keep every kept, non-markup, non-space character. */
  lemma FinishCount(replaced: string, x: char)
    requires '\\' !in replaced
    requires Kept(x) && !IsSpace(x) && x !in "*_`\\"
    ensures multiset(Finish(replaced))[x] == multiset(replaced)[x]
  {
    var blanked := BlankSymbols(replaced);
    var collapsed := Collapse(blanked);
    var unmarked := Unmark(collapsed);
    BlankSymbolsCount(replaced, x);
    assert '\\' !in blanked by {
      forall i | 0 <= i < |blanked| ensures blanked[i] != '\\' {
        assert blanked[i] == ' ' || blanked[i] == replaced[i];
      }
    }
    CollapseNonSpace(blanked);
    NonSpaceCount(blanked, x);
    NonSpaceCount(collapsed, x);
    CollapseDrawn(blanked);
    assert '\\' !in collapsed by {
      forall i | 0 <= i < |collapsed| ensures collapsed[i] != '\\' {
        assert collapsed[i] == ' ' || collapsed[i] in blanked;
      }
    }
    UnmarkCount(collapsed, x);
    TailStagesDrawn(collapsed);
    StripNonSpace(unmarked);
    NonSpaceCount(unmarked, x);
    NonSpaceCount(Strip(unmarked), x);
  }

  // ---- clean text is a fixpoint; the comma-space pattern breaks that ----

  /** Text the cleaner has nothing to do to: safe, single-spaced, stripped, no underscore. */
  ghost predicate SpeechClean(s: string) {
    AllSafe(s, IntendedPatterns) && SingleSpaced(s) && Stripped(s) && '_' !in s
  }

  lemma {:induction false} ReplaceAllAbsent(s: string, pat: string, rep: string)
    requires |pat| > 0 && pat[0] !in s
    ensures ReplaceAll(s, pat, rep) == s
    decreases |s|
  {
    if |s| >= |pat| {
      assert s[0] != pat[0];
      ReplaceAllAbsent(s[1..], pat, rep);
      assert s == [s[0]] + s[1..];
    }
  }

  lemma {:induction false} ReplaceEachAbsent(s: string, patterns: seq<string>)
    requires ValidPatterns(patterns)
    requires forall p :: p in patterns ==> p[0] !in s
    ensures ReplaceEach(s, patterns) == s
    decreases |patterns|
  {
    if patterns != [] {
      ReplaceAllAbsent(s, patterns[0], " ");
      ReplaceEachAbsent(s, patterns[1..]);
    }
  }

  /** Running the list `a + b` is running `a`, then `b`. */
  lemma {:induction false} ReplaceEachConcat(s: string, a: seq<string>, b: seq<string>)
    requires ValidPatterns(a) && ValidPatterns(b)
    ensures ValidPatterns(a + b)
    ensures ReplaceEach(s, a + b) == ReplaceEach(ReplaceEach(s, a), b)
    decreases |a|
  {
    ValidConcat(a, b);
    if a != [] {
      assert (a + b)[1..] == a[1..] + b;
      ReplaceEachConcat(ReplaceAll(s, a[0], " "), a[1..], b);
    } else {
      assert a + b == b;
    }
  }

  lemma BlankSymbolsOfKept(s: string)
    requires forall i :: 0 <= i < |s| ==> Kept(s[i])
    ensures BlankSymbols(s) == s
  {
  }

  /** Single-spaced text of kept characters without markup only loses its edge spaces. */
  lemma FinishOfClean(s: string)
    requires forall i :: 0 <= i < |s| ==> Kept(s[i])
    requires SingleSpaced(s)
    requires '*' !in s && '_' !in s && '`' !in s && '\\' !in s
    ensures Finish(s) == Strip(s)
  {
    BlankSymbolsOfKept(s);
    CollapseOfSingleSpaced(s);
    PairStripAbsent(s, "**");
    PairStripAbsent(s, "*");
    PairStripAbsent(s, "__");
    PairStripAbsent(s, "_");
    PairStripAbsent(s, "`");
    DropBackslashAbsent(s);
  }

  /**
   * With the intended list, single-spaced text of characters the cleaner may emit, without
   * underscores, is only stripped.
   */
  lemma CleanOfSafe(s: string)
    requires AllSafe(s, IntendedPatterns) && SingleSpaced(s) && '_' !in s
    ensures CleanTextForSpeech(s) == Strip(s)
  {
    IntendedFacts();
    IntendedAbsent(s);
    ReplaceEachAbsent(s, IntendedPatterns);
    MarkupListed();
    FinishOfClean(s);
  }

  /** No intended pattern occurs in text made of safe characters. */
  lemma IntendedAbsent(s: string)
    requires AllSafe(s, IntendedPatterns)
    ensures forall p :: p in IntendedPatterns ==> |p| > 0 && p[0] !in s
  {
    var all := SymbolsBefore + TypographicQuotes + SymbolsAfter;
    forall p | p in IntendedPatterns ensures |p| > 0 && p[0] !in s {
      var i :| 0 <= i < |IntendedPatterns| && IntendedPatterns[i] == p;
      assert p == [all[i]];
      assert Listed(all[i], IntendedPatterns);
    }
  }

  /** The markup characters `*`, backtick and backslash are all on the intended list. */
  lemma MarkupListed()
    ensures Listed('*', IntendedPatterns) && Listed('`', IntendedPatterns)
    ensures Listed('\\', IntendedPatterns)
  {
    var all := SymbolsBefore + TypographicQuotes + SymbolsAfter;
    assert all[0] == '*' && all[3] == '`' && all[2] == '\\';
    assert IntendedPatterns[0] == ['*'] && IntendedPatterns[3] == ['`'];
    assert IntendedPatterns[2] == ['\\'];
  }

  /** Cleaned text without underscores is a fixpoint of the cleaner. */
  lemma CleanFixpoint(s: string)
    requires SpeechClean(s)
    ensures CleanTextForSpeech(s) == s
  {
    CleanOfSafe(s);
    StripOfStripped(s);
  }

  /** The text "a, b", character by character. */
  predicate CommaText(s: string) {
    |s| == 4 && s[0] == 'a' && s[1] == ',' && s[2] == ' ' && s[3] == 'b'
  }

  /** The text "a b", character by character. */
  predicate SpacedText(t: string) {
    |t| == 3 && t[0] == 'a' && t[1] == ' ' && t[2] == 'b'
  }

  /** "a, b" is clean text; the cleaner as written still rewrites it to "a b". */
  lemma CommaSpaceDropped(s: string)
    requires CommaText(s)
    ensures SpeechClean(s)
    ensures CleanTextForSpeech(s) == s
    ensures SpacedText(CleanTextForSpeechAsWritten(s))
  {
    CommaSpaceClean(s);
    CleanFixpoint(s);
    DropComma(s);
    AsWrittenExample(s, s[..1] + s[2..]);
  }

  /** The text "a,*b", character by character. */
  predicate StarText(s: string) {
    |s| == 4 && s[0] == 'a' && s[1] == ',' && s[2] == '*' && s[3] == 'b'
  }

  /**
   * The comma-space pattern also fires on a comma that an earlier entry of the list has
   * spaced: "a,*b" holds no space and no straight quote, yet the cleaner as written turns
   * it into "a b", where the intended one keeps the comma and gives "a, b".
   */
  lemma StarCommaDropped(s: string, u: string, t: string)
    requires StarText(s) && CommaText(u) && SpacedText(t)
    ensures ' ' !in s && '"' !in s
    ensures CleanTextForSpeech(s) == u
    ensures CleanTextForSpeechAsWritten(s) == t
  {
    StarPlain(s);
    StarIntended(s, u);
    StarAsWritten(s, u, t);
  }

  lemma StarPlain(s: string)
    requires StarText(s)
    ensures ' ' !in s && '"' !in s
  {
  }

  /** The first list entry, `*`, turns "a,*b" into "a, b". */
  lemma StarBlanked(s: string, u: string)
    requires StarText(s) && CommaText(u)
    ensures ReplaceAll(s, "*", " ") == u
  {
    ReplaceAllAbsent(s[3..], "*", " ");
    assert s[2..][1..] == s[3..];
    assert ReplaceAll(s[2..], "*", " ") == " " + s[3..];
    assert s[1..][1..] == s[2..];
    assert ReplaceAll(s[1..], "*", " ") == [','] + " " + s[3..];
    assert ReplaceAll(s, "*", " ") == ['a'] + [','] + " " + s[3..];
  }

  /** Single-character patterns split off their first symbol. */
  lemma SinglesHead(symbols: string)
    requires |symbols| > 0
    ensures Singles(symbols)[0] == [symbols[0]]
    ensures Singles(symbols)[1..] == Singles(symbols[1..])
  {
  }

  /** The characters of "a, b" are not listed after the `*` the list opens with. */
  lemma RestAvoids(u: string, symbols: string)
    requires CommaText(u) && |symbols| > 0
    requires forall i :: 0 <= i < 4 ==> u[i] !in symbols
    ensures ' ' !in symbols[1..]
    ensures forall i :: 0 <= i < |u| ==> u[i] !in symbols[1..]
  {
    assert forall c :: c in symbols[1..] ==> c in symbols;
  }

  lemma StarIntended(s: string, u: string)
    requires StarText(s) && CommaText(u)
    ensures CleanTextForSpeech(s) == u
  {
    var all := SymbolsBefore + TypographicQuotes + SymbolsAfter;
    assert all[0] == '*';
    CommaSpaceApart(u);
    IntendedFacts();
    StarSingles(s, u, all);
    CommaAsIntended(s, u);
  }

  /** Non-empty text the intended list turns into "a, b" is cleaned to "a, b". */
  lemma CommaAsIntended(s: string, u: string)
    requires s != [] && CommaText(u)
    requires ValidPatterns(IntendedPatterns) && ReplaceEach(s, IntendedPatterns) == u
    ensures CleanTextForSpeech(s) == u
  {
    assert CleanWith(s, IntendedPatterns) == Finish(u);
    CommaSpaceClean(u);
    FinishOfClean(u);
    StripOfStripped(u);
  }

  lemma StarAsWritten(s: string, u: string, t: string)
    requires StarText(s) && CommaText(u) && SpacedText(t)
    ensures CleanTextForSpeechAsWritten(s) == t
  {
    StarReplaces(s, u, t);
    SpacedAsWritten(s, t);
  }

  /** Non-empty text the list as written turns into "a b" is cleaned to "a b". */
  lemma SpacedAsWritten(s: string, t: string)
    requires s != [] && SpacedText(t)
    requires ValidPatterns(AsWrittenPatterns) && ReplaceEach(s, AsWrittenPatterns) == t
    ensures CleanTextForSpeechAsWritten(s) == t
  {
    assert CleanWith(s, AsWrittenPatterns) == Finish(t);
    SpacedExample(t);
    FinishOfClean(t);
    StripOfStripped(t);
  }

  /** The whole list as written turns "a,*b" into "a b". */
  lemma StarReplaces(s: string, u: string, t: string)
    requires StarText(s) && CommaText(u) && SpacedText(t)
    ensures ValidPatterns(AsWrittenPatterns)
    ensures ReplaceEach(s, AsWrittenPatterns) == t
  {
    var quotes: seq<string> := [", ", "\"", "\""];
    StarBefore(s, u);
    QuotesStep(u, t);
    AfterUntouched(t);
    ReplaceEachConcat(s, Singles(SymbolsBefore), quotes);
    ReplaceEachConcat(s, Singles(SymbolsBefore) + quotes, Singles(SymbolsAfter));
  }

  /** The symbols before the quotes turn "a,*b" into "a, b". */
  lemma StarBefore(s: string, u: string)
    requires StarText(s) && CommaText(u)
    ensures ValidPatterns(Singles(SymbolsBefore))
    ensures ReplaceEach(s, Singles(SymbolsBefore)) == u
  {
    BeforeLacks();
    CommaSpaceApart(u);
    StarSingles(s, u, SymbolsBefore);
  }

  /** A list of single symbols that opens with `*` and names no character of "a, b". */
  lemma StarSingles(s: string, u: string, symbols: string)
    requires StarText(s) && CommaText(u)
    requires |symbols| > 0 && symbols[0] == '*' && ' ' !in symbols
    requires forall i :: 0 <= i < 4 ==> u[i] !in symbols
    ensures ValidPatterns(Singles(symbols))
    ensures ReplaceEach(s, Singles(symbols)) == u
  {
    SinglesFacts(symbols);
    SinglesHead(symbols);
    StarBlanked(s, u);
    RestAvoids(u, symbols);
    SinglesUntouched(symbols[1..], u);
  }

  /** Deleting the comma of "a, b" leaves "a b". */
  lemma DropComma(s: string)
    requires CommaText(s)
    ensures SpacedText(s[..1] + s[2..])
  {
  }

  lemma AsWrittenExample(s: string, t: string)
    requires CommaText(s) && SpacedText(t)
    ensures CleanTextForSpeechAsWritten(s) == t
  {
    AsWrittenReplaces(s, t);
    assert CleanWith(s, AsWrittenPatterns) == Finish(t);
    SpacedExample(t);
    FinishOfClean(t);
    StripOfStripped(t);
  }

  lemma SpacedExample(t: string)
    requires SpacedText(t)
    ensures forall i :: 0 <= i < |t| ==> Kept(t[i])
    ensures SingleSpaced(t) && Stripped(t)
    ensures '*' !in t && '_' !in t && '`' !in t && '\\' !in t
  {
    assert IsWordChar('a') && IsWordChar('b') && IsSpace(' ');
    assert !IsSpace('a') && !IsSpace('b');
  }

  lemma CommaSpaceClean(s: string)
    requires CommaText(s)
    ensures SpeechClean(s)
  {
    CommaSpaceApart(s);
    forall i | 0 <= i < |s| ensures SpeechSafe(s[i], IntendedPatterns) && (IsSpace(s[i]) <==> i == 2) {
      CommaCharSafe(s[i]);
    }
    assert AllSafe(s, IntendedPatterns);
    assert SingleSpaced(s);
  }

  /** Each character of "a, b" may be emitted, and only the space is whitespace. */
  lemma CommaCharSafe(c: char)
    requires c == 'a' || c == ',' || c == ' ' || c == 'b'
    requires c !in SymbolsBefore + TypographicQuotes + SymbolsAfter
    ensures SpeechSafe(c, IntendedPatterns) && (IsSpace(c) <==> c == ' ')
  {
    NotListed(c);
    assert IsWordChar('a') && IsWordChar('b');
  }

  /** ASCII letters and digits are never listed, so the cleaner may emit them. */
  lemma AlnumSafe(c: char)
    requires IsAsciiLetter(c) || IsDigit(c)
    ensures SpeechSafe(c, IntendedPatterns)
  {
    SymbolsNotAlnum(SymbolsBefore);
    SymbolsNotAlnum(TypographicQuotes);
    SymbolsNotAlnum(SymbolsAfter);
    NotListed(c);
  }

  lemma SymbolsNotAlnum(symbols: string)
    requires symbols == SymbolsBefore || symbols == TypographicQuotes || symbols == SymbolsAfter
    ensures forall c :: c in symbols ==> !IsAsciiLetter(c) && !IsDigit(c)
  {
  }

  lemma NotListed(c: char)
    requires c !in SymbolsBefore + TypographicQuotes + SymbolsAfter
    ensures !Listed(c, IntendedPatterns)
  {
    var all := SymbolsBefore + TypographicQuotes + SymbolsAfter;
    forall i | 0 <= i < |IntendedPatterns| ensures IntendedPatterns[i] != [c] {
      assert IntendedPatterns[i] == [all[i]];
    }
  }

  /** None of the characters of "a, b" is a listed symbol. */
  lemma CommaSpaceApart(s: string)
    requires CommaText(s)
    ensures forall i :: 0 <= i < 4 ==> s[i] !in SymbolsBefore + TypographicQuotes + SymbolsAfter
  {
    BeforeLacks();
    AfterLacks();
  }

  lemma BeforeLacks()
    ensures ' ' !in SymbolsBefore && 'a' !in SymbolsBefore && ',' !in SymbolsBefore && 'b' !in SymbolsBefore
  {
    BeforeLacksPunctuation();
    BeforeLacksLetters();
  }

  lemma BeforeLacksPunctuation()
    ensures ' ' !in SymbolsBefore && ',' !in SymbolsBefore
  {
  }

  lemma BeforeLacksLetters()
    ensures 'a' !in SymbolsBefore && 'b' !in SymbolsBefore
  {
  }

  lemma AfterLacks()
    ensures ' ' !in SymbolsAfter && 'a' !in SymbolsAfter && ',' !in SymbolsAfter && 'b' !in SymbolsAfter
  {
    AfterLacksPunctuation();
    AfterLacksLetters();
  }

  lemma AfterLacksPunctuation()
    ensures ' ' !in SymbolsAfter && ',' !in SymbolsAfter
  {
  }

  lemma AfterLacksLetters()
    ensures 'a' !in SymbolsAfter && 'b' !in SymbolsAfter
  {
  }

  lemma AsWrittenReplaces(s: string, t: string)
    requires CommaText(s) && SpacedText(t)
    ensures ValidPatterns(AsWrittenPatterns)
    ensures ReplaceEach(s, AsWrittenPatterns) == t
  {
    var quotes: seq<string> := [", ", "\"", "\""];
    QuotesStep(s, t);
    BeforeUntouched(s);
    AfterUntouched(t);
    ReplaceEachConcat(s, Singles(SymbolsBefore), quotes);
    ReplaceEachConcat(s, Singles(SymbolsBefore) + quotes, Singles(SymbolsAfter));
  }

  lemma BeforeUntouched(s: string)
    requires CommaText(s)
    ensures ValidPatterns(Singles(SymbolsBefore))
    ensures ReplaceEach(s, Singles(SymbolsBefore)) == s
  {
    BeforeLacks();
    Avoids(s, SymbolsBefore);
    SinglesUntouched(SymbolsBefore, s);
  }

  lemma AfterUntouched(t: string)
    requires SpacedText(t)
    ensures ValidPatterns(Singles(SymbolsAfter))
    ensures ReplaceEach(t, Singles(SymbolsAfter)) == t
  {
    AfterLacks();
    Avoids(t, SymbolsAfter);
    SinglesUntouched(SymbolsAfter, t);
  }

  lemma Avoids(s: string, symbols: string)
    requires forall i :: 0 <= i < |s| ==> s[i] == 'a' || s[i] == ',' || s[i] == ' ' || s[i] == 'b'
    requires ' ' !in symbols && 'a' !in symbols && ',' !in symbols && 'b' !in symbols
    ensures forall i :: 0 <= i < |s| ==> s[i] !in symbols
  {
  }

  /** Single-character patterns for characters `s` lacks leave `s` alone. */
  lemma SinglesUntouched(symbols: string, s: string)
    requires ' ' !in symbols
    requires forall i :: 0 <= i < |s| ==> s[i] !in symbols
    ensures ValidPatterns(Singles(symbols))
    ensures ReplaceEach(s, Singles(symbols)) == s
  {
    var ps := Singles(symbols);
    forall p | p in ps ensures |p| > 0 && p != " " && p[0] !in s {
      var i :| 0 <= i < |symbols| && ps[i] == p;
      assert p == [symbols[i]];
    }
    ReplaceEachAbsent(s, ps);
  }

  /** The comma-space pattern turns "a, b" into "a b"; the straight quotes change nothing. */
  lemma QuotesStep(s: string, t: string)
    requires CommaText(s) && SpacedText(t)
    ensures ValidPatterns([", ", "\"", "\""])
    ensures ReplaceEach(s, [", ", "\"", "\""]) == t
  {
    var quotes: seq<string> := [", ", "\"", "\""];
    var tail := s[1..];
    assert tail[..2] == ", " && tail[2..] == s[3..];
    assert ReplaceAll(s[3..], ", ", " ") == s[3..];
    assert ReplaceAll(tail, ", ", " ") == " " + s[3..];
    assert s[..2] != ", ";
    assert ReplaceAll(s, ", ", " ") == [s[0]] + " " + s[3..] == t;
    ReplaceAllAbsent(t, "\"", " ");
    assert ReplaceEach(t, []) == t;
    assert ReplaceEach(t, ["\""]) == t;
    assert quotes[1..] == ["\"", "\""];
    assert ReplaceEach(t, quotes[1..]) == t;
  }

  lemma {:induction false} NonSpaceCount(s: string, x: char)
    requires !IsSpace(x)
    ensures multiset(NonSpace(s))[x] == multiset(s)[x]
  {
    if s != [] {
      NonSpaceCount(s[1..], x);
      assert s == [s[0]] + s[1..];
    }
  }

  // ---------------------------------------------------------------------------------------
  // clean_url and clean_string_for_metadata
  // ---------------------------------------------------------------------------------------

  /** A character `clean_url` keeps: code point 32 or above, and not a space. */
  predicate UrlKeeps(c: char) {
    c as int >= 32 && c != ' '
  }

  /**
   * `clean_url`: strip, then drop control characters and spaces. Every character left is one
   * the filter keeps, and the visible characters it keeps are those of the URL, in order.
   */
  function CleanUrl(url: string): (r: string)
    ensures url == [] ==> r == []
    ensures forall i :: 0 <= i < |r| ==> UrlKeeps(r[i])
    ensures NonSpace(r) == Filter(NonSpace(url), UrlKeeps)
    ensures forall x :: UrlKeeps(x) && !IsSpace(x) ==> multiset(r)[x] == multiset(url)[x]
    ensures multiset(r) <= multiset(url)
  {
    if url == [] then []
    else
      UrlCount(url);
      StripMultiset(url);
      NonSpaceFilter(Strip(url));
      StripNonSpace(url);
      Filter(Strip(url), UrlKeeps)
  }

  /** Dropping whitespace and filtering URL characters can be done in either order. */
  lemma {:induction false} NonSpaceFilter(s: string)
    ensures NonSpace(Filter(s, UrlKeeps)) == Filter(NonSpace(s), UrlKeeps)
  {
    if s != [] {
      NonSpaceFilter(s[1..]);
      var head := if UrlKeeps(s[0]) then [s[0]] else [];
      assert Filter(s, UrlKeeps) == head + Filter(s[1..], UrlKeeps);
      NonSpaceConcat(head, Filter(s[1..], UrlKeeps));
      var solid := if IsSpace(s[0]) then [] else [s[0]];
      assert NonSpace(s) == solid + NonSpace(s[1..]);
      FilterConcat(solid, NonSpace(s[1..]), UrlKeeps);
    }
  }

  lemma StripCount(s: string, x: char)
    requires !IsSpace(x)
    ensures multiset(Strip(s))[x] == multiset(s)[x]
  {
    StripNonSpace(s);
    NonSpaceCount(Strip(s), x);
    NonSpaceCount(s, x);
  }

  lemma UrlCount(url: string)
    ensures forall x :: UrlKeeps(x) && !IsSpace(x) ==>
      multiset(Filter(Strip(url), UrlKeeps))[x] == multiset(url)[x]
  {
    forall x | UrlKeeps(x) && !IsSpace(x)
      ensures multiset(Filter(Strip(url), UrlKeeps))[x] == multiset(url)[x]
    {
      FilterCount(Strip(url), UrlKeeps, x);
      StripCount(url, x);
    }
  }

  /** A URL is left unchanged exactly when it is stripped and every character is kept. */
  lemma CleanUrlFixpoint(url: string)
    ensures CleanUrl(url) == url <==> Stripped(url) && forall i :: 0 <= i < |url| ==> UrlKeeps(url[i])
  {
    if url != [] {
      if CleanUrl(url) == url {
        StripFull(url);
      }
      if Stripped(url) && forall i :: 0 <= i < |url| ==> UrlKeeps(url[i]) {
        StripOfStripped(url);
        FilterAll(url, UrlKeeps);
      }
    }
  }

  /**
   * Cleaning a URL twice changes nothing more, provided the URL holds no whitespace beyond
   * ASCII: the only whitespace a first pass can leave is a non-ASCII one it exposed at an end.
   */
  lemma CleanUrlIdempotent(url: string)
    requires forall i :: 0 <= i < |url| ==> IsSpace(url[i]) ==> url[i] as int <= 32
    ensures CleanUrl(CleanUrl(url)) == CleanUrl(url)
  {
    var r := CleanUrl(url);
    CleanUrlNoSpace(url);
    assert Stripped(r);
    CleanUrlFixpoint(r);
  }

  /** With only ASCII whitespace in the URL, none survives: the filter drops all of it. */
  lemma CleanUrlNoSpace(url: string)
    requires forall i :: 0 <= i < |url| ==> IsSpace(url[i]) ==> url[i] as int <= 32
    ensures forall i :: 0 <= i < |CleanUrl(url)| ==> !IsSpace(CleanUrl(url)[i])
  {
    var r := CleanUrl(url);
    forall i | 0 <= i < |r| ensures !IsSpace(r[i]) {
      assert r[i] in multiset(url);
      var j :| 0 <= j < |url| && url[j] == r[i];
      KeptNotSpace(r[i]);
    }
  }

  /** A character the URL filter keeps is whitespace only if it lies beyond ASCII. */
  lemma KeptNotSpace(c: char)
    requires UrlKeeps(c) && (IsSpace(c) ==> c as int <= 32)
    ensures !IsSpace(c)
  {
  }

  /** Without that proviso a second pass can shorten the URL again. */
  lemma CleanUrlTwice(url: string)
    requires |url| == 3 && url[0] == 'a' && url[1] == '\U{A0}' && url[2] == '\U{1}'
    ensures CleanUrl(url) == url[..2] && CleanUrl(CleanUrl(url)) == url[..1]
    ensures CleanUrl(CleanUrl(url)) != CleanUrl(url)
  {
    UrlFirstPass(url);
    var once := url[..2];
    assert once[..1] == url[..1];
    UrlSecondPass(once);
  }

  lemma UrlFirstPass(s: string)
    requires |s| == 3 && s[0] == 'a' && s[1] == '\U{A0}' && s[2] == '\U{1}'
    ensures CleanUrl(s) == s[..2]
  {
    assert !IsSpace(s[0]) && !IsSpace(s[2]);
    CleanUrlKeeps(s, 2);
  }

  /** A stripped URL whose first `n` characters are kept and whose rest is dropped cleans to those `n`. */
  lemma CleanUrlKeeps(s: string, n: nat)
    requires 0 < n <= |s| && Stripped(s)
    requires forall i :: 0 <= i < n ==> UrlKeeps(s[i])
    requires forall i :: n <= i < |s| ==> !UrlKeeps(s[i])
    ensures CleanUrl(s) == s[..n]
  {
    StripOfStripped(s);
    var kept, dropped := s[..n], s[n..];
    assert s == kept + dropped;
    FilterAll(kept, UrlKeeps);
    FilterNone(dropped, UrlKeeps);
    FilterConcat(kept, dropped, UrlKeeps);
    CleanUrlOf(s);
  }

  /** A non-empty URL is cleaned by stripping it and then filtering what is left. */
  lemma CleanUrlOf(url: string)
    requires url != []
    ensures CleanUrl(url) == Filter(Strip(url), UrlKeeps)
  {
  }

  lemma UrlSecondPass(t: string)
    requires |t| == 2 && t[0] == 'a' && t[1] == '\U{A0}'
    ensures CleanUrl(t) == t[..1]
  {
    assert Lead(t) == 0 && Trail(t) == 1;
    assert Strip(t) == t[..1];
    FilterAll(t[..1], UrlKeeps);
    CleanUrlOf(t);
  }

  /** `text[:n]` with Python's slice bound: a negative `n` counts from the end. */
  function PyPrefix(s: string, n: int): (r: string)
    ensures |r| <= |s| && r == s[..|r|]
    ensures n >= 0 ==> |r| == if n < |s| then n else |s|
    ensures n < 0 ==> |r| == if |s| + n > 0 then |s| + n else 0
  {
    if n >= |s| then s
    else if n >= 0 then s[..n]
    else if |s| + n > 0 then s[..|s| + n]
    else []
  }

  /** A printable ASCII character, code points 32 through 126. */
  predicate Printable(c: char) {
    32 <= c as int < 127
  }

  /** What `clean_string_for_metadata` cleans before it truncates. */
  function MetadataText(s: string, preserveUrl: bool): string {
    if preserveUrl then CleanUrl(s) else Filter(CleanTextForSpeech(s), Printable)
  }

  /**
   * `clean_string_for_metadata`: the URL cleaner or the speech cleaner (then printable ASCII
   * only), cut to `maxLen` characters with Python's slice semantics.
   */
  function CleanStringForMetadata(s: string, maxLen: int, preserveUrl: bool): (r: string)
    ensures s == [] ==> r == []
    ensures maxLen >= 0 ==> |r| <= maxLen
    ensures |r| <= |MetadataText(s, preserveUrl)| && r == MetadataText(s, preserveUrl)[..|r|]
    ensures var m := |MetadataText(s, preserveUrl)|;
      |r| == if maxLen >= 0 then (if maxLen < m then maxLen else m)
             else (if m + maxLen > 0 then m + maxLen else 0)
    ensures forall i :: 0 <= i < |r| ==> MetadataChar(r[i], preserveUrl)
  {
    if s == [] then
      MetadataTextEmpty(preserveUrl);
      []
    else
      var m := MetadataText(s, preserveUrl);
      MetadataSafe(s, preserveUrl);
      PrefixSafe(m, maxLen, preserveUrl);
      PyPrefix(m, maxLen)
  }

  /**
   * A character the metadata cleaner can leave: one the URL filter keeps when the URL is
   * preserved, and otherwise printable ASCII that the speech cleaner lets through.
   */
  predicate MetadataChar(c: char, preserveUrl: bool) {
    if preserveUrl then UrlKeeps(c) else Printable(c) && SpeechSafe(c, IntendedPatterns)
  }

  lemma PrefixSafe(m: string, maxLen: int, preserveUrl: bool)
    requires forall i :: 0 <= i < |m| ==> MetadataChar(m[i], preserveUrl)
    ensures forall i :: 0 <= i < |PyPrefix(m, maxLen)| ==> MetadataChar(PyPrefix(m, maxLen)[i], preserveUrl)
  {
    var r := PyPrefix(m, maxLen);
    forall i | 0 <= i < |r| ensures MetadataChar(r[i], preserveUrl) {
      assert r[i] == m[i];
    }
  }

  /** Nothing to clean gives nothing to store. */
  lemma MetadataTextEmpty(preserveUrl: bool)
    ensures MetadataText([], preserveUrl) == []
  {
    if !preserveUrl {
      assert CleanTextForSpeech([]) == [];
    }
  }

  lemma MetadataSafe(s: string, preserveUrl: bool)
    ensures var m := MetadataText(s, preserveUrl);
      forall i :: 0 <= i < |m| ==> MetadataChar(m[i], preserveUrl)
  {
    if !preserveUrl {
      var spoken := CleanTextForSpeech(s);
      var m := Filter(spoken, Printable);
      forall i | 0 <= i < |m| ensures SpeechSafe(m[i], IntendedPatterns) {
        assert m[i] in multiset(spoken);
      }
    }
  }

  /** A larger limit of the same sign only lets more of the same text through (a negative
      limit counts from the end, as Python slicing does, so -1 keeps more than 0). */
  lemma MetadataMonotone(s: string, a: int, b: int, preserveUrl: bool)
    requires a <= b && (0 <= a || b < 0)
    ensures var short := CleanStringForMetadata(s, a, preserveUrl);
      var long := CleanStringForMetadata(s, b, preserveUrl);
      |short| <= |long| && short == long[..|short|]
  {
    if s != [] {
      PyPrefixMonotone(MetadataText(s, preserveUrl), a, b);
    }
  }

  lemma PyPrefixMonotone(m: string, a: int, b: int)
    requires a <= b && (0 <= a || b < 0)
    ensures |PyPrefix(m, a)| <= |PyPrefix(m, b)|
    ensures PyPrefix(m, a) == PyPrefix(m, b)[..|PyPrefix(m, a)|]
  {
    var short := PyPrefix(m, a);
    var long := PyPrefix(m, b);
    assert long[..|short|] == m[..|short|];
  }

  /** Clean printable text within the limit is stored exactly as given. */
  lemma MetadataKeepsClean(s: string, maxLen: int)
    requires SpeechClean(s) && |s| <= maxLen
    requires forall i :: 0 <= i < |s| ==> Printable(s[i])
    ensures CleanStringForMetadata(s, maxLen, false) == s
  {
    if s != [] {
      CleanFixpoint(s);
      FilterAll(s, Printable);
    }
  }

  /** A clean URL within the limit is stored exactly as given. */
  lemma MetadataKeepsUrl(url: string, maxLen: int)
    requires Stripped(url) && |url| <= maxLen
    requires forall i :: 0 <= i < |url| ==> UrlKeeps(url[i])
    ensures CleanStringForMetadata(url, maxLen, true) == url
  {
    CleanUrlFixpoint(url);
  }
}

=== FILE: wrappers.dfy ===
/** Optional values: Python's `None` versus a present value. */
module Wrappers {

  datatype Option<+T> = None | Some(value: T) {

    /** The value, or `default` when absent (Python's `x if x is not None else default`). */
    function GetOr(default: T): T {
      match this
      case Some(v) => v
      case None => default
    }
  }
}
